=== FILE: README.md ===
# obsidian-interviewer, modelled in Dafny

The plugin keeps interview questions in markdown notes and rewrites those notes as plain text. A note is split on `'\n'` into lines, edited as an array and joined again with `'\n'`. This project models that text processing as pure functions over `seq<string>`, with the host's inputs passed in as parameters. Those inputs are the note's text, the clicked heading or callout title, the answer typed into the dialog, the current timestamp and the vault's notes.

| file | module | what it models |
|---|---|---|
| text.dfy | `Wrappers`, `Text` | `Option`; the string primitives the code relies on: `trim` (the ECMAScript white-space set), `split`/`join`, `splice`, `indexOf`, first-occurrence `replace`, ASCII `toLowerCase` |
| questions.dfy | `Questions` | the `Difficulty` and `Question` records and the stable sort easy < medium < hard |
| syntax.dfy | `Syntax` | the line recognisers, written as deterministic parsers rather than regular expressions: the heading question `# text #easy`, the `?` marker, `> @candidate`, quoted content, the callout header `> [!question]- <marker> text`, "not a quote line", a `## ` line; also the `> ` quoting of answer lines |
| reorganise.dfy | `Reorganiser` | the section button: the scan over the note that collects the answered questions of `## <title>` and appends them sorted |
| heading_patch.dfy, heading_properties.dfy | `HeadingPatch`, `HeadingProperties` | the candidate-answer button on a heading question: locate, detect an existing answer, splice in the candidate block |
| callout_patch.dfy, callout_properties.dfy | `CalloutPatch`, `CalloutProperties` | the candidate-answer button on a callout question: locate, find and read an `@candidate` block, then remove, replace or insert it |
| extract.dfy | `Extractor` | `extractQuestionsFromFile` and `createInteractiveQuestion`: gather the heading questions of a note outside `---` fences, sort them, write each as a collapsed callout |
| slug.dfy | `Slug` | `slugify` |
| escape.dfy | `Escape` | `escapeRegExp` |
| assemble.dfy | `Assemble` | the string logic of `createInterviewNotes`: date, folder and file name, `{{date}}`, questions added after each `[[link]]`, the tag at the end |

Each button is stated once over a record of line tests (`Tests`), and its properties are proved at that level (`...With` lemmas). The plugin's own recognisers are then plugged in, giving the concrete lemmas in the `*Properties` modules.

The extractor's answer branch re-tests the header and candidate-start patterns (main.ts:734-757). Both tests have already failed on that line, because the earlier branches `continue`, so the model carries `assert false` there.

## Model

| member | source | states |
|---|---|---|
| Text.TrimShape | main.ts:89 | a trimmed line neither starts nor ends with white space, and it is empty exactly when the line was all white space |
| Text.JoinSplit | main.ts:64 | joining the split lines with `'\n'` gives back the note's text |
| Text.SplitJoin | main.ts:224 | lines without `'\n'`, joined and split again, are the same lines |
| Text.SpliceFrame | main.ts:345 | within bounds, `splice(start, count, ...items)` keeps every line before `start` in place, puts the items at `start`, and shifts every line after the deleted run by the change in length; the length changes by `items - count` |
| Text.SplicePastEnd | main.ts:349 | a start past the end of the array appends the items |
| Text.SpliceTail | main.ts:345 | a count that reaches the end removes the whole tail from `start`, as when the answer region runs to the end of the note |
| Text.IndexOf | main.ts:602 | the index found is an occurrence at or after `from`, and no earlier occurrence exists; no index means no occurrence |
| Text.ReplaceFirst | main.ts:68 | stated against the occurrences alone: the text changes only at the first position where the pattern occurs, there replaced by the replacement, and is unchanged when the pattern occurs nowhere |
| Questions.ParseWord | main.ts:117 | the difficulty word matches case-insensitively, and the parsed difficulty's word is the lower-cased input |
| Questions.SortByDifficulty | main.ts:200-204 | the result is sorted easy, medium, hard, is a permutation of the input, and keeps the input order within each difficulty |
| Questions.SortedIsBands | main.ts:200-204 | a sorted list is its easy questions, then its medium ones, then its hard ones |
| Questions.StableSortUnique | main.ts:200-204 | any sorted list with the same per-difficulty order is the stable sort's result, as the stable `Array.prototype.sort` guarantees |
| Syntax.HeaderMatchShape | main.ts:117 | a matched heading line starts with `#` and a space, and its captured text is trimmed and single-line |
| Syntax.HeaderParses | main.ts:117 | `#`, spaces, text, spaces, `#` and a difficulty word in any case parse to the trimmed text and that difficulty |
| Syntax.TagAtOf | main.ts:117 | a line body ending in `#` and a difficulty word, in any case, is read as that difficulty |
| Syntax.HeaderRoundTrip | main.ts:208 | the header line `# t #d` written for a question parses back to `t` and `d` |
| Syntax.CaptureRestShape | main.ts:406 | what `\s*(.+)$` captures is a non-empty single-line suffix after white space |
| Syntax.CalloutLineShape | main.ts:408 | the content of a quote line is the rest of the line after `>` and any white space |
| Syntax.CalloutMatchTrimmed | main.ts:406 | a callout header starts with `>` and its captured title is trimmed |
| Syntax.CalloutRoundTrip | main.ts:810 | the header `> [!question]- <marker> t` written for a question is recognised with title `t` |
| Syntax.CalloutLineOfQuote | main.ts:512 | the quote line `> l` reads back as `l` when `l` does not start with white space |
| Syntax.QuoteLineShape | main.ts:409 | a quoted line is a quote line and not a `## ` line |
| Reorganiser.StepOut | main.ts:87-186 | one line only appends to the output; a line outside the section body is appended last |
| Reorganiser.StepKeepsOutside | main.ts:91-114 | one line keeps the copied lines a subsequence of the output and adds the line when it is outside the section body |
| Reorganiser.RunKeepsOutside | main.ts:87-187 | after any run of lines the output holds, in order, every line outside a section body |
| Reorganiser.ReorganiseKeepsOutside | main.ts:75-217 | the new note holds every line outside the body of `## <title>` unchanged and in the original order |
| Reorganiser.ReorganiseWithoutSection | main.ts:87-114 | a note without a `## <title>` line is written back unchanged |
| Reorganiser.StepWellFormed | main.ts:122-186 | one line keeps the open question's text trimmed and single-line, and every collected question's text non-empty, trimmed and single-line |
| Reorganiser.CollectedGood | main.ts:122-198 | every collected question has non-empty, trimmed, single-line text |
| Reorganiser.SortedGood | main.ts:200-204 | sorting keeps that property |
| Reorganiser.RenderedHeaderReparses | main.ts:207-208 | the first line written for a question parses back to its text and difficulty |
| Reorganiser.AppendedHeadersReparse | main.ts:189-217 | every appended question's header line parses back to that question's text and difficulty |
| Reorganiser.ReorganiseAppendsSorted | main.ts:189-217 | the note is the loop's copied lines followed by the rendering of a sorted, stable permutation of the collected questions |
| HeadingPatch.LocateWithFinds | main.ts:288-294 | the click finds the first heading whose text is the target, and finds none exactly when no line carries it |
| HeadingPatch.LocateWithAnswer | main.ts:298-319 | an answer is detected exactly when `?` follows the heading and a non-blank line precedes the next heading or `## ` line; it starts two lines below, and its text is the non-blank lines joined |
| HeadingPatch.LocateWithReads | main.ts:298-319 | the existing answer read is the non-blank lines of the answer region, or empty when none was detected |
| HeadingPatch.PatchFrameWith | main.ts:324-356 | the edit replaces lines from two below the heading up to the region's end (or nothing) by the candidate block and keeps all other lines; an empty answer or a missing question leaves the note alone |
| HeadingPatch.PatchReadBackWith | main.ts:298-350 | after inserting a non-empty answer below a `?` line, the next click finds the same heading and detects an answer at two lines below it whose text is the inserted block's lines (`> @candidate` and the quoted answer lines) joined with `'\n'` |
| HeadingPatch.PatchTwiceWith | main.ts:334-345 | editing a detected answer twice gives the note of the second edit alone |
| HeadingProperties.LocateFindsFirst | main.ts:285-294 | the heading found is the first whose trimmed capture equals the displayed text without its marker |
| HeadingProperties.PatchReadBack | main.ts:288-350 | for the heading dialect: after a non-empty answer is inserted below a `?` line, the next click detects, at the same heading, an existing answer two lines below it that is the inserted block `> @candidate`, `> l`, ... joined with `'\n'` |
| HeadingProperties.PatchTwice | main.ts:288-350 | resubmitting replaces the earlier submission, with no trace of it left |
| CalloutPatch.LocateWith | main.ts:411-471 | the question, the block's first line and its last line lie in that order inside the note |
| CalloutPatch.LocateWithFinds | main.ts:411-417 | the click finds the first callout header whose title is the target, and finds none exactly when no line carries it |
| CalloutPatch.LocateWithCandidate | main.ts:420-433 | a block is found exactly when an `@candidate` line precedes the first stopping line below the question, and it starts at the first one |
| CalloutPatch.LocateWithReads | main.ts:434-468 | the block ends at the last quote line, or at a blank line after it, and the existing answer is the content of its quote lines joined |
| CalloutPatch.InsertReadBackWith | main.ts:517-531 | for a question without a block and a non-blank answer none of whose quoted lines stops the scan and each of which reads back as itself: the next click finds the same question, a block just after the separator, and the answer itself as the existing one |
| CalloutPatch.InsertThenClearWith | main.ts:484-531 | for a question without a block and a non-blank answer none of whose quoted lines stops the scan, when the line before the insertion point is not a bare `>` and the line at it (if any) is neither blank nor a stopping blank line: inserting the answer and then submitting a blank one gives back the original note |
| CalloutPatch.ReplaceReadBackWith | main.ts:505-515 | for a question with a block and a non-blank answer whose quoted lines do not stop the scan and read back as themselves, when the line after the removed range stops the scan: the next click finds the block at the same start and reads the new answer |
| CalloutPatch.ReplaceTwiceWith | main.ts:505-515 | for a question with a block and a non-blank first answer whose quoted lines do not stop the scan, when the line after the removed range stops the scan, is not a stopping blank line and is not blank: replacing twice gives the note of the second replacement alone |
| CalloutProperties.LocateFindsFirst | main.ts:406-417 | the callout found is the first whose trimmed title equals the displayed title without its marker and pencil |
| CalloutProperties.LocateFindsBlock | main.ts:420-433 | the block found is the first `@candidate` line among the question's quote lines |
| CalloutProperties.CalloutReadsBack | main.ts:456-458 | each quoted answer line reads back as the line itself |
| CalloutProperties.PatchNotFound | main.ts:478-539 | the dialog reports a missing question exactly when no callout carries the title |
| CalloutProperties.BlankWithoutBlock | main.ts:516-531 | a blank answer with no existing block writes the note back unchanged |
| CalloutProperties.InsertReadBack | main.ts:517-531 | for a question without a block and a non-blank answer whose quoted lines form no callout header and whose lines neither start with white space nor hold a line terminator: the next click finds the same question and reads the submitted answer back |
| CalloutProperties.InsertThenClear | main.ts:484-531 | for a question without a block and a non-blank answer whose quoted lines form no callout header, when the last line of the question's run is not a bare `>` and the line after it is not blank: inserting the answer and then clearing it restores the note |
| CalloutProperties.ReplaceReadBack | main.ts:505-515 | for a question with a block and a non-blank answer whose quoted lines form no callout header and whose lines neither start with white space nor hold a line terminator, when the line after the removed block and trailing blank line stops the scan: the next click reads the new answer from the same block |
| CalloutProperties.ReplaceTwice | main.ts:505-515 | for a question with a block and a non-blank first answer whose quoted lines form no callout header, when the line after the removed block and trailing blank line stops the scan and is not blank: replacing twice leaves only the second answer |
| CalloutProperties.TitleFindsHeader | main.ts:398 | the title shown for a written callout header leads the click back to that header |
| Extractor.DifficultyMarker | main.ts:800-804 | the marker is a difficulty marker, and it is the question mark exactly when the word is not easy, medium or hard |
| Extractor.InteractiveJoined | main.ts:806-818 | the callout text is its lines joined with `'\n'` |
| Extractor.InteractiveLines | main.ts:806-818 | the callout splits into the header, one quoted line per answer line and, for a non-blank candidate answer, `>`, `> @candidate` and one quoted line per candidate line |
| Extractor.FirstCalloutLine | main.ts:810 | the first line is the header with the difficulty's marker and the question |
| Extractor.InteractiveHeader | main.ts:810 | the header written for a question is recognised by the callout pattern with that question as its title |
| Extractor.Extracted | main.ts:776-780 | the questions are sorted, a permutation of those gathered, and stable within each difficulty |
| Extractor.StepKeepsQuestion | main.ts:674-763 | a fence line, a line inside a fence or a non-heading line leaves the open question and the pushed ones alone |
| Extractor.RunHeads | main.ts:670-764 | the questions after any run of lines are those before plus one per counted heading |
| Extractor.GatheredHeaders | main.ts:670-774 | each heading question outside the `---` fences with non-empty text gives exactly one question, in order, answered or not |
| Extractor.FencedLinesIgnored | main.ts:674-681 | lines inside a fence change nothing |
| Extractor.HeadersGood | main.ts:684-701 | every counted heading has non-empty, trimmed, single-line text |
| Extractor.ExtractedGood | main.ts:652-780 | every extracted question has non-empty, trimmed, single-line text |
| Extractor.TrimBlocks | main.ts:782-788 | the final trim removes only the last block's trailing white space |
| Extractor.ExtractedText | main.ts:782-788 | the text returned is the callouts separated by blank lines, with the last one's end trimmed, or empty when there are no questions |
| Extractor.ExtractedHeaders | main.ts:785 | every extracted question's callout starts with a header recognised with that question's text |
| Slug.CollapseIsWords | main.ts:794 | replacing each run of other characters by `-` gives the slug words joined by `-`, with a dash at either end for leading or trailing other characters |
| Slug.StripEnds | main.ts:795 | stripping the leading and trailing dashes leaves the words joined by `-` |
| Slug.JoinedIsSlug | main.ts:794 | non-empty words of `[a-z0-9]` joined by `-` form a slug |
| Slug.WordsOfJoined | main.ts:794 | a slug splits back into the words it was joined from |
| Slug.SlugifyIsWords | main.ts:791-796 | the slug is the lower-cased text's maximal `[a-z0-9]` runs joined by `-` |
| Slug.SlugifyIsSlug | main.ts:791-796 | the slug uses only `[a-z0-9-]` and has no leading, trailing or doubled `-` |
| Slug.SlugIsLower | main.ts:793 | a slug is its own lower case |
| Slug.SlugifyIdempotent | main.ts:791-796 | slugifying a slug changes nothing |
| Escape.EscapeIsLiteral | main.ts:823 | the escaped text is a pattern in which every special character is behind a backslash |
| Escape.UnescapeEscape | main.ts:823 | the escaped pattern matches exactly the original text |
| Escape.EscapeUnescape | main.ts:823 | every such literal pattern is the escape of the text it matches |
| Escape.EscapeAppend | main.ts:823 | escaping works character by character |
| Escape.EscapeLength | main.ts:823 | the result grows by one backslash per special character |
| Escape.EscapePlain | main.ts:823 | text without special characters is unchanged |
| Escape.EscapeExample | tests/utils.test.ts:8-12 | `a+b*c` becomes `a\+b\*c` |
| Assemble.DateBeforeT | main.ts:580 | the date is the timestamp's part before its first `T` |
| Assemble.DateWithoutT | main.ts:580 | a timestamp without `T` is its own date |
| Assemble.DropSlashesSplits | main.ts:582 | the folder path is the setting without its trailing `/` run, and it does not end in `/` |
| Assemble.DropSlashesOf | main.ts:582 | any number of trailing `/` is removed, and nothing else |
| Assemble.FileNameOfFolder | main.ts:582-584 | the file name is `Interview <date>.md`, under the folder with one `/` when the folder is not empty |
| Assemble.SubstitutePlain | main.ts:602 | a replacement without `$` is inserted as it stands |
| Assemble.JsReplaceLiteral | main.ts:602 | `replace` with a string pattern and a `$`-free replacement changes the first occurrence only |
| Assemble.JsReplaceAtStart | main.ts:629 | a pattern at the start of the text is replaced there |
| Assemble.OpenRunShape | main.ts:605 | the run `[^\]]+` takes holds no `]` |
| Assemble.OpenRunOf | main.ts:605 | the run ends exactly at the next `]`, or at the end of the text |
| Assemble.NextLink | main.ts:609 | `exec` returns a link at or after `lastIndex` |
| Assemble.NextLinkFirst | main.ts:605-609 | no link starts between `lastIndex` and the one `exec` returns, and none at all after `lastIndex` when it returns null |
| Assemble.LinkAtIsLink | main.ts:610-611 | the match is `[[`, the link text without `]`, and `]]` |
| Assemble.IsLinkAt | main.ts:605 | any `[[t]]` with a non-empty, `]`-free `t` is matched with `t` as the link text |
| Assemble.Lookup | main.ts:616-620 | the note found has the link's name, ignoring case; none is found exactly when no note has it |
| Assemble.LookupFirst | main.ts:616-620 | `find` returns the first note with that name |
| Assemble.LinkedIsLink | main.ts:609 | every link visited by the loop starts a match |
| Assemble.ExpandAround | main.ts:604-633 | each visited link stays in place and is followed directly by its own note's questions, separated by a blank line; the text around it is kept |
| Assemble.ExpandUnresolved | main.ts:622-632 | when no link names a note, the text is unchanged |
| Assemble.AddLinksUnresolved | main.ts:609-633 | the loop as written also leaves the text unchanged when no link names a note |
| Assemble.UnlinkedNote | main.ts:577-641 | a template without resolvable links gets its first `{{date}}` replaced and the tag appended after a blank line |
| Assemble.RepeatedLinkAsWritten | main.ts:629 | `[[A]] [[A]]` gets both copies of the questions after its first link, where each link should get one |
| Assemble.DollarAsWritten | main.ts:629 | questions holding `$$` come out as `$`, where the text should be inserted verbatim |

## Left out

- The Obsidian host: the markdown post-processor, the DOM queries, buttons and their listeners (main.ts:24-58, 233-267, 365-392), the tag test that switches the buttons on (main.ts:33), the view refresh (main.ts:232-239), the answer dialog `CandidateAnswerModal`, the settings tab, loading and saving settings, the ribbon icon and the command. These are UI with no text logic of their own; the dialog's answer is a parameter.
- Vault I/O (`read`, `modify`, `create`, `createFolder`, `getAbstractFileByPath`, `getMarkdownFiles`, `openFile`): a note is its text or its lines, the vault is a sequence of `Note`s, and the template is an `Option<string>` (`None` when no template file exists). `Interview.folder` names the folder the command makes sure exists.
- The clock: `new Date().toISOString()` is the `iso` parameter.
- `console.log`, `Notice`, and the `try`/`catch` around the writes and the note assembly.
- The four difficulty markers are single code points. Without the `u` flag, `[🟢🟡🔴❓]` (main.ts:293, 398, 406) matches one UTF-16 code unit, so for the three emoji it strips only the high surrogate. The model strips the whole marker.
- CalloutProperties.LocateFindsFirst: in the source, the header regex (main.ts:406) captures the title after the high surrogate, and the title cleanup (main.ts:398) strips only the high surrogate too. Both keep the low surrogate, which tells 🟢, 🟡 and 🔴 apart. So the source matches only a header with the same marker, while the model ignores the marker. With the lines `> [!question]- 🟢 What` and `> [!question]- 🟡 What` and the title `🟡 What`, the model finds line 0 and the source finds line 1. The source also accepts a header with any other emoji whose high surrogate is U+D83D, such as 😀. The model's `CalloutMatch` rejects such a header.
- HeadingProperties.LocateFindsFirst: in the source, a displayed text with 🟢, 🟡 or 🔴 keeps the low surrogate after the cleanup (main.ts:293). For example, `🟢 What` becomes `\uDFE2 What`. A heading written in whole characters never has that capture, so the source finds no heading, while the model strips the whole marker and finds the heading `What`. For ❓ and for text without a marker, the two agree.
- HeadingPatch.Patch reads the note twice: once on the click and again when the dialog closes (main.ts:274, 330). The function takes both reads as separate parameters; its lemmas take them equal.
- CalloutPatch.Patch takes one buffer for both reads (main.ts:394, 479), because its removal scan indexes the second read with indices from the first. An edit made to the note while the dialog is open is a concurrency matter that is not modelled.
- Lookup: the link is matched against note names with ASCII-only case folding. JavaScript's full `toLowerCase` (main.ts:619) also folds non-ASCII letters, so `[[Über]]` finds a note named `über` in the source but not in `Assemble.Lookup`.
- Slugify: `toLowerCase` (main.ts:793) is modelled for ASCII letters only. The source maps, for example, the Kelvin sign U+212A to `k`, which the model drops as a non-slug character. `Slug.SlugifyIsWords`, `Slug.SlugifyIsSlug` and `Slug.SlugifyIdempotent` hold for this ASCII-only `Slugify`.
- DifficultyMarker: the source's object lookup (main.ts:800-804) also finds values for the names `Object.prototype` carries, such as `constructor`, `toString`, `valueOf` and `__proto__`, and writes that value instead of ❓. The contract's "question mark for any other word" ignores those names. The reader only ever passes easy, medium or hard.
- The unused `index` parameter of `createInteractiveQuestion` (main.ts:798) is dropped.
- The `createInteractiveQuestion` expectations in tests/utils.test.ts:28-30, 42-44 and 56-58 contradict the code. They expect a leading `\n`, no `>` separator line and a trailing `>`. The code (main.ts:810-816) is modelled.
- jest.config.js is test configuration with no behaviour.
- Reorganiser: the rebuilt note is not re-read by the same scan; no round trip or idempotence is claimed. The sorted questions are appended after the whole note, an open question is also pushed as a bare text line when its section ends (main.ts:104-106), and a multi-line candidate answer gets one `> ` prefix (main.ts:215). These are modelled as written.

## Findings

| source | as written | input that shows it | evidently intended | confidence | as-written member | corrected member |
|---|---|---|---|---|---|---|
| main.ts:629 | `processedContent.replace(fullMatch, ...)` replaces the first occurrence of the link text in the whole note, whichever link the loop is at | a template `[[A]] [[A]]` with a note `A` whose questions are `q`: both copies of `q` go after the first link, giving `[[A]]` + blank line + `q` + blank line + `q [[A]]` | each link followed by its own questions: `[[A]]` + blank line + `q [[A]]` + blank line + `q` | high; not executed | Assemble.RepeatedLinkAsWritten | Assemble.ExpandAround |
| main.ts:629 | the replacement is a string, so `String.prototype.replace` expands `$$`, `$&`, `` $` `` and `$'` inside the inserted questions | a linked note whose questions text is `$$`: the note gets `[[A]]` + blank line + `$` | the questions inserted verbatim: `[[A]]` + blank line + `$$` | high; not executed | Assemble.DollarAsWritten | Assemble.ExpandAround |

=== FILE: assemble.dfy ===
/**
 * The string logic of `createInterviewNotes`: the new note's file name
 * from the interview folder and the date, the template with its first
 * `{{date}}` filled in, the questions of every linked note added after
 * its `[[link]]`, and the interview tag appended at the end.
 *
 * The vault is a sequence of notes; the clock, the template file and the
 * vault writes are parameters or left out.
 */
module Assemble {
  import opened Wrappers
  import opened Text
  import Extractor

  /** A markdown note of the vault: its name without `.md`, and its text. */
  datatype Note = Note(basename: string, text: string)

  /** The settings the command reads. */
  datatype Settings = Settings(interviewFolder: string, interviewTag: string)

  /** The note the command creates: the folder it makes sure exists, the path and the text. */
  datatype Interview = Interview(folder: string, fileName: string, content: string)

  // ---------------------------------------------------------------------
  // Date and file name.

  /** `toISOString().split('T')[0]`: the part of the timestamp before the first `T`. */
  function DateOf(iso: string): string {
    Split(iso, 'T')[0]
  }

  /** `interviewFolder.replace(/\/+$/, '')`: the trailing run of `/` removed. */
  function DropSlashes(s: string): string
    decreases |s|
  {
    if s != [] && s[|s| - 1] == '/' then DropSlashes(s[..|s| - 1]) else s
  }

  /** `${folder}Interview ${date}.md`, where the folder gets one `/` when it is not empty. */
  function FileName(interviewFolder: string, date: string): string {
    var folderPath := DropSlashes(interviewFolder);
    var folder := if folderPath != [] then folderPath + "/" else [];
    folder + "Interview " + date + ".md"
  }

  // ---------------------------------------------------------------------
  // `String.prototype.replace` with a string pattern.

  /**
   * GetSubstitution (section 22.1.3.19.1 of ECMA-262) for a match without
   * capture groups: `$$` is `$`, `$&` the matched text, `` $` `` the text
   * before the match and `$'` the text after it; any other `$` stands for
   * itself.
   */
  function Substitute(matched: string, position: nat, str: string, rep: string): string
    requires position + |matched| <= |str|
    decreases |rep|
  {
    if rep == [] then []
    else if rep[0] == '$' && |rep| >= 2 && rep[1] == '$' then "$" + Substitute(matched, position, str, rep[2..])
    else if rep[0] == '$' && |rep| >= 2 && rep[1] == '&' then matched + Substitute(matched, position, str, rep[2..])
    else if rep[0] == '$' && |rep| >= 2 && rep[1] == '`' then str[..position] + Substitute(matched, position, str, rep[2..])
    else if rep[0] == '$' && |rep| >= 2 && rep[1] == '\'' then str[position + |matched|..] + Substitute(matched, position, str, rep[2..])
    else [rep[0]] + Substitute(matched, position, str, rep[1..])
  }

  /** `str.replace(pattern, rep)`: the first occurrence replaced, with `$` patterns expanded. */
  function JsReplace(str: string, pattern: string, rep: string): string {
    match IndexOf(str, pattern, 0)
    case None => str
    case Some(p) => str[..p] + Substitute(pattern, p, str, rep) + str[p + |pattern|..]
  }

  // ---------------------------------------------------------------------
  // `/\[\[([^\]]+)\]\]/g`

  /** The length of the run of characters other than `]` from `i` on. */
  function OpenRun(s: string, i: nat): (n: nat)
    ensures i + n <= |s| || (i > |s| && n == 0)
    ensures i + n < |s| ==> s[i + n] == ']'
    decreases |s| - i
  {
    if i < |s| && s[i] != ']' then 1 + OpenRun(s, i + 1) else 0
  }

  /**
   * The length of the link text when the pattern matches at `i`. `[^\]]+`
   * takes the whole run of non-`]` characters, and giving any back leaves
   * a character other than `]` where the `]]` must be, so the match is
   * unique.
   */
  function LinkAt(s: string, i: nat): Option<nat> {
    if i + 1 < |s| && s[i] == '[' && s[i + 1] == '[' then
      var k := OpenRun(s, i + 2);
      if k >= 1 && i + k + 3 < |s| && s[i + k + 3] == ']' then Some(k) else None
    else None
  }

  /** What it means for `[[t]]` to sit at `i`. */
  predicate IsLink(s: string, i: nat, t: string) {
    && i + |t| + 4 <= |s|
    && s[i..i + 2] == "[[" && s[i + 2..i + 2 + |t|] == t && s[i + 2 + |t|..i + |t| + 4] == "]]"
    && t != [] && ']' !in t
  }

  /** The next match at or after `from`: where the `g` flag's `lastIndex` resumes. */
  function NextLink(s: string, from: nat): (r: Option<nat>)
    ensures r.Some? ==> from <= r.value < |s| && LinkAt(s, r.value).Some?
    decreases |s| - from
  {
    if from >= |s| then None
    else if LinkAt(s, from).Some? then Some(from)
    else NextLink(s, from + 1)
  }

  /** No match is skipped: nothing between `from` and the next match matches. */
  lemma {:induction false} NextLinkFirst(s: string, from: nat)
    ensures forall j | from <= j && (NextLink(s, from).None? || j < NextLink(s, from).value) :: LinkAt(s, j).None?
    decreases |s| - from
  {
    if from < |s| && LinkAt(s, from).None? {
      NextLinkFirst(s, from + 1);
    }
  }

  /** The text between the brackets of the link at `i`. */
  function LinkText(s: string, i: nat): string
    requires LinkAt(s, i).Some?
  {
    s[i + 2..i + 2 + LinkAt(s, i).value]
  }

  /** Where the link at `i` ends. */
  function LinkEnd(s: string, i: nat): (e: nat)
    requires LinkAt(s, i).Some?
    ensures i + 5 <= e <= |s|
  {
    i + LinkAt(s, i).value + 4
  }

  // ---------------------------------------------------------------------
  // Linked notes.

  /** `files.find(...)`: the first note whose base name equals the link text, ignoring ASCII case. */
  function Lookup(vault: seq<Note>, linkText: string): (r: Option<Note>)
    ensures r.Some? ==> r.value in vault && Lower(r.value.basename) == Lower(linkText)
    ensures r.None? ==> forall n | n in vault :: Lower(n.basename) != Lower(linkText)
    decreases |vault|
  {
    if vault == [] then None
    else if Lower(vault[0].basename) == Lower(linkText) then Some(vault[0])
    else Lookup(vault[1..], linkText)
  }

  /** The lookup returns the first note whose name matches. */
  lemma {:induction false} LookupFirst(vault: seq<Note>, linkText: string, k: nat)
    requires k < |vault| && Lower(vault[k].basename) == Lower(linkText)
    requires forall j | 0 <= j < k :: Lower(vault[j].basename) != Lower(linkText)
    ensures Lookup(vault, linkText) == Some(vault[k])
    decreases k
  {
    if k > 0 {
      assert vault[1..][k - 1] == vault[k];
      LookupFirst(vault[1..], linkText, k - 1);
    }
  }

  /** The questions of the note a link names: `extractQuestionsFromFile`, or nothing when no note matches. */
  function QuestionsFor(vault: seq<Note>): string -> Option<string> {
    (linkText: string) =>
      match Lookup(vault, linkText)
      case None => None
      case Some(n) => Some(Extractor.ExtractQuestions(n.text))
  }

  /** What goes after a link: a blank line and the questions, or nothing. */
  function Block(questions: string -> Option<string>, linkText: string): string {
    match questions(linkText)
    case None => []
    case Some(q) => "\n\n" + q
  }

  // ---------------------------------------------------------------------
  // The links as the code adds them.

  /**
   * The `while (linkRegex.exec(content))` loop as written: the matches
   * are found in `content`, and each found note's questions go in with
   * `processedContent.replace(fullMatch, fullMatch + '\n\n' + questions)`.
   */
  function AddLinksAsWritten(processed: string, content: string, from: nat, questions: string -> Option<string>): string
    decreases |content| - from
  {
    match NextLink(content, from)
    case None => processed
    case Some(i) =>
      var full := content[i..LinkEnd(content, i)];
      var next :=
        match questions(LinkText(content, i))
        case None => processed
        case Some(q) => JsReplace(processed, full, full + "\n\n" + q);
      AddLinksAsWritten(next, content, LinkEnd(content, i), questions)
  }

  /** `createInterviewNotes` as written. */
  function InterviewNoteAsWritten(settings: Settings, iso: string, template: Option<string>, vault: seq<Note>): Interview {
    var date := DateOf(iso);
    var text := match template case Some(t) => t case None => [];
    var content := JsReplace(text, "{{date}}", date);
    var processed := AddLinksAsWritten(content, content, 0, QuestionsFor(vault));
    Interview(DropSlashes(settings.interviewFolder), FileName(settings.interviewFolder, date),
              processed + "\n\n" + settings.interviewTag)
  }

  // ---------------------------------------------------------------------
  // The links as intended: each link's questions right after that link.

  /** The text from `from` on with every link followed by its block. */
  function Expand(s: string, from: nat, questions: string -> Option<string>): string
    requires from <= |s|
    decreases |s| - from
  {
    match NextLink(s, from)
    case None => s[from..]
    case Some(i) =>
      s[from..LinkEnd(s, i)] + Block(questions, LinkText(s, i)) + Expand(s, LinkEnd(s, i), questions)
  }

  /** `createInterviewNotes` with each link's questions inserted verbatim after that link. */
  function InterviewNote(settings: Settings, iso: string, template: Option<string>, vault: seq<Note>): Interview {
    var date := DateOf(iso);
    var text := match template case Some(t) => t case None => [];
    var content := ReplaceFirst(text, "{{date}}", date);
    Interview(DropSlashes(settings.interviewFolder), FileName(settings.interviewFolder, date),
              Expand(content, 0, QuestionsFor(vault)) + "\n\n" + settings.interviewTag)
  }

  // ---------------------------------------------------------------------
  // Date and file name.

  /** The date is the timestamp up to its first `T`. */
  lemma {:induction false} DateBeforeT(d: string, rest: string)
    requires 'T' !in d
    ensures DateOf(d + "T" + rest) == d
  {
    SplitPrefix(d, 'T', rest);
  }

  /** A timestamp without a `T` is its own date. */
  lemma {:induction false} DateWithoutT(iso: string)
    requires 'T' !in iso
    ensures DateOf(iso) == iso
  {
    SplitNoSeparator(iso, 'T');
  }

  /** Any number of `/` after the interview folder leads to the same folder. */
  lemma {:induction false} DropSlashesOf(g: string, n: nat)
    requires g == [] || g[|g| - 1] != '/'
    ensures DropSlashes(g + Slashes(n)) == g
    decreases n
  {
    if n == 0 {
      assert g + Slashes(0) == g;
    } else {
      assert (g + Slashes(n))[..|g| + n - 1] == g + Slashes(n - 1);
      DropSlashesOf(g, n - 1);
    }
  }

  function Slashes(n: nat): (r: string)
    ensures |r| == n && forall i | 0 <= i < n :: r[i] == '/'
  {
    if n == 0 then [] else Slashes(n - 1) + "/"
  }

  /** Every folder setting is a folder path, with no `/` at its end, and some trailing `/`. */
  lemma {:induction false} DropSlashesSplits(f: string)
    ensures var g := DropSlashes(f);
      && (g == [] || g[|g| - 1] != '/')
      && |g| <= |f| && f == g + Slashes(|f| - |g|)
    decreases |f|
  {
    if f != [] && f[|f| - 1] == '/' {
      DropSlashesSplits(f[..|f| - 1]);
      var g := DropSlashes(f);
      var n := |f| - 1 - |g|;
      assert f == f[..|f| - 1] + "/";
      assert Slashes(n + 1) == Slashes(n) + "/";
    } else {
      assert f + Slashes(0) == f;
    }
  }

  /**
   * The file name is `Interview <date>.md` in the folder with its trailing
   * `/` trimmed to exactly one, or at the top of the vault when the folder
   * is empty or all `/`.
   */
  lemma {:induction false} FileNameOfFolder(g: string, n: nat, date: string)
    requires g == [] || g[|g| - 1] != '/'
    ensures FileName(g + Slashes(n), date) ==
      (if g == [] then "" else g + "/") + "Interview " + date + ".md"
  {
    DropSlashesOf(g, n);
  }

  // ---------------------------------------------------------------------
  // Replacement.

  /** A replacement without `$` is taken literally. */
  lemma {:induction false} SubstitutePlain(matched: string, position: nat, str: string, rep: string)
    requires position + |matched| <= |str|
    requires '$' !in rep
    ensures Substitute(matched, position, str, rep) == rep
    decreases |rep|
  {
    if rep != [] {
      assert '$' !in rep[1..];
      SubstitutePlain(matched, position, str, rep[1..]);
      assert rep == [rep[0]] + rep[1..];
    }
  }

  /** `replace` with a replacement without `$` changes the first occurrence to exactly that replacement. */
  lemma {:induction false} JsReplaceLiteral(str: string, pattern: string, rep: string)
    requires '$' !in rep
    ensures JsReplace(str, pattern, rep) == ReplaceFirst(str, pattern, rep)
  {
    match IndexOf(str, pattern, 0)
    case None =>
    case Some(p) => SubstitutePlain(pattern, p, str, rep);
  }

  /** `$$` in the replacement comes out as a single `$`. */
  lemma DoubleDollar(matched: string, position: nat, str: string)
    requires position + |matched| <= |str|
    ensures Substitute(matched, position, str, "$$") == "$"
  {
    assert "$$"[2..] == [];
  }

  lemma {:induction false} JsReplaceAtStart(str: string, pattern: string, rep: string)
    requires StartsWith(str, pattern) && '$' !in rep
    ensures JsReplace(str, pattern, rep) == rep + str[|pattern|..]
  {
    assert str[0..|pattern|] == pattern;
    assert IndexOf(str, pattern, 0) == Some(0);
    SubstitutePlain(pattern, 0, str, rep);
    assert str[..0] == [];
  }

  // ---------------------------------------------------------------------
  // The link pattern.

  lemma {:induction false} OpenRunShape(s: string, i: nat)
    requires i <= |s|
    ensures ']' !in s[i..i + OpenRun(s, i)]
    decreases |s| - i
  {
    var n := OpenRun(s, i);
    if n > 0 {
      OpenRunShape(s, i + 1);
      assert s[i..i + n] == [s[i]] + s[i + 1..i + n];
    }
  }

  lemma {:induction false} OpenRunOf(s: string, i: nat, j: nat)
    requires i <= j <= |s| && ']' !in s[i..j] && (j == |s| || s[j] == ']')
    ensures OpenRun(s, i) == j - i
    decreases j - i
  {
    if i < j {
      assert s[i] == s[i..j][0];
      assert s[i + 1..j] == s[i..j][1..];
      OpenRunOf(s, i + 1, j);
    }
  }

  /** A match is a link `[[t]]` with `t` non-empty and free of `]`. */
  lemma {:induction false} LinkAtIsLink(s: string, i: nat)
    requires LinkAt(s, i).Some?
    ensures IsLink(s, i, LinkText(s, i))
  {
    OpenRunShape(s, i + 2);
    var k := LinkAt(s, i).value;
    assert s[i + 2 + k] == ']';
  }

  /** Every link `[[t]]` is matched, with `t` as its text. */
  lemma {:induction false} IsLinkAt(s: string, i: nat, t: string)
    requires IsLink(s, i, t)
    ensures LinkAt(s, i) == Some(|t|) && LinkText(s, i) == t
  {
    assert s[i] == s[i..i + 2][0] && s[i + 1] == s[i..i + 2][1];
    var e := i + 2 + |t|;
    assert s[e] == s[e..i + |t| + 4][0] && s[e + 1] == s[e..i + |t| + 4][1];
    OpenRunOf(s, i + 2, e);
  }

  // ---------------------------------------------------------------------
  // Each link's questions right after that link.

  /** `i` is where one of the matches found from `from` on starts. */
  predicate Linked(s: string, from: nat, i: nat)
    decreases |s| - from
  {
    match NextLink(s, from)
    case None => false
    case Some(j) => j == i || Linked(s, LinkEnd(s, j), i)
  }

  /** The expansion of the text from `from` up to `i`. */
  function Before(s: string, from: nat, i: nat, questions: string -> Option<string>): string
    requires from <= i <= |s|
    decreases |s| - from
  {
    match NextLink(s, from)
    case None => s[from..i]
    case Some(j) =>
      if j >= i || LinkEnd(s, j) > i then s[from..i]
      else s[from..LinkEnd(s, j)] + Block(questions, LinkText(s, j)) + Before(s, LinkEnd(s, j), i, questions)
  }

  lemma {:induction false} LinkedIsLink(s: string, from: nat, i: nat)
    requires Linked(s, from, i)
    ensures from <= i && LinkAt(s, i).Some?
    decreases |s| - from
  {
    var j := NextLink(s, from).value;
    if j != i {
      LinkedIsLink(s, LinkEnd(s, j), i);
    }
  }

  /**
   * Every link of the template is followed, in the expanded text, by the
   * questions of the note it names: the expansion is what comes before
   * the link, the link and its block, and the expansion of what follows.
   */
  lemma {:induction false} ExpandAround(s: string, from: nat, questions: string -> Option<string>, i: nat)
    requires from <= |s| && Linked(s, from, i)
    ensures LinkAt(s, i).Some? && from <= i
    ensures Expand(s, from, questions) ==
      Before(s, from, i, questions)
      + (s[i..LinkEnd(s, i)] + Block(questions, LinkText(s, i)))
      + Expand(s, LinkEnd(s, i), questions)
    decreases |s| - from
  {
    LinkedIsLink(s, from, i);
    var j := NextLink(s, from).value;
    var e := LinkEnd(s, j);
    ExpandStep(s, from, questions);
    if j == i {
      AroundFirst(s, from, questions, i);
    } else {
      LinkedIsLink(s, e, i);
      ExpandAround(s, e, questions, i);
      BeforeStep(s, from, questions, i);
      Regroup(s[from..e] + Block(questions, LinkText(s, j)), Before(s, e, i, questions),
        s[i..LinkEnd(s, i)] + Block(questions, LinkText(s, i)), Expand(s, LinkEnd(s, i), questions));
    }
  }

  lemma {:induction false} AroundFirst(s: string, from: nat, questions: string -> Option<string>, i: nat)
    requires from <= |s| && NextLink(s, from) == Some(i)
    ensures Expand(s, from, questions) ==
      Before(s, from, i, questions)
      + (s[i..LinkEnd(s, i)] + Block(questions, LinkText(s, i)))
      + Expand(s, LinkEnd(s, i), questions)
  {
    var e := LinkEnd(s, i);
    ExpandStep(s, from, questions);
    BeforeFirst(s, from, questions, i);
    SliceSplit(s, from, i, e);
    RegroupFirst(Expand(s, from, questions), s[from..e], s[from..i], s[i..e],
      Block(questions, LinkText(s, i)), Expand(s, e, questions), Before(s, from, i, questions));
  }

  lemma {:induction false} BeforeFirst(s: string, from: nat, questions: string -> Option<string>, i: nat)
    requires from <= i <= |s| && NextLink(s, from) == Some(i)
    ensures Before(s, from, i, questions) == s[from..i]
  {
  }

  lemma {:induction false} SliceSplit(s: string, a: nat, b: nat, c: nat)
    requires a <= b <= c <= |s|
    ensures s[a..c] == s[a..b] + s[b..c]
  {
  }

  lemma {:induction false} RegroupFirst(x: string, se: string, si: string, m: string, b: string, r: string, bef: string)
    requires x == (se + b) + r && se == si + m && bef == si
    ensures x == bef + (m + b) + r
  {
  }

  /** One step of `Before`, past a link that ends before `i`. */
  lemma {:induction false} BeforeStep(s: string, from: nat, questions: string -> Option<string>, i: nat)
    requires from <= i <= |s| && NextLink(s, from).Some?
    requires NextLink(s, from).value < i && LinkEnd(s, NextLink(s, from).value) <= i
    ensures var j := NextLink(s, from).value;
      Before(s, from, i, questions) == s[from..LinkEnd(s, j)] + Block(questions, LinkText(s, j)) + Before(s, LinkEnd(s, j), i, questions)
  {
  }

  /** One step of `Expand`: the text up to the next link's end, its block, and the rest. */
  lemma {:induction false} ExpandStep(s: string, from: nat, questions: string -> Option<string>)
    requires from <= |s| && NextLink(s, from).Some?
    ensures var j := NextLink(s, from).value;
      Expand(s, from, questions) == (s[from..LinkEnd(s, j)] + Block(questions, LinkText(s, j))) + Expand(s, LinkEnd(s, j), questions)
  {
  }

  lemma {:induction false} Regroup(h: string, a: string, m: string, r: string)
    ensures h + (a + m + r) == (h + a) + m + r
  {
  }

  /** Links to no note leave the text as it is. */
  lemma {:induction false} ExpandUnresolved(s: string, from: nat, questions: string -> Option<string>)
    requires from <= |s|
    requires forall t :: questions(t).None?
    ensures Expand(s, from, questions) == s[from..]
    decreases |s| - from
  {
    match NextLink(s, from)
    case None =>
    case Some(i) =>
      var e := LinkEnd(s, i);
      ExpandUnresolved(s, e, questions);
      assert s[from..e] + s[e..] == s[from..];
  }

  /** The loop as written also leaves the text as it is when no link names a note. */
  lemma {:induction false} AddLinksUnresolved(p: string, s: string, from: nat, questions: string -> Option<string>)
    requires forall t :: questions(t).None?
    ensures AddLinksAsWritten(p, s, from, questions) == p
    decreases |s| - from
  {
    match NextLink(s, from)
    case None =>
    case Some(i) => AddLinksUnresolved(p, s, LinkEnd(s, i), questions);
  }

  /** Without linked notes, both versions write the template, its date filled in, and the tag. */
  lemma {:induction false} UnlinkedNote(settings: Settings, iso: string, template: Option<string>)
    requires '$' !in DateOf(iso)
    ensures InterviewNoteAsWritten(settings, iso, template, []) == InterviewNote(settings, iso, template, [])
    ensures var text := match template case Some(t) => t case None => [];
      InterviewNote(settings, iso, template, []).content ==
        ReplaceFirst(text, "{{date}}", DateOf(iso)) + "\n\n" + settings.interviewTag
  {
    var text := match template case Some(t) => t case None => [];
    var content := ReplaceFirst(text, "{{date}}", DateOf(iso));
    JsReplaceLiteral(text, "{{date}}", DateOf(iso));
    assert forall t :: QuestionsFor([])(t).None?;
    AddLinksUnresolved(content, content, 0, QuestionsFor([]));
    ExpandUnresolved(content, 0, QuestionsFor([]));
  }

  // ---------------------------------------------------------------------
  // Where the loop as written goes wrong.

  /** The two matches of `[[A]] [[A]]`. */
  lemma {:induction false} TwiceLinks(s: string, full: string)
    requires full == "[[A]]" && s == full + " " + full
    ensures LinkAt(s, 0) == Some(1) && LinkText(s, 0) == "A" && LinkEnd(s, 0) == 5
    ensures LinkAt(s, 6) == Some(1) && LinkText(s, 6) == "A" && LinkEnd(s, 6) == 11
    ensures NextLink(s, 0) == Some(0) && NextLink(s, 5) == Some(6) && NextLink(s, 11) == None
    ensures s[0..5] == full && s[6..11] == full && s[5..] == " " + full && s[5..11] == " " + full
  {
    assert s[0] == '[' && s[1] == '[' && s[2] == 'A' && s[3] == ']' && s[4] == ']' && s[5] == ' ';
    assert s[6] == '[' && s[7] == '[' && s[8] == 'A' && s[9] == ']' && s[10] == ']';
    assert OpenRun(s, 3) == 0 && OpenRun(s, 9) == 0;
    assert LinkAt(s, 5) == None;
  }

  lemma {:induction false} AsWrittenStep(p: string, s: string, from: nat, questions: string -> Option<string>, i: nat, q: string)
    requires NextLink(s, from) == Some(i) && questions(LinkText(s, i)) == Some(q)
    ensures AddLinksAsWritten(p, s, from, questions) ==
      AddLinksAsWritten(JsReplace(p, s[i..LinkEnd(s, i)], s[i..LinkEnd(s, i)] + "\n\n" + q), s, LinkEnd(s, i), questions)
  {
  }

  lemma {:induction false} AsWrittenDone(p: string, s: string, from: nat, questions: string -> Option<string>)
    requires NextLink(s, from) == None
    ensures AddLinksAsWritten(p, s, from, questions) == p
  {
  }

  /**
   * A template that links the same note twice: the second `replace` finds
   * the first link again, so both blocks of questions land after the first
   * link and none after the second. Expanding each link in place puts one
   * block after each.
   */
  lemma {:induction false} RepeatedLinkAsWritten(questions: string -> Option<string>, q: string, s: string, full: string, sep: string)
    requires full == "[[A]]" && sep == "\n\n" && s == full + " " + full
    requires questions("A") == Some(q) && '$' !in q
    ensures AddLinksAsWritten(s, s, 0, questions) == full + sep + q + sep + q + " " + full
    ensures Expand(s, 0, questions) == full + sep + q + " " + full + sep + q
  {
    TwiceLinks(s, full);
    TwiceAsWritten(questions, q, s, full, sep);
    TwiceExpanded(questions, q, s, full, sep);
  }

  lemma {:induction false} TwiceAsWritten(questions: string -> Option<string>, q: string, s: string, full: string, sep: string)
    requires full == "[[A]]" && sep == "\n\n" && '$' !in q && questions("A") == Some(q)
    requires LinkAt(s, 0) == Some(1) && LinkAt(s, 6) == Some(1)
    requires LinkText(s, 0) == "A" && LinkEnd(s, 0) == 5 && LinkText(s, 6) == "A" && LinkEnd(s, 6) == 11
    requires NextLink(s, 0) == Some(0) && NextLink(s, 5) == Some(6) && NextLink(s, 11) == None
    requires s[0..5] == full && s[6..11] == full && s[5..] == " " + full
    ensures AddLinksAsWritten(s, s, 0, questions) == full + sep + q + sep + q + " " + full
  {
    var rep := full + sep + q;
    assert '$' !in rep;
    AsWrittenStep(s, s, 0, questions, 0, q);
    assert s[..5] == full;
    JsReplaceAtStart(s, full, rep);
    var p1 := rep + s[5..];
    AsWrittenStep(p1, s, 5, questions, 6, q);
    assert p1[..5] == full;
    JsReplaceAtStart(p1, full, rep);
    var p2 := rep + p1[5..];
    AsWrittenDone(p2, s, 11, questions);
    TwiceAlgebra(full, sep, q, rep, s[5..], p1, p2);
  }

  lemma {:induction false} TwiceAlgebra(full: string, sep: string, q: string, rep: string, tail: string, p1: string, p2: string)
    requires |full| == 5 && rep == full + sep + q && tail == " " + full && p1 == rep + tail && p2 == rep + p1[5..]
    ensures p2 == full + sep + q + sep + q + " " + full
  {
    assert p1[5..] == sep + q + tail;
  }

  lemma {:induction false} TwiceExpanded(questions: string -> Option<string>, q: string, s: string, full: string, sep: string)
    requires sep == "\n\n" && questions("A") == Some(q)
    requires LinkAt(s, 0) == Some(1) && LinkAt(s, 6) == Some(1)
    requires LinkText(s, 0) == "A" && LinkEnd(s, 0) == 5 && LinkText(s, 6) == "A" && LinkEnd(s, 6) == 11
    requires NextLink(s, 0) == Some(0) && NextLink(s, 5) == Some(6) && NextLink(s, 11) == None
    requires |s| == 11 && s[0..5] == full && s[5..11] == " " + full
    ensures Expand(s, 0, questions) == full + sep + q + " " + full + sep + q
  {
    var b := sep + q;
    assert Block(questions, "A") == b;
    assert Expand(s, 11, questions) == [];
    ExpandStep(s, 5, questions);
    ExpandStep(s, 0, questions);
    assert Expand(s, 5, questions) == s[5..11] + b + [];
  }

  /**
   * Questions that hold `$$` (display maths, say) lose a `$`: the
   * questions are the replacement string of `replace`, which reads `$$` as
   * one `$`. Expanding in place copies them as they are.
   */
  lemma DollarAsWritten(questions: string -> Option<string>)
    requires questions("A") == Some("$$")
    ensures AddLinksAsWritten("[[A]]", "[[A]]", 0, questions) == "[[A]]\n\n$"
    ensures Expand("[[A]]", 0, questions) == "[[A]]\n\n$$"
  {
    var s := "[[A]]";
    assert OpenRun(s, 3) == 0;
    assert LinkAt(s, 0) == Some(1) && LinkText(s, 0) == "A";
    OnceAsWritten(questions, s, "\n\n", "$$");
  }

  lemma {:induction false} OnceAsWritten(questions: string -> Option<string>, s: string, sep: string, q: string)
    requires s == "[[A]]" && sep == "\n\n" && q == "$$"
    requires LinkAt(s, 0) == Some(1) && LinkText(s, 0) == "A" && questions("A") == Some(q)
    ensures AddLinksAsWritten(s, s, 0, questions) == s + sep + "$"
    ensures Expand(s, 0, questions) == s + sep + q
  {
    assert NextLink(s, 0) == Some(0) && LinkEnd(s, 0) == 5;
    assert NextLink(s, 5) == None;
    assert s[0..5] == s && s[..0] == [] && s[5..] == [];
    assert IndexOf(s, s, 0) == Some(0);
    var rep := s + sep + q;
    assert '$' !in s + sep;
    assert rep == (s + sep) + q;
    SubstituteLiteralPrefix(s, 0, s, s + sep, q);
    DoubleDollar(s, 0, s);
    assert JsReplace(s, s, rep) == s + sep + "$";
    assert AddLinksAsWritten(s, s, 0, questions) == AddLinksAsWritten(JsReplace(s, s, rep), s, 5, questions);
    assert Expand(s, 0, questions) == s + Block(questions, "A") + Expand(s, 5, questions);
  }

  lemma {:induction false} SubstituteLiteralPrefix(matched: string, position: nat, str: string, a: string, b: string)
    requires position + |matched| <= |str|
    requires '$' !in a
    ensures Substitute(matched, position, str, a + b) == a + Substitute(matched, position, str, b)
    decreases |a|
  {
    if a != [] {
      assert (a + b)[1..] == a[1..] + b;
      assert '$' !in a[1..];
      SubstituteLiteralPrefix(matched, position, str, a[1..], b);
      assert a == [a[0]] + a[1..];
    } else {
      assert a + b == b;
    }
  }
}

=== FILE: callout_patch.dfy ===
/**
 * The candidate-answer button of the callout dialect: find the callout
 * question whose title is the displayed one, find an `@candidate` block in
 * the quoted lines below it, and then clear it, replace it, or insert a new
 * one after the question's quoted lines.
 *
 * The edit is applied to the note as read again when the dialog closes, by
 * the indices of the first read; the removal scan indexes that note, so the
 * two reads are taken to be one buffer here.
 *
 * As for the heading dialect, the click is stated once over a record of
 * line tests (`Tests`) and its properties are proved there; `Locate` and
 * `Patch` instantiate it with the callout dialect's recognisers.
 */
module CalloutPatch {
  import opened Wrappers
  import opened Text
  import opened Syntax

  /** The pencil of the edit button, U+270F with the emoji variation selector U+FE0F. */
  const Pencil: string := "\U{270F}\U{FE0F}"

  /** The text a callout header must carry: the title without its leading marker and the first pencil, trimmed. */
  function Target(title: string): string {
    Trim(ReplaceFirst(StripMarker(title), Pencil, ""))
  }

  /**
   * The line tests the click applies: is this the callout being looked for,
   * does it stop the scan of quoted lines, is it an `@candidate` line, is it
   * the stopping line the candidate block still takes in, what the
   * callout-line pattern captures, is it blank, is it a bare `>` separator.
   */
  datatype Tests = Tests(
    isTarget: string -> bool,
    stops: string -> bool,
    isStart: string -> bool,
    takenAtEnd: string -> bool,
    content: string -> Option<string>,
    isBlank: string -> bool,
    isSeparator: string -> bool)

  /** An `@candidate` block: its first and last line (`answerLineIndex`, `answerEndIndex`, both inclusive). */
  datatype Run = Run(start: nat, end: nat)

  /** The header's index, the candidate block below it (if any), and the existing answer read from that block. */
  datatype Found = Found(question: nat, candidate: Option<Run>, existing: string)

  /** The scan below a header: the first `@candidate` line before any line that stops it. */
  function FindStart(lines: seq<string>, t: Tests, j: nat): (r: Option<nat>)
    ensures r.Some? ==> j <= r.value < |lines|
    decreases |lines| - j
  {
    if j >= |lines| || t.stops(lines[j]) then None
    else if t.isStart(lines[j]) then Some(j)
    else FindStart(lines, t, j + 1)
  }

  /**
   * The last line of the block starting at `c`: the line before the first
   * one that stops the scan, or that line itself when the block takes it in.
   */
  function RunEnd(lines: seq<string>, t: Tests, c: nat): (r: nat)
    requires c < |lines|
    ensures c <= r < |lines|
  {
    var k := First(lines, t.stops, c + 1);
    if k < |lines| && t.takenAtEnd(lines[k]) then k else k - 1
  }

  /** What the callout-line pattern captures on one line, as a list of zero or one answer lines. */
  function Captured(line: string, t: Tests): seq<string> {
    match t.content(line)
    case Some(x) => [x]
    case None => []
  }

  /** The answer lines collected from a block's quoted lines. */
  function Contents(ls: seq<string>, t: Tests): seq<string> {
    if |ls| == 0 then [] else Captured(ls[0], t) + Contents(ls[1..], t)
  }

  /** `answerLines.join('\n')` when there are any, the empty string otherwise. */
  function Existing(answerLines: seq<string>): string {
    if answerLines != [] then Join(answerLines, '\n') else []
  }

  /** Where the click lands, for any tests. */
  function LocateWith(lines: seq<string>, t: Tests): (r: Option<Found>)
    ensures r.Some? ==> r.value.question < |lines|
    ensures r.Some? && r.value.candidate.Some? ==>
      r.value.question < r.value.candidate.value.start <= r.value.candidate.value.end < |lines|
  {
    var q := First(lines, t.isTarget, 0);
    if q >= |lines| then None
    else match FindStart(lines, t, q + 1)
      case None => Some(Found(q, None, []))
      case Some(c) =>
        var k := First(lines, t.stops, c + 1);
        Some(Found(q, Some(Run(c, RunEnd(lines, t, c))), Existing(Contents(lines[c + 1..k], t))))
  }

  /** The walk back over bare `>` lines before index `i`. */
  function SeparatorsBefore(lines: seq<string>, i: nat, t: Tests): (r: nat)
    requires i <= |lines|
    ensures r <= i
  {
    if i > 0 && t.isSeparator(lines[i - 1]) then SeparatorsBefore(lines, i - 1, t) else i
  }

  /** The last line an edit removes: the block's last line, or the blank line right after it. */
  function TrailingEnd(lines: seq<string>, e: nat, t: Tests): (r: nat)
    requires e < |lines|
    ensures e <= r < |lines|
  {
    if e + 1 < |lines| && t.isBlank(lines[e + 1]) then e + 1 else e
  }

  /** A blank answer over a block: remove the separators before it, the block and a trailing blank line. */
  function Clear(lines: seq<string>, run: Run, t: Tests): seq<string>
    requires run.start <= run.end < |lines|
  {
    var s := SeparatorsBefore(lines, run.start, t);
    Splice(lines, s, TrailingEnd(lines, run.end, t) - s + 1, [])
  }

  /** A non-blank answer over a block: put a fresh block in its place and that of a trailing blank line. */
  function Replace(lines: seq<string>, run: Run, result: string, t: Tests): seq<string>
    requires run.start <= run.end < |lines|
  {
    Splice(lines, run.start, TrailingEnd(lines, run.end, t) - run.start + 1, CandidateBlock(result))
  }

  /** One past `insertIndex`: the first line below the header that stops the scan, or the end of the note. */
  function InsertPoint(lines: seq<string>, q: nat, t: Tests): nat {
    First(lines, t.stops, q + 1)
  }

  /** A non-blank answer and no block: a `>` separator and a fresh block after the header's quoted lines. */
  function Insert(lines: seq<string>, q: nat, result: string, t: Tests): seq<string> {
    Splice(lines, InsertPoint(lines, q, t), 0, [">"] + CandidateBlock(result))
  }

  /** The dialog's callback once the header is found, in its four modes. */
  function ApplyWith(lines: seq<string>, f: Found, result: string, t: Tests): seq<string>
    requires f.candidate.Some? ==> f.candidate.value.start <= f.candidate.value.end < |lines|
  {
    match f.candidate
    case Some(run) => if t.isBlank(result) then Clear(lines, run, t) else Replace(lines, run, result, t)
    case None => if t.isBlank(result) then lines else Insert(lines, f.question, result, t)
  }

  /** One click, for any tests. The dialog always hands back a string, so the note is written whenever the header is found. */
  function PatchWith(lines: seq<string>, t: Tests, result: string): Outcome {
    match LocateWith(lines, t)
    case None => NotFound
    case Some(f) => Written(ApplyWith(lines, f, result, t))
  }

  // ---------------------------------------------------------------------
  // The search, for any tests.

  lemma {:induction false} LocateWithFinds(lines: seq<string>, t: Tests)
    ensures LocateWith(lines, t).None? <==> forall j | 0 <= j < |lines| :: !t.isTarget(lines[j])
    ensures LocateWith(lines, t).Some? ==>
      var q := LocateWith(lines, t).value.question;
      && t.isTarget(lines[q])
      && forall j | 0 <= j < q :: !t.isTarget(lines[j])
  {
  }

  /** A block start is an `@candidate` line that does not stop the scan, and every line before it neither stops the scan nor starts a block. */
  lemma {:induction false} FindStartFinds(lines: seq<string>, t: Tests, j: nat)
    requires FindStart(lines, t, j).Some?
    ensures var c := FindStart(lines, t, j).value;
      && t.isStart(lines[c]) && !t.stops(lines[c])
      && forall i | j <= i < c :: !t.stops(lines[i]) && !t.isStart(lines[i])
    decreases |lines| - j
  {
    if !t.isStart(lines[j]) {
      FindStartFinds(lines, t, j + 1);
    }
  }

  /** No block start is found exactly when no line before the first one that stops the scan starts a block. */
  lemma {:induction false} FindStartMisses(lines: seq<string>, t: Tests, j: nat)
    requires j <= |lines| && FindStart(lines, t, j).None?
    ensures forall i | j <= i < First(lines, t.stops, j) :: !t.isStart(lines[i])
    decreases |lines| - j
  {
    if j < |lines| && !t.stops(lines[j]) {
      FindStartMisses(lines, t, j + 1);
    }
  }

  /** The first `@candidate` line before anything stops the scan is the block start. */
  lemma {:induction false} FindStartIs(lines: seq<string>, t: Tests, j: nat, c: nat)
    requires j <= c < |lines| && t.isStart(lines[c]) && !t.stops(lines[c])
    requires forall i | j <= i < c :: !t.stops(lines[i]) && !t.isStart(lines[i])
    ensures FindStart(lines, t, j) == Some(c)
    decreases c - j
  {
    if j < c {
      FindStartIs(lines, t, j + 1, c);
    }
  }

  /**
   * A block is found below the header exactly when an `@candidate` line
   * comes before the first line that stops the scan, and it is the first
   * such line.
   */
  lemma {:induction false} LocateWithCandidate(lines: seq<string>, t: Tests)
    requires LocateWith(lines, t).Some?
    ensures var f := LocateWith(lines, t).value;
      var stop := First(lines, t.stops, f.question + 1);
      && (f.candidate.Some? <==> exists i | f.question + 1 <= i < stop :: t.isStart(lines[i]))
      && (f.candidate.Some? ==>
            var c := f.candidate.value.start;
            c < stop && t.isStart(lines[c]) && forall i | f.question + 1 <= i < c :: !t.isStart(lines[i]))
  {
    var q := First(lines, t.isTarget, 0);
    var stop := First(lines, t.stops, q + 1);
    match FindStart(lines, t, q + 1)
    case None =>
      FindStartMisses(lines, t, q + 1);
    case Some(c) =>
      FindStartFinds(lines, t, q + 1);
      FirstIs(lines, t.stops, q + 1, stop);
      StartBeforeStop(lines, t, q + 1, c);
  }

  lemma {:induction false} StartBeforeStop(lines: seq<string>, t: Tests, j: nat, c: nat)
    requires j <= c < |lines| && !t.stops(lines[c])
    requires forall i | j <= i < c :: !t.stops(lines[i])
    ensures c < First(lines, t.stops, j)
    decreases c - j
  {
    if j < c {
      StartBeforeStop(lines, t, j + 1, c);
    }
  }

  /** The click's search, from the results of its three scans. */
  lemma {:induction false} LocateWithOf(lines: seq<string>, t: Tests, q: nat, c: nat, k: nat, body: seq<string>)
    requires q < |lines| && First(lines, t.isTarget, 0) == q
    requires FindStart(lines, t, q + 1) == Some(c)
    requires c + 1 <= k <= |lines| && First(lines, t.stops, c + 1) == k && lines[c + 1..k] == body
    ensures LocateWith(lines, t) == Some(Found(q, Some(Run(c, RunEnd(lines, t, c))), Existing(Contents(body, t))))
  {
    var k' := First(lines, t.stops, c + 1);
    assert k' == k;
    assert LocateWith(lines, t) == Some(Found(q, Some(Run(c, RunEnd(lines, t, c))), Existing(Contents(lines[c + 1..k'], t))));
  }

  /** The block the click finds when the scan from below the question meets a block start. */
  lemma {:induction false} LocateWithRun(lines: seq<string>, t: Tests, q: nat, c: nat)
    requires q < |lines| && First(lines, t.isTarget, 0) == q
    requires FindStart(lines, t, q + 1) == Some(c)
    ensures LocateWith(lines, t).Some? && LocateWith(lines, t).value.candidate == Some(Run(c, RunEnd(lines, t, c)))
  {
    var k := First(lines, t.stops, c + 1);
    assert LocateWith(lines, t) == Some(Found(q, Some(Run(c, RunEnd(lines, t, c))), Existing(Contents(lines[c + 1..k], t))));
  }

  /** The existing answer is read from the lines after the block start, up to the first line that stops the scan. */
  lemma {:induction false} LocateWithReads(lines: seq<string>, t: Tests)
    requires LocateWith(lines, t).Some?
    ensures var f := LocateWith(lines, t).value;
      && (f.candidate.None? ==> f.existing == [])
      && (f.candidate.Some? ==>
            var c := f.candidate.value.start;
            var k := First(lines, t.stops, c + 1);
            && f.candidate.value.end == (if k < |lines| && t.takenAtEnd(lines[k]) then k else k - 1)
            && f.existing == Existing(Contents(lines[c + 1..k], t)))
  {
    var q := First(lines, t.isTarget, 0);
    match FindStart(lines, t, q + 1)
    case None =>
    case Some(c) =>
      var k := First(lines, t.stops, c + 1);
      assert LocateWith(lines, t).value == Found(q, Some(Run(c, RunEnd(lines, t, c))), Existing(Contents(lines[c + 1..k], t)));
  }

  // ---------------------------------------------------------------------
  // A block placed into the note, for any tests.

  /** What the tests must say of the lines of a block for `result` so that the scans pass over it. */
  predicate Fits(t: Tests, result: string) {
    && !t.stops(">") && !t.isStart(">") && t.isSeparator(">")
    && t.isStart("> @candidate") && !t.stops("> @candidate")
    && !t.stops([])
    && forall i | 0 <= i < |Split(result, '\n')| :: !t.stops("> " + Split(result, '\n')[i])
  }

  /** What the tests must say of the lines of a block for `result` so that its answer lines read back. */
  predicate ReadsBack(t: Tests, result: string) {
    && t.content([]) == None
    && forall i | 0 <= i < |Split(result, '\n')| :: t.content("> " + Split(result, '\n')[i]) == Some(Split(result, '\n')[i])
  }

  /** The quoted lines and the closing empty line of a block. */
  function Body(result: string): seq<string> {
    Quote(Split(result, '\n')) + [[]]
  }

  lemma {:induction false} BodyPasses(t: Tests, result: string)
    requires Fits(t, result)
    ensures forall j | 0 <= j < |Body(result)| :: !t.stops(Body(result)[j])
  {
    var s := Split(result, '\n');
    var b := Body(result);
    forall j | 0 <= j < |b| ensures !t.stops(b[j]) {
      if j < |s| {
        assert b[j] == "> " + s[j];
      } else {
        assert b[j] == [];
      }
    }
  }

  lemma {:induction false} ContentsAppend(a: seq<string>, b: seq<string>, t: Tests)
    ensures Contents(a + b, t) == Contents(a, t) + Contents(b, t)
    decreases |a|
  {
    if |a| == 0 {
      assert a + b == b;
    } else {
      ContentsAppend(a[1..], b, t);
      assert (a + b)[1..] == a[1..] + b;
      AppendAssoc(Captured(a[0], t), Contents(a[1..], t), Contents(b, t));
    }
  }

  lemma {:induction false} ContentsOfQuote(s: seq<string>, t: Tests)
    requires forall i | 0 <= i < |s| :: t.content("> " + s[i]) == Some(s[i])
    ensures Contents(Quote(s), t) == s
    decreases |s|
  {
    if |s| > 0 {
      assert Quote(s)[1..] == Quote(s[1..]);
      assert Quote(s)[0] == "> " + s[0];
      ContentsOfQuote(s[1..], t);
      assert s == [s[0]] + s[1..];
    }
  }

  /** The answer lines read from a block body are the answer's lines. */
  lemma {:induction false} BodyContents(t: Tests, result: string)
    requires ReadsBack(t, result)
    ensures Contents(Body(result), t) == Split(result, '\n')
  {
    var s := Split(result, '\n');
    ContentsAppend(Quote(s), [[]], t);
    ContentsOfQuote(s, t);
    assert Contents([[]], t) == [];
    AppendNil(s);
  }

  /** The existing answer read from a block body is the answer itself. */
  lemma {:induction false} BodyReadsBack(t: Tests, result: string)
    requires ReadsBack(t, result)
    ensures Existing(Contents(Body(result), t)) == result
  {
    BodyContents(t, result);
    JoinSplit(result, '\n');
  }

  lemma {:induction false} BlockRegroup(pre: seq<string>, result: string, post: seq<string>)
    ensures pre + CandidateBlock(result) + post == (pre + ["> @candidate"]) + (Body(result) + post)
  {
    var q := Quote(Split(result, '\n'));
    assert CandidateBlock(result) == ["> @candidate"] + Body(result);
    AppendAssoc(pre, ["> @candidate"] + Body(result), post);
    AppendAssoc(pre, ["> @candidate"], Body(result));
    AppendAssoc(pre + ["> @candidate"], Body(result), post);
  }

  /**
   * A block placed before a line that stops the scan, or at the end of the
   * note: the scan from its `@candidate` line passes over its body and
   * stops right after it.
   */
  lemma {:induction false} ScanOverBlock(pre: seq<string>, result: string, post: seq<string>, t: Tests)
    requires Fits(t, result)
    requires post != [] ==> t.stops(post[0])
    ensures var l2 := pre + CandidateBlock(result) + post;
      var k := |pre| + 1 + |Body(result)|;
      && First(l2, t.stops, |pre| + 1) == k
      && l2[|pre| + 1..k] == Body(result)
  {
    var head := pre + ["> @candidate"];
    var b := Body(result);
    BlockRegroup(pre, result, post);
    BodyPasses(t, result);
    FirstSkip(b, post, t.stops);
    assert First(post, t.stops, 0) == 0;
    FirstShift(head, b + post, t.stops, 0);
    AppendAssoc(head, b, post);
    SliceOfMiddle(head, b, post);
  }

  // ---------------------------------------------------------------------
  // Inserting a block, for any tests.

  lemma {:induction false} InsertShape(lines: seq<string>, q: nat, result: string, t: Tests)
    requires q < |lines|
    ensures var p := InsertPoint(lines, q, t);
      && q < p <= |lines|
      && Insert(lines, q, result, t) == (lines[..p] + [">"]) + CandidateBlock(result) + lines[p..]
  {
    var p := InsertPoint(lines, q, t);
    SpliceInside(lines, p, 0, [">"] + CandidateBlock(result));
    AppendAssoc(lines[..p], [">"], CandidateBlock(result));
  }

  /** After an insertion the header is found where it was. */
  lemma {:induction false} InsertedTarget(lines: seq<string>, q: nat, result: string, t: Tests)
    requires q < |lines| && First(lines, t.isTarget, 0) == q
    ensures First(Insert(lines, q, result, t), t.isTarget, 0) == q
  {
    var p := InsertPoint(lines, q, t);
    InsertShape(lines, q, result, t);
    var l2 := Insert(lines, q, result, t);
    assert l2[..q + 1] == lines[..q + 1];
    FirstOfPrefix(lines, l2, t.isTarget, q);
  }

  /** After an insertion into a header with no block, the scan below it finds the inserted `@candidate` line. */
  lemma {:induction false} InsertedStart(lines: seq<string>, q: nat, result: string, t: Tests)
    requires q < |lines| && FindStart(lines, t, q + 1).None? && Fits(t, result)
    ensures FindStart(Insert(lines, q, result, t), t, q + 1) == Some(InsertPoint(lines, q, t) + 1)
  {
    var p := InsertPoint(lines, q, t);
    InsertShape(lines, q, result, t);
    var l2 := Insert(lines, q, result, t);
    FindStartMisses(lines, t, q + 1);
    forall i | q + 1 <= i < p + 1 ensures !t.stops(l2[i]) && !t.isStart(l2[i]) {
      if i < p {
        assert l2[i] == lines[i];
      } else {
        assert l2[i] == ">";
      }
    }
    assert l2[p + 1] == "> @candidate";
    FindStartIs(l2, t, q + 1, p + 1);
  }

  /** After an insertion, the block's scan stops right after its body. */
  lemma {:induction false} InsertedScan(lines: seq<string>, q: nat, result: string, t: Tests)
    requires q < |lines| && Fits(t, result)
    ensures var p := InsertPoint(lines, q, t);
      var l2 := Insert(lines, q, result, t);
      var k := p + 2 + |Body(result)|;
      && k <= |l2|
      && First(l2, t.stops, p + 2) == k
      && l2[p + 2..k] == Body(result)
      && l2[k..] == lines[p..]
  {
    var p := InsertPoint(lines, q, t);
    InsertShape(lines, q, result, t);
    ScanOverBlock(lines[..p] + [">"], result, lines[p..], t);
    var l2 := Insert(lines, q, result, t);
    InsertedTail(lines[..p] + [">"], result, lines[p..]);
  }

  lemma {:induction false} InsertedTail(pre: seq<string>, result: string, post: seq<string>)
    ensures (pre + CandidateBlock(result) + post)[|pre| + 1 + |Body(result)|..] == post
  {
    BlockRegroup(pre, result, post);
    assert |CandidateBlock(result)| == 1 + |Body(result)|;
  }

  /** Where an inserted block is found, for any tests it fits. */
  lemma {:induction false} InsertedLocated(lines: seq<string>, t: Tests, q: nat, result: string)
    requires q < |lines| && First(lines, t.isTarget, 0) == q && FindStart(lines, t, q + 1).None?
    requires Fits(t, result)
    ensures var p := InsertPoint(lines, q, t);
      var l2 := Insert(lines, q, result, t);
      LocateWith(l2, t) == Some(Found(q, Some(Run(p + 1, RunEnd(l2, t, p + 1))), Existing(Contents(Body(result), t))))
  {
    var p := InsertPoint(lines, q, t);
    var l2 := Insert(lines, q, result, t);
    var b := Body(result);
    InsertedTarget(lines, q, result, t);
    InsertedStart(lines, q, result, t);
    InsertedScan(lines, q, result, t);
    LocateWithOf(l2, t, q, p + 1, p + 2 + |b|, b);
  }

  /** A header found with no block below it: the first target line, and a scan below it that finds no `@candidate` line. */
  lemma {:induction false} LocateWithNoBlock(lines: seq<string>, t: Tests)
    requires LocateWith(lines, t).Some? && LocateWith(lines, t).value.candidate.None?
    ensures var q := LocateWith(lines, t).value.question;
      && q == First(lines, t.isTarget, 0)
      && FindStart(lines, t, q + 1).None?
  {
  }

  /**
   * Read-back after an insertion, for any tests the block fits and reads
   * back under: the click finds the header again, with the inserted block
   * and the submitted answer as the existing one.
   */
  lemma {:induction false} InsertReadBackWith(lines: seq<string>, t: Tests, result: string)
    requires LocateWith(lines, t).Some? && LocateWith(lines, t).value.candidate.None?
    requires Fits(t, result) && ReadsBack(t, result) && !t.isBlank(result)
    ensures PatchWith(lines, t, result).Written?
    ensures var q := LocateWith(lines, t).value.question;
      var f := LocateWith(PatchWith(lines, t, result).lines, t);
      && f.Some? && f.value.question == q
      && f.value.candidate.Some? && f.value.candidate.value.start == InsertPoint(lines, q, t) + 1
      && f.value.existing == result
  {
    var q := LocateWith(lines, t).value.question;
    LocateWithNoBlock(lines, t);
    PatchWithInserts(lines, t, q, result);
    InsertedLocated(lines, t, q, result);
    BodyReadsBack(t, result);
  }

  /** The end of an inserted block when the line after it is neither taken in nor blank. */
  lemma {:induction false} InsertedEnd(lines: seq<string>, q: nat, result: string, t: Tests)
    requires q < |lines| && Fits(t, result)
    requires var p := InsertPoint(lines, q, t); p < |lines| ==> !t.takenAtEnd(lines[p]) && !t.isBlank(lines[p])
    ensures var p := InsertPoint(lines, q, t);
      var l2 := Insert(lines, q, result, t);
      var e := p + 1 + |Body(result)|;
      && e < |l2|
      && RunEnd(l2, t, p + 1) == e
      && TrailingEnd(l2, e, t) == e
  {
    var p := InsertPoint(lines, q, t);
    var l2 := Insert(lines, q, result, t);
    var k := p + 2 + |Body(result)|;
    InsertedScan(lines, q, result, t);
    if k < |l2| {
      assert l2[k] == lines[p];
    }
  }

  /** Clearing an inserted block walks back over its `>` separator and no further. */
  lemma {:induction false} InsertedSeparators(lines: seq<string>, q: nat, result: string, t: Tests)
    requires q < |lines| && Fits(t, result)
    requires !t.isSeparator(lines[InsertPoint(lines, q, t) - 1])
    ensures SeparatorsBefore(Insert(lines, q, result, t), InsertPoint(lines, q, t) + 1, t) == InsertPoint(lines, q, t)
  {
    var p := InsertPoint(lines, q, t);
    var l2 := Insert(lines, q, result, t);
    InsertShape(lines, q, result, t);
    assert l2[p] == ">";
    assert l2[p - 1] == lines[p - 1];
  }

  /** Removing an inserted block and its separator gives back the note. */
  lemma {:induction false} InsertedRemoved(lines: seq<string>, q: nat, result: string, t: Tests)
    requires q < |lines|
    ensures var p := InsertPoint(lines, q, t);
      var l2 := Insert(lines, q, result, t);
      var e := p + 1 + |Body(result)|;
      e < |l2| && Splice(l2, p, e - p + 1, []) == lines
  {
    var p := InsertPoint(lines, q, t);
    var items := [">"] + CandidateBlock(result);
    InsertShape(lines, q, result, t);
    SpliceInside(lines, p, 0, items);
    assert |items| == 2 + |Body(result)|;
    SpliceRemoves(lines[..p], items, lines[p..]);
    assert lines[..p] + lines[p..] == lines;
  }

  /** Clearing an inserted block, when the lines around the insertion point allow it, gives back the note. */
  lemma {:induction false} InsertedCleared(lines: seq<string>, q: nat, result: string, t: Tests)
    requires q < |lines| && Fits(t, result)
    requires var p := InsertPoint(lines, q, t);
      && !t.isSeparator(lines[p - 1])
      && (p < |lines| ==> !t.takenAtEnd(lines[p]) && !t.isBlank(lines[p]))
    ensures var p := InsertPoint(lines, q, t);
      var l2 := Insert(lines, q, result, t);
      var e := p + 1 + |Body(result)|;
      && e < |l2| && RunEnd(l2, t, p + 1) == e
      && Clear(l2, Run(p + 1, e), t) == lines
  {
    InsertedEnd(lines, q, result, t);
    InsertedSeparators(lines, q, result, t);
    InsertedRemoved(lines, q, result, t);
  }

  /** A non-blank answer under a header with no block inserts one. */
  lemma {:induction false} PatchWithInserts(lines: seq<string>, t: Tests, q: nat, result: string)
    requires LocateWith(lines, t) == Some(Found(q, None, [])) && !t.isBlank(result)
    ensures PatchWith(lines, t, result) == Written(Insert(lines, q, result, t))
  {
  }

  /** A blank answer under a header with a block clears it. */
  lemma {:induction false} PatchWithClears(lines: seq<string>, t: Tests, f: Found, result: string)
    requires LocateWith(lines, t) == Some(f) && f.candidate.Some? && t.isBlank(result)
    ensures f.candidate.value.start <= f.candidate.value.end < |lines|
    ensures PatchWith(lines, t, result) == Written(Clear(lines, f.candidate.value, t))
  {
  }

  /** A non-blank answer under a header with a block replaces it. */
  lemma {:induction false} PatchWithReplaces(lines: seq<string>, t: Tests, f: Found, result: string)
    requires LocateWith(lines, t) == Some(f) && f.candidate.Some? && !t.isBlank(result)
    ensures f.candidate.value.start <= f.candidate.value.end < |lines|
    ensures PatchWith(lines, t, result) == Written(Replace(lines, f.candidate.value, result, t))
  {
  }

  /**
   * Insert-then-clear, for any tests the block fits: a non-blank answer
   * inserted under a header with no block, then a blank one submitted,
   * leaves the note as it was, provided the line before the insertion point
   * is not a `>` separator and the line at it is neither taken into a
   * block nor blank.
   */
  lemma {:induction false} InsertThenClearWith(lines: seq<string>, t: Tests, f: Found, p: nat, result: string, blank: string)
    requires LocateWith(lines, t) == Some(f) && f.candidate.None?
    requires Fits(t, result) && !t.isBlank(result) && t.isBlank(blank)
    requires p == InsertPoint(lines, f.question, t)
    requires !t.isSeparator(lines[p - 1])
    requires p < |lines| ==> !t.takenAtEnd(lines[p]) && !t.isBlank(lines[p])
    ensures PatchWith(lines, t, result).Written?
    ensures PatchWith(PatchWith(lines, t, result).lines, t, blank) == Written(lines)
  {
    LocateWithNoBlock(lines, t);
    PatchWithInserts(lines, t, f.question, result);
    InsertedThenBlank(lines, t, f.question, p, result, blank);
  }

  /** A blank answer over a block just inserted gives back the note from before the insertion. */
  lemma {:induction false} InsertedThenBlank(lines: seq<string>, t: Tests, q: nat, p: nat, result: string, blank: string)
    requires q < |lines| && First(lines, t.isTarget, 0) == q && FindStart(lines, t, q + 1).None?
    requires Fits(t, result) && t.isBlank(blank)
    requires p == InsertPoint(lines, q, t)
    requires !t.isSeparator(lines[p - 1])
    requires p < |lines| ==> !t.takenAtEnd(lines[p]) && !t.isBlank(lines[p])
    ensures PatchWith(Insert(lines, q, result, t), t, blank) == Written(lines)
  {
    var l1 := Insert(lines, q, result, t);
    InsertedFound(lines, t, q, result);
    InsertedCleared(lines, q, result, t);
    BlankOverBlock(l1, t, LocateWith(l1, t).value, blank, lines);
  }

  /** The block an insertion adds is the one the click then finds. */
  lemma {:induction false} InsertedFound(lines: seq<string>, t: Tests, q: nat, result: string)
    requires q < |lines| && First(lines, t.isTarget, 0) == q && FindStart(lines, t, q + 1).None?
    requires Fits(t, result)
    ensures var p := InsertPoint(lines, q, t);
      var l2 := Insert(lines, q, result, t);
      && LocateWith(l2, t).Some?
      && LocateWith(l2, t).value.candidate == Some(Run(p + 1, RunEnd(l2, t, p + 1)))
  {
    InsertedLocated(lines, t, q, result);
  }

  /** A blank answer over a found block whose clearing gives `cleared` writes `cleared`. */
  lemma {:induction false} BlankOverBlock(l1: seq<string>, t: Tests, f: Found, blank: string, cleared: seq<string>)
    requires LocateWith(l1, t) == Some(f) && f.candidate.Some? && t.isBlank(blank)
    requires f.candidate.value.end < |l1| && Clear(l1, f.candidate.value, t) == cleared
    ensures PatchWith(l1, t, blank) == Written(cleared)
  {
    PatchWithClears(l1, t, f, blank);
  }

  // ---------------------------------------------------------------------
  // Replacing a block, for any tests.

  /** A header found with a block below it: the first target line, the scan's block start, and its end. */
  lemma {:induction false} LocateWithBlock(lines: seq<string>, t: Tests)
    requires LocateWith(lines, t).Some? && LocateWith(lines, t).value.candidate.Some?
    ensures var f := LocateWith(lines, t).value;
      && f.question == First(lines, t.isTarget, 0)
      && FindStart(lines, t, f.question + 1) == Some(f.candidate.value.start)
      && f.candidate.value.end == RunEnd(lines, t, f.candidate.value.start)
  {
  }

  lemma {:induction false} ReplaceShape(lines: seq<string>, run: Run, result: string, t: Tests)
    requires run.start <= run.end < |lines|
    ensures Replace(lines, run, result, t)
      == lines[..run.start] + CandidateBlock(result) + lines[TrailingEnd(lines, run.end, t) + 1..]
  {
    SpliceInside(lines, run.start, TrailingEnd(lines, run.end, t) - run.start + 1, CandidateBlock(result));
  }

  /** A replacement keeps the lines before the block, starts the new block where the old one started, and keeps the lines after what it removed. */
  lemma {:induction false} ReplacedParts(lines: seq<string>, run: Run, result: string, t: Tests)
    requires run.start <= run.end < |lines|
    ensures var a := run.start;
      var l2 := Replace(lines, run, result, t);
      var k := a + 1 + |Body(result)|;
      && k <= |l2| && l2[..a] == lines[..a] && l2[a] == "> @candidate"
      && l2[k..] == lines[TrailingEnd(lines, run.end, t) + 1..]
  {
    var a := run.start;
    ReplacedEnds(lines, run, result, t);
    ReplaceShape(lines, run, result, t);
    var l2 := Replace(lines, run, result, t);
    assert l2[a] == CandidateBlock(result)[0];
  }

  /** A replacement keeps the lines before the block and after what it removed. */
  lemma {:induction false} ReplacedEnds(lines: seq<string>, run: Run, result: string, t: Tests)
    requires run.start <= run.end < |lines|
    ensures var a := run.start;
      var l2 := Replace(lines, run, result, t);
      var k := a + 1 + |Body(result)|;
      && k <= |l2| && l2[..a] == lines[..a]
      && l2[k..] == lines[TrailingEnd(lines, run.end, t) + 1..]
  {
    var a := run.start;
    var e := TrailingEnd(lines, run.end, t);
    ReplaceShape(lines, run, result, t);
    InsertedTail(lines[..a], result, lines[e + 1..]);
    var l2 := Replace(lines, run, result, t);
    assert l2[..a] == lines[..a];
  }

  /** Where a replacing block is found, for any tests it fits, when the line after the removed lines stops the scan. */
  lemma {:induction false} ReplacedLocated(lines: seq<string>, t: Tests, q: nat, run: Run, result: string)
    requires q < run.start <= run.end < |lines|
    requires First(lines, t.isTarget, 0) == q && FindStart(lines, t, q + 1) == Some(run.start)
    requires Fits(t, result)
    requires var e := TrailingEnd(lines, run.end, t); e + 1 < |lines| ==> t.stops(lines[e + 1])
    ensures var l2 := Replace(lines, run, result, t);
      LocateWith(l2, t) == Some(Found(q, Some(Run(run.start, RunEnd(l2, t, run.start))), Existing(Contents(Body(result), t))))
  {
    var a := run.start;
    var e := TrailingEnd(lines, run.end, t);
    var l2 := Replace(lines, run, result, t);
    ReplacedParts(lines, run, result, t);
    ReplacedTarget(lines, l2, t, q, a);
    ReplacedStart(lines, l2, t, q, a);
    ReplacedScan(lines, run, result, t);
    LocateWithOf(l2, t, q, a, a + 1 + |Body(result)|, Body(result));
  }

  /** Where a replacing block starts once found, for any tests it fits. */
  lemma {:induction false} ReplacedRun(lines: seq<string>, t: Tests, q: nat, run: Run, result: string)
    requires q < run.start <= run.end < |lines|
    requires First(lines, t.isTarget, 0) == q && FindStart(lines, t, q + 1) == Some(run.start)
    requires Fits(t, result)
    ensures var l2 := Replace(lines, run, result, t);
      && run.start < |l2|
      && LocateWith(l2, t).Some?
      && LocateWith(l2, t).value.candidate == Some(Run(run.start, RunEnd(l2, t, run.start)))
  {
    var a := run.start;
    var l2 := Replace(lines, run, result, t);
    ReplacedParts(lines, run, result, t);
    ReplacedTarget(lines, l2, t, q, a);
    ReplacedStart(lines, l2, t, q, a);
    LocateWithRun(l2, t, q, a);
  }

  /** After a replacement, the block's scan stops right after its body when the line after the removed lines stops it. */
  lemma {:induction false} ReplacedScan(lines: seq<string>, run: Run, result: string, t: Tests)
    requires run.start <= run.end < |lines| && Fits(t, result)
    requires var e := TrailingEnd(lines, run.end, t); e + 1 < |lines| ==> t.stops(lines[e + 1])
    ensures var a := run.start;
      var l2 := Replace(lines, run, result, t);
      var k := a + 1 + |Body(result)|;
      && k <= |l2|
      && First(l2, t.stops, a + 1) == k
      && l2[a + 1..k] == Body(result)
  {
    var e := TrailingEnd(lines, run.end, t);
    var pre, post := lines[..run.start], lines[e + 1..];
    assert post != [] ==> post[0] == lines[e + 1];
    ReplaceShape(lines, run, result, t);
    assert |pre + CandidateBlock(result) + post| == run.start + 1 + |Body(result)| + |post|;
    ScanOverBlock(pre, result, post, t);
  }

  lemma {:induction false} ReplacedTarget(lines: seq<string>, l2: seq<string>, t: Tests, q: nat, a: nat)
    requires q < a <= |lines| && a <= |l2| && l2[..a] == lines[..a]
    requires First(lines, t.isTarget, 0) == q
    ensures First(l2, t.isTarget, 0) == q
  {
    assert l2[..q + 1] == lines[..q + 1];
    FirstOfPrefix(lines, l2, t.isTarget, q);
  }

  lemma {:induction false} ReplacedStart(lines: seq<string>, l2: seq<string>, t: Tests, q: nat, a: nat)
    requires FindStart(lines, t, q + 1) == Some(a)
    requires a < |l2| && l2[..a] == lines[..a] && l2[a] == "> @candidate"
    requires t.isStart("> @candidate") && !t.stops("> @candidate")
    ensures FindStart(l2, t, q + 1) == Some(a)
  {
    FindStartFinds(lines, t, q + 1);
    forall i | q + 1 <= i < a ensures !t.stops(l2[i]) && !t.isStart(l2[i]) {
      assert l2[i] == lines[..a][i];
    }
    FindStartIs(l2, t, q + 1, a);
  }

  /**
   * Read-back after a replacement, for any tests the block fits and reads
   * back under: when the line after the removed lines stops the scan (or
   * the note ends there), the click finds the block where the old one
   * started, with the submitted answer as the existing one.
   */
  lemma {:induction false} ReplaceReadBackWith(lines: seq<string>, t: Tests, f: Found, e: nat, result: string)
    requires LocateWith(lines, t) == Some(f) && f.candidate.Some?
    requires Fits(t, result) && ReadsBack(t, result) && !t.isBlank(result)
    requires e == TrailingEnd(lines, f.candidate.value.end, t)
    requires e + 1 < |lines| ==> t.stops(lines[e + 1])
    ensures PatchWith(lines, t, result).Written?
    ensures var f2 := LocateWith(PatchWith(lines, t, result).lines, t);
      && f2.Some? && f2.value.question == f.question
      && f2.value.candidate.Some? && f2.value.candidate.value.start == f.candidate.value.start
      && f2.value.existing == result
  {
    LocateWithBlock(lines, t);
    PatchWithReplaces(lines, t, f, result);
    ReplacedLocated(lines, t, f.question, f.candidate.value, result);
    BodyReadsBack(t, result);
  }

  /** Where a replacing block ends, when the line after the removed lines is neither taken in nor blank. */
  lemma {:induction false} ReplacedEnd(lines: seq<string>, run: Run, e: nat, result: string, t: Tests)
    requires run.start <= run.end < |lines| && Fits(t, result)
    requires e == TrailingEnd(lines, run.end, t)
    requires e + 1 < |lines| ==> t.stops(lines[e + 1]) && !t.takenAtEnd(lines[e + 1]) && !t.isBlank(lines[e + 1])
    ensures var a := run.start;
      var l2 := Replace(lines, run, result, t);
      var e2 := a + |Body(result)|;
      && e2 < |l2|
      && RunEnd(l2, t, a) == e2
      && TrailingEnd(l2, e2, t) == e2
  {
    var a := run.start;
    var l2 := Replace(lines, run, result, t);
    var k := a + 1 + |Body(result)|;
    ReplacedEnds(lines, run, result, t);
    ReplacedScan(lines, run, result, t);
    if k < |l2| {
      assert l2[k] == l2[k..][0] == lines[e + 1];
    }
  }

  /** A replacing block takes in no trailing blank line when the line after the removed lines is not blank. */
  lemma {:induction false} ReplacedTrailing(lines: seq<string>, run: Run, e: nat, result: string, t: Tests)
    requires run.start <= run.end < |lines|
    requires e == TrailingEnd(lines, run.end, t)
    requires e + 1 < |lines| ==> !t.isBlank(lines[e + 1])
    ensures var a := run.start;
      var l2 := Replace(lines, run, result, t);
      var e2 := a + |Body(result)|;
      e2 < |l2| && TrailingEnd(l2, e2, t) == e2
  {
    var a := run.start;
    var l2 := Replace(lines, run, result, t);
    var k := a + 1 + |Body(result)|;
    ReplacedEnds(lines, run, result, t);
    if k < |l2| {
      assert l2[k] == l2[k..][0] == lines[e + 1];
    }
  }

  /** The walk back over `>` separators depends only on the lines before where it starts. */
  lemma {:induction false} SeparatorsOfPrefix(xs: seq<string>, ys: seq<string>, i: nat, t: Tests)
    requires i <= |xs| && i <= |ys| && xs[..i] == ys[..i]
    ensures SeparatorsBefore(xs, i, t) == SeparatorsBefore(ys, i, t)
    decreases i
  {
    if i > 0 {
      assert xs[i - 1] == xs[..i][i - 1];
      assert ys[i - 1] == ys[..i][i - 1];
      assert xs[..i - 1] == xs[..i][..i - 1];
      assert ys[..i - 1] == ys[..i][..i - 1];
      SeparatorsOfPrefix(xs, ys, i - 1, t);
    }
  }

  /** Splicing from before the block to its end in the replaced note is splicing over what the old block took. */
  lemma {:induction false} ReplacedRemoved(lines: seq<string>, l2: seq<string>, a: nat, s: nat, e: nat, e2: nat, out: seq<string>)
    requires s <= a <= e < |lines| && a <= e2 < |l2|
    requires l2[..a] == lines[..a] && l2[e2 + 1..] == lines[e + 1..]
    ensures Splice(l2, s, e2 - s + 1, out) == Splice(lines, s, e - s + 1, out)
  {
    SpliceInside(l2, s, e2 - s + 1, out);
    SpliceInside(lines, s, e - s + 1, out);
    assert l2[..s] == lines[..s];
  }

  /** A clearing is a splice from the first separator before the block to the last line it removes. */
  lemma {:induction false} ClearIs(lines: seq<string>, run: Run, t: Tests, s: nat, e: nat)
    requires run.start <= run.end < |lines|
    requires s == SeparatorsBefore(lines, run.start, t) && e == TrailingEnd(lines, run.end, t)
    ensures Clear(lines, run, t) == Splice(lines, s, e - s + 1, [])
  {
  }

  /** A replacement is a splice from the block's first line to the last line it removes. */
  lemma {:induction false} ReplaceIs(lines: seq<string>, run: Run, result: string, t: Tests, e: nat)
    requires run.start <= run.end < |lines|
    requires e == TrailingEnd(lines, run.end, t)
    ensures Replace(lines, run, result, t) == Splice(lines, run.start, e - run.start + 1, CandidateBlock(result))
  {
  }

  /** After a replacement that leaves a line stopping the scan after it, the click finds the new block and where it ends. */
  lemma {:induction false} ReplacedFoundAgain(lines: seq<string>, t: Tests, q: nat, run: Run, e: nat, result: string)
    requires q < run.start <= run.end < |lines|
    requires First(lines, t.isTarget, 0) == q && FindStart(lines, t, q + 1) == Some(run.start)
    requires Fits(t, result)
    requires e == TrailingEnd(lines, run.end, t)
    requires e + 1 < |lines| ==> t.stops(lines[e + 1]) && !t.takenAtEnd(lines[e + 1]) && !t.isBlank(lines[e + 1])
    ensures var l2 := Replace(lines, run, result, t);
      && LocateWith(l2, t).Some?
      && LocateWith(l2, t).value.candidate == Some(Run(run.start, run.start + |Body(result)|))
  {
    ReplacedRun(lines, t, q, run, result);
    ReplacedEnd(lines, run, e, result, t);
  }

  /** A second submission over a replacing block: a blank one clears what clearing the first block would have. */
  lemma {:induction false} ReplacedThenCleared(lines: seq<string>, run: Run, e: nat, result: string, t: Tests)
    requires run.start <= run.end < |lines|
    requires e == TrailingEnd(lines, run.end, t)
    requires e + 1 < |lines| ==> !t.isBlank(lines[e + 1])
    ensures var l2 := Replace(lines, run, result, t);
      var a := run.start;
      a <= a + |Body(result)| < |l2| && Clear(l2, Run(a, a + |Body(result)|), t) == Clear(lines, run, t)
  {
    var a := run.start;
    var l2 := Replace(lines, run, result, t);
    var e2 := a + |Body(result)|;
    ReplacedEnds(lines, run, result, t);
    ReplacedTrailing(lines, run, e, result, t);
    SameClear(lines, l2, run, e, e2, t);
  }

  /** Two notes alike before a block's first line and after what it removes clear alike. */
  lemma {:induction false} SameClear(lines: seq<string>, l2: seq<string>, run: Run, e: nat, e2: nat, t: Tests)
    requires run.start <= run.end < |lines| && e == TrailingEnd(lines, run.end, t)
    requires run.start <= e2 < |l2| && TrailingEnd(l2, e2, t) == e2
    requires l2[..run.start] == lines[..run.start] && l2[e2 + 1..] == lines[e + 1..]
    ensures Clear(l2, Run(run.start, e2), t) == Clear(lines, run, t)
  {
    var a := run.start;
    var s := SeparatorsBefore(lines, a, t);
    SeparatorsOfPrefix(l2, lines, a, t);
    ClearIs(l2, Run(a, e2), t, s, e2);
    ClearIs(lines, run, t, s, e);
    ReplacedRemoved(lines, l2, a, s, e, e2, []);
  }

  /** A second submission over a replacing block: a non-blank one replaces what replacing the first block would have. */
  lemma {:induction false} ReplacedThenReplaced(lines: seq<string>, run: Run, e: nat, result: string, second: string, t: Tests)
    requires run.start <= run.end < |lines|
    requires e == TrailingEnd(lines, run.end, t)
    requires e + 1 < |lines| ==> !t.isBlank(lines[e + 1])
    ensures var l2 := Replace(lines, run, result, t);
      var a := run.start;
      a <= a + |Body(result)| < |l2| && Replace(l2, Run(a, a + |Body(result)|), second, t) == Replace(lines, run, second, t)
  {
    var a := run.start;
    var l2 := Replace(lines, run, result, t);
    var e2 := a + |Body(result)|;
    ReplacedEnds(lines, run, result, t);
    ReplacedTrailing(lines, run, e, result, t);
    SameReplace(lines, l2, run, e, e2, second, t);
  }

  /** Two notes alike before a block's first line and after what it removes are replaced alike. */
  lemma {:induction false} SameReplace(lines: seq<string>, l2: seq<string>, run: Run, e: nat, e2: nat, second: string, t: Tests)
    requires run.start <= run.end < |lines| && e == TrailingEnd(lines, run.end, t)
    requires run.start <= e2 < |l2| && TrailingEnd(l2, e2, t) == e2
    requires l2[..run.start] == lines[..run.start] && l2[e2 + 1..] == lines[e + 1..]
    ensures Replace(l2, Run(run.start, e2), second, t) == Replace(lines, run, second, t)
  {
    var a := run.start;
    ReplaceIs(l2, Run(a, e2), second, t, e2);
    ReplaceIs(lines, run, second, t, e);
    ReplacedRemoved(lines, l2, a, a, e, e2, CandidateBlock(second));
  }

  /** Two notes whose blocks clear and replace alike give the same click. */
  lemma {:induction false} SameEdits(lines: seq<string>, l1: seq<string>, t: Tests, f: Found, f2: Found, second: string)
    requires LocateWith(lines, t) == Some(f) && f.candidate.Some?
    requires LocateWith(l1, t) == Some(f2) && f2.candidate.Some?
    requires Clear(l1, f2.candidate.value, t) == Clear(lines, f.candidate.value, t)
    requires Replace(l1, f2.candidate.value, second, t) == Replace(lines, f.candidate.value, second, t)
    ensures PatchWith(l1, t, second) == PatchWith(lines, t, second)
  {
    if t.isBlank(second) {
      PatchWithClears(lines, t, f, second);
      PatchWithClears(l1, t, f2, second);
    } else {
      PatchWithReplaces(lines, t, f, second);
      PatchWithReplaces(l1, t, f2, second);
    }
  }

  /**
   * The latest answer wins, for any tests the block fits: once a block is
   * found and replaced, with the line after the removed lines (if any)
   * stopping the scan and neither taken in nor blank, a second submission
   * of any answer leaves the note as submitting only the second.
   */
  lemma {:induction false} ReplaceTwiceWith(lines: seq<string>, t: Tests, f: Found, e: nat, first: string, second: string)
    requires LocateWith(lines, t) == Some(f) && f.candidate.Some?
    requires Fits(t, first) && !t.isBlank(first)
    requires e == TrailingEnd(lines, f.candidate.value.end, t)
    requires e + 1 < |lines| ==> t.stops(lines[e + 1]) && !t.takenAtEnd(lines[e + 1]) && !t.isBlank(lines[e + 1])
    ensures PatchWith(lines, t, first).Written?
    ensures PatchWith(PatchWith(lines, t, first).lines, t, second) == PatchWith(lines, t, second)
  {
    PatchWithReplaces(lines, t, f, first);
    ReplacedSecond(lines, t, f, e, first, second);
  }

  /** A second submission over a replacing block does what it would have done over the block replaced. */
  lemma {:induction false} ReplacedSecond(lines: seq<string>, t: Tests, f: Found, e: nat, first: string, second: string)
    requires LocateWith(lines, t) == Some(f) && f.candidate.Some?
    requires Fits(t, first)
    requires e == TrailingEnd(lines, f.candidate.value.end, t)
    requires e + 1 < |lines| ==> t.stops(lines[e + 1]) && !t.takenAtEnd(lines[e + 1]) && !t.isBlank(lines[e + 1])
    ensures f.candidate.value.start <= f.candidate.value.end < |lines|
    ensures PatchWith(Replace(lines, f.candidate.value, first, t), t, second) == PatchWith(lines, t, second)
  {
    var run := f.candidate.value;
    var l1 := Replace(lines, run, first, t);
    LocateWithBlock(lines, t);
    ReplacedFoundAgain(lines, t, f.question, run, e, first);
    ReplacedThenCleared(lines, run, e, first, t);
    ReplacedThenReplaced(lines, run, e, first, second, t);
    SameEdits(lines, l1, t, f, LocateWith(l1, t).value, second);
  }

  // ---------------------------------------------------------------------
  // The callout dialect's tests.

  /** `calloutMatch && calloutMatch[1].trim() === displayedQuestion` */
  predicate IsTarget(target: string, line: string) {
    CalloutMatch(line) == Some(target)
  }

  function TargetIs(target: string): string -> bool {
    line => IsTarget(target, line)
  }

  /** Another question, a `## ` line, or a line that does not start with `>`. */
  predicate Stops(line: string) {
    IsCallout(line) || IsSectionBreak(line) || NotCallout(line)
  }

  /** `^>\s*@candidate\s*$` with the `i` flag. */
  predicate IsStart(line: string) {
    IsCandidateStart(line, true)
  }

  /** The stopping line a block takes in: a blank line that does not start with `>`. */
  predicate TakenAtEnd(line: string) {
    !IsCallout(line) && !IsSectionBreak(line) && NotCallout(line) && IsBlank(line)
  }

  /** `line.trim() === '>'` */
  predicate IsSeparator(line: string) {
    Trim(line) == ">"
  }

  /** The callout dialect's tests for one displayed title. */
  function CalloutTests(title: string): Tests {
    Tests(TargetIs(Target(title)), Stops, IsStart, TakenAtEnd, CalloutLine, IsBlank, IsSeparator)
  }

  /** The click handler's search. */
  function Locate(lines: seq<string>, title: string): Option<Found> {
    LocateWith(lines, CalloutTests(title))
  }

  /** One click of the callout dialect's button. */
  function Patch(lines: seq<string>, title: string, result: string): Outcome {
    PatchWith(lines, CalloutTests(title), result)
  }
}

=== FILE: callout_properties.dfy ===
/**
 * The properties the callout dialect's click promises, obtained from the
 * ones `CalloutPatch` proves for any line tests.
 */
module CalloutProperties {
  import opened Wrappers
  import opened Text
  import opened Syntax
  import opened CalloutPatch

  /** No line of the answer, once quoted, reads as a callout question header. */
  predicate NoHeaderLines(result: string) {
    forall i | 0 <= i < |Split(result, '\n')| :: !IsCallout("> " + Split(result, '\n')[i])
  }

  /** Every line of the answer starts with something other than white space, and holds no line terminator. */
  predicate PlainLines(result: string) {
    forall i | 0 <= i < |Split(result, '\n')| ::
      && (Split(result, '\n')[i] == [] || !IsSpace(Split(result, '\n')[i][0]))
      && NoLineTerminator(Split(result, '\n')[i])
  }

  lemma {:induction false} LocateIsWith(lines: seq<string>, title: string)
    ensures Locate(lines, title) == LocateWith(lines, CalloutTests(title))
  {
  }

  lemma {:induction false} PatchIsWith(lines: seq<string>, title: string, result: string)
    ensures Patch(lines, title, result) == PatchWith(lines, CalloutTests(title), result)
  {
  }

  // ---------------------------------------------------------------------
  // The lines of a block under the callout dialect's tests.

  lemma {:induction false} SeparatorNotCallout()
    ensures !IsCallout(">")
  {
    var s := ">";
    assert s[1..] == [];
    TrimStartOfUnspaced([]);
  }

  lemma {:induction false} SeparatorLine()
    ensures !Stops(">") && !IsStart(">") && IsSeparator(">")
  {
    var s := ">";
    SeparatorNotCallout();
    TrimOfTrimmed(s);
  }

  lemma {:induction false} StartNotCallout()
    ensures !IsCallout("> @candidate")
  {
    var s := "> @candidate";
    var w := "@candidate";
    assert s[1..] == " " + w;
    TrimStartOfSpaced(" ", w);
  }

  lemma {:induction false} StartIsStart()
    ensures IsStart("> @candidate")
  {
    var s := "> @candidate";
    assert s[2..] == "@candidate";
    LowerOfLower(s[2..]);
    StartOfLine(s);
  }

  /** `>`, a space and a word that lower-cases to `@candidate` make a block start. */
  lemma {:induction false} StartOfLine(s: string)
    requires |s| == 12 && s[0] == '>' && s[1] == ' ' && s[2] == '@' && Lower(s[2..]) == "@candidate"
    ensures IsStart(s)
  {
    var w := s[2..];
    assert s[1..] == " " + w;
    TrimStartOfSpaced(" ", w);
    assert w[..10] == w;
    assert w[10..] == [];
  }

  lemma {:induction false} StartLine()
    ensures IsStart("> @candidate") && !Stops("> @candidate")
  {
    StartIsStart();
    StartNotCallout();
    AngleNotBreak("> @candidate");
  }

  /** A line starting with `>` is neither a line that does not start with `>` nor a `## ` line. */
  lemma {:induction false} AngleNotBreak(s: string)
    requires |s| >= 1 && s[0] == '>'
    ensures !NotCallout(s) && !IsSectionBreak(s)
  {
    TrimKeepsFirst(s);
    if |Trim(s)| >= 3 {
      assert Trim(s)[..3][0] == Trim(s)[0];
    }
  }

  lemma {:induction false} EmptyLine()
    ensures !Stops([]) && CalloutLine([]) == None
  {
    TrimOfSpace([]);
  }

  lemma {:induction false} QuotedLine(l: string)
    requires !IsCallout("> " + l)
    ensures !Stops("> " + l)
  {
    QuoteLineShape(l);
  }

  /** A candidate block fits the callout dialect's tests when no quoted answer line reads as a header. */
  lemma {:induction false} CalloutFits(title: string, result: string)
    requires NoHeaderLines(result)
    ensures Fits(CalloutTests(title), result)
  {
    SeparatorLine();
    StartLine();
    EmptyLine();
    var s := Split(result, '\n');
    forall i | 0 <= i < |s| ensures !Stops("> " + s[i]) {
      QuotedLine(s[i]);
    }
  }

  /** A candidate block reads back under the callout dialect's tests when its answer lines are plain. */
  lemma {:induction false} CalloutReadsBack(title: string, result: string)
    requires PlainLines(result)
    ensures ReadsBack(CalloutTests(title), result)
  {
    EmptyLine();
    var s := Split(result, '\n');
    forall i | 0 <= i < |s| ensures CalloutLine("> " + s[i]) == Some(s[i]) {
      CalloutLineOfQuote(s[i]);
    }
  }

  // ---------------------------------------------------------------------
  // The click.

  /**
   * The click finds the first callout header whose trimmed text is the
   * title's target, and nothing when no header carries it.
   */
  lemma {:induction false} LocateFindsFirst(lines: seq<string>, title: string)
    ensures Locate(lines, title).None? <==>
      forall j | 0 <= j < |lines| :: !IsTarget(Target(title), lines[j])
    ensures Locate(lines, title).Some? ==>
      var q := Locate(lines, title).value.question;
      && q < |lines| && IsTarget(Target(title), lines[q])
      && forall j | 0 <= j < q :: !IsTarget(Target(title), lines[j])
  {
    var t := CalloutTests(title);
    LocateWithFinds(lines, t);
    assert forall j | 0 <= j < |lines| :: t.isTarget(lines[j]) == IsTarget(Target(title), lines[j]);
  }

  /**
   * A block is found exactly when an `@candidate` line (in any letter case)
   * comes after the header before the first line that stops the scan, and
   * it starts at the first such line.
   */
  lemma {:induction false} LocateFindsBlock(lines: seq<string>, title: string)
    requires Locate(lines, title).Some?
    ensures var f := Locate(lines, title).value;
      var stop := First(lines, Stops, f.question + 1);
      && (f.candidate.Some? <==> exists i | f.question + 1 <= i < stop :: IsStart(lines[i]))
      && (f.candidate.Some? ==>
            var c := f.candidate.value.start;
            c < stop && IsStart(lines[c]) && forall i | f.question + 1 <= i < c :: !IsStart(lines[i]))
  {
    var t := CalloutTests(title);
    LocateIsWith(lines, title);
    LocateWithCandidate(lines, t);
  }

  /** No header carrying the title: nothing is written. */
  lemma {:induction false} PatchNotFound(lines: seq<string>, title: string, result: string)
    ensures Patch(lines, title, result) == NotFound <==> Locate(lines, title).None?
  {
  }

  /** A blank answer under a header with no block writes the note back unchanged. */
  lemma {:induction false} BlankWithoutBlock(lines: seq<string>, title: string, blank: string)
    requires Locate(lines, title).Some? && Locate(lines, title).value.candidate.None?
    requires IsBlank(blank)
    ensures Patch(lines, title, blank) == Written(lines)
  {
  }

  /**
   * Read-back after an insertion: once a plain answer whose quoted lines are
   * not headers is inserted under a header with no block, the click finds
   * the same header, the new block after the separator, and the answer as
   * the existing one that the dialog opens with.
   */
  lemma {:induction false} InsertReadBack(lines: seq<string>, title: string, result: string)
    requires Locate(lines, title).Some? && Locate(lines, title).value.candidate.None?
    requires !IsBlank(result) && NoHeaderLines(result) && PlainLines(result)
    ensures Patch(lines, title, result).Written?
    ensures var q := Locate(lines, title).value.question;
      var f := Locate(Patch(lines, title, result).lines, title);
      && f.Some? && f.value.question == q
      && f.value.candidate.Some? && f.value.candidate.value.start == InsertPoint(lines, q, CalloutTests(title)) + 1
      && f.value.existing == result
  {
    var t := CalloutTests(title);
    LocateIsWith(lines, title);
    CalloutFits(title, result);
    CalloutReadsBack(title, result);
    InsertReadBackWith(lines, t, result);
    PatchIsWith(lines, title, result);
    LocateIsWith(Patch(lines, title, result).lines, title);
  }

  /**
   * Insert-then-clear: for the found header `f` with no block and `p` the
   * insertion point, a non-blank answer inserted and then a blank one
   * submitted gives back the note, provided no quoted answer line reads as
   * a header, the line before the insertion point is not a bare `>` and
   * the line at it (if any) is not blank.
   */
  lemma {:induction false} InsertThenClear(lines: seq<string>, title: string, f: Found, p: nat, result: string, blank: string)
    requires Locate(lines, title) == Some(f) && f.candidate.None?
    requires !IsBlank(result) && NoHeaderLines(result) && IsBlank(blank)
    requires p == InsertPoint(lines, f.question, CalloutTests(title))
    requires !IsSeparator(lines[p - 1])
    requires p < |lines| ==> !IsBlank(lines[p])
    ensures Patch(lines, title, result).Written?
    ensures Patch(Patch(lines, title, result).lines, title, blank) == Written(lines)
  {
    var t := CalloutTests(title);
    LocateIsWith(lines, title);
    CalloutFits(title, result);
    InsertThenClearWith(lines, t, f, p, result, blank);
    PatchIsWith(lines, title, result);
    PatchIsWith(Patch(lines, title, result).lines, title, blank);
  }

  /**
   * Read-back after a replacement: for the found header `f` with a block,
   * `e` the last line a submission removes, when the line after it is
   * another header, a `## ` line or a line not starting with `>` (or the
   * note ends there), the click finds the new block where the old one
   * started, with the answer as the existing one.
   */
  lemma {:induction false} ReplaceReadBack(lines: seq<string>, title: string, f: Found, e: nat, result: string)
    requires Locate(lines, title) == Some(f) && f.candidate.Some?
    requires !IsBlank(result) && NoHeaderLines(result) && PlainLines(result)
    requires e == TrailingEnd(lines, f.candidate.value.end, CalloutTests(title))
    requires e + 1 < |lines| ==> Stops(lines[e + 1])
    ensures Patch(lines, title, result).Written?
    ensures var f2 := Locate(Patch(lines, title, result).lines, title);
      && f2.Some? && f2.value.question == f.question
      && f2.value.candidate.Some? && f2.value.candidate.value.start == f.candidate.value.start
      && f2.value.existing == result
  {
    var t := CalloutTests(title);
    LocateIsWith(lines, title);
    CalloutFits(title, result);
    CalloutReadsBack(title, result);
    ReplaceReadBackWith(lines, t, f, e, result);
    PatchIsWith(lines, title, result);
    LocateIsWith(Patch(lines, title, result).lines, title);
  }

  /**
   * The latest answer wins: for the found header `f` with a block, `e` the
   * last line a submission removes, when the line after it (if any) stops
   * the scan and is not blank, submitting one answer and then any other
   * leaves the note as submitting only the second.
   */
  lemma {:induction false} ReplaceTwice(lines: seq<string>, title: string, f: Found, e: nat, first: string, second: string)
    requires Locate(lines, title) == Some(f) && f.candidate.Some?
    requires !IsBlank(first) && NoHeaderLines(first)
    requires e == TrailingEnd(lines, f.candidate.value.end, CalloutTests(title))
    requires e + 1 < |lines| ==> Stops(lines[e + 1]) && !IsBlank(lines[e + 1])
    ensures Patch(lines, title, first).Written?
    ensures Patch(Patch(lines, title, first).lines, title, second) == Patch(lines, title, second)
  {
    var t := CalloutTests(title);
    LocateIsWith(lines, title);
    CalloutFits(title, first);
    ReplaceTwiceWith(lines, t, f, e, first, second);
    PatchIsWith(lines, title, first);
    PatchIsWith(lines, title, second);
    PatchIsWith(Patch(lines, title, first).lines, title, second);
  }

  // ---------------------------------------------------------------------
  // The title the button reads.

  lemma {:induction false} NoPencil(q: string)
    requires forall i | 0 <= i < |q| :: q[i] != '\U{270F}'
    ensures ReplaceFirst(q, Pencil, "") == q
  {
    forall i: nat | i + |Pencil| <= |q| ensures !OccursAt(q, Pencil, i) {
      assert q[i..i + |Pencil|][0] == q[i];
    }
  }

  /**
   * The rendered title of a callout header, its marker, a space and the
   * question text, leads the click to that header: the target is the text,
   * and the header line carries it.
   */
  lemma {:induction false} TitleFindsHeader(marker: char, q: string)
    requires IsMarker(marker)
    requires q != [] && Trim(q) == q && NoLineTerminator(q)
    requires forall i | 0 <= i < |q| :: q[i] != '\U{270F}'
    ensures Target([marker] + " " + q) == q
    ensures IsTarget(Target([marker] + " " + q), CalloutHeader(marker, q))
  {
    var title := [marker] + " " + q;
    assert title[1..] == " " + q;
    TrimShape(q);
    TrimStartOfSpaced(" ", q);
    NoPencil(q);
    CalloutRoundTrip(marker, q);
  }
}

=== FILE: escape.dfy ===
/**
 * `escapeRegExp`: every character that has a meaning in a regular
 * expression pattern gets a backslash in front, so that the result, read
 * as a pattern, matches the original text literally.
 */
module Escape {
  /** The class `[.*+?^${}()|[\]\\]`: the characters that are prefixed. */
  predicate IsSpecial(c: char) {
    || c == '.' || c == '*' || c == '+' || c == '?' || c == '^' || c == '$'
    || c == '{' || c == '}' || c == '(' || c == ')' || c == '|' || c == '['
    || c == ']' || c == '\\'
  }

  /** `string.replace(/[.*+?^${}()|[\]\\]/g, '\\$&')` */
  function EscapeRegExp(s: string): string
    decreases |s|
  {
    if s == [] then []
    else if IsSpecial(s[0]) then ['\\', s[0]] + EscapeRegExp(s[1..])
    else [s[0]] + EscapeRegExp(s[1..])
  }

  // ---------------------------------------------------------------------
  // The partner: reading an escaped pattern back.

  /**
   * A pattern that matches one text literally: each special character
   * appears only behind a backslash, and a backslash always escapes a
   * special character.
   */
  predicate IsLiteral(e: string)
    decreases |e|
  {
    if e == [] then true
    else if e[0] == '\\' then |e| >= 2 && IsSpecial(e[1]) && IsLiteral(e[2..])
    else !IsSpecial(e[0]) && IsLiteral(e[1..])
  }

  /** The text a literal pattern matches: every escaping backslash dropped. */
  function Unescape(e: string): string
    decreases |e|
  {
    if e == [] then []
    else if e[0] == '\\' && |e| >= 2 then [e[1]] + Unescape(e[2..])
    else [e[0]] + Unescape(e[1..])
  }

  /** How many characters of `s` are prefixed. */
  function CountSpecial(s: string): nat
    decreases |s|
  {
    if s == [] then 0 else (if IsSpecial(s[0]) then 1 else 0) + CountSpecial(s[1..])
  }

  // ---------------------------------------------------------------------
  // What `escapeRegExp` promises.

  /** The escaped text is a literal pattern. */
  lemma {:induction false} EscapeIsLiteral(s: string)
    ensures IsLiteral(EscapeRegExp(s))
    decreases |s|
  {
    if s != [] {
      EscapeIsLiteral(s[1..]);
      var e := EscapeRegExp(s);
      if IsSpecial(s[0]) {
        assert e[2..] == EscapeRegExp(s[1..]);
      } else {
        assert e[1..] == EscapeRegExp(s[1..]);
      }
    }
  }

  /** The escaped pattern matches exactly the original text. */
  lemma {:induction false} UnescapeEscape(s: string)
    ensures Unescape(EscapeRegExp(s)) == s
    decreases |s|
  {
    if s != [] {
      UnescapeEscape(s[1..]);
      var e := EscapeRegExp(s);
      if IsSpecial(s[0]) {
        assert e[2..] == EscapeRegExp(s[1..]);
      } else {
        assert e[1..] == EscapeRegExp(s[1..]);
      }
      assert s == [s[0]] + s[1..];
    }
  }

  /** Every literal pattern is the escape of the text it matches: escaping is a bijection onto literal patterns. */
  lemma {:induction false} EscapeUnescape(e: string)
    requires IsLiteral(e)
    ensures EscapeRegExp(Unescape(e)) == e
    decreases |e|
  {
    if e != [] {
      if e[0] == '\\' {
        EscapeUnescape(e[2..]);
        assert Unescape(e) == [e[1]] + Unescape(e[2..]);
        assert e == ['\\', e[1]] + e[2..];
      } else {
        EscapeUnescape(e[1..]);
        assert Unescape(e) == [e[0]] + Unescape(e[1..]);
        assert e == [e[0]] + e[1..];
      }
    }
  }

  /** Escaping works character by character. */
  lemma {:induction false} EscapeAppend(a: string, b: string)
    ensures EscapeRegExp(a + b) == EscapeRegExp(a) + EscapeRegExp(b)
    decreases |a|
  {
    if a != [] {
      assert (a + b)[1..] == a[1..] + b;
      EscapeAppend(a[1..], b);
    } else {
      assert a + b == b;
    }
  }

  /** The result is one character longer for each special character. */
  lemma {:induction false} EscapeLength(s: string)
    ensures |EscapeRegExp(s)| == |s| + CountSpecial(s)
    decreases |s|
  {
    if s != [] {
      EscapeLength(s[1..]);
    }
  }

  /** Text without special characters is its own pattern. */
  lemma {:induction false} EscapePlain(s: string)
    requires forall i | 0 <= i < |s| :: !IsSpecial(s[i])
    ensures EscapeRegExp(s) == s
    decreases |s|
  {
    if s != [] {
      EscapePlain(s[1..]);
      assert s == [s[0]] + s[1..];
    }
  }

  /** `escapeRegExp('a+b*c')` is `a\+b\*c`. */
  lemma EscapeExample()
    ensures EscapeRegExp("a+b*c") == "a\\+b\\*c"
  {
    assert EscapeRegExp("c") == "c";
    assert EscapeRegExp("*c") == "\\*c";
    assert EscapeRegExp("b*c") == "b\\*c";
    assert EscapeRegExp("+b*c") == "\\+b\\*c";
  }
}

=== FILE: extract.dfy ===
/**
 * The question reader the note-assembly command runs on every linked note:
 * it walks the note's lines, gathers one question per heading question
 * outside `---` fences, sorts them by difficulty and writes each one as a
 * collapsed `[!question]` callout.
 */
module Extractor {
  import opened Wrappers
  import opened Text
  import opened Questions
  import opened Syntax

  // ---------------------------------------------------------------------
  // The callout a question is written as.

  /**
   * The marker looked up for a difficulty word; any other word gets the
   * question mark. The source looks the word up in an object literal, so
   * the names `Object.prototype` carries (`constructor`, `toString`, ...)
   * would find a value there; the reader only ever passes `easy`, `medium`
   * or `hard`, and those names are not modelled.
   */
  function DifficultyMarker(difficulty: string): (m: char)
    ensures IsMarker(m)
    ensures m == UnknownMarker <==> difficulty !in {"easy", "medium", "hard"}
  {
    if difficulty == "easy" then GreenMarker
    else if difficulty == "medium" then YellowMarker
    else if difficulty == "hard" then RedMarker
    else UnknownMarker
  }

  /** Each line of `text` quoted with `> `, joined again with '\n'. */
  function QuotedText(text: string): string {
    Join(Quote(Split(text, '\n')), '\n')
  }

  /**
   * One question as a callout: the header line, the quoted answer and, when
   * the candidate answer is not blank, a `>` separator, `> @candidate` and the
   * quoted candidate answer.
   */
  function InteractiveQuestion(question: string, answer: string, candidate: string, difficulty: string): string {
    var head := CalloutHeader(DifficultyMarker(difficulty), question) + "\n" + QuotedText(answer);
    if candidate != [] && Trim(candidate) != [] then head + "\n" + ">" + "\n" + "> @candidate" + "\n" + QuotedText(candidate)
    else head
  }

  /** The lines of the callout written for a question, as the note will hold them. */
  function CalloutLines(question: string, answer: string, candidate: string, difficulty: string): seq<string> {
    [CalloutHeader(DifficultyMarker(difficulty), question)] + Quote(Split(answer, '\n'))
    + (if Trim(candidate) != [] then [">", "> @candidate"] + Quote(Split(candidate, '\n')) else [])
  }

  /** No line of a quoted text holds a line break. */
  lemma {:induction false} QuoteKeepsLines(text: string)
    ensures forall i | 0 <= i < |Quote(Split(text, '\n'))| :: '\n' !in Quote(Split(text, '\n'))[i]
  {
    var ls := Split(text, '\n');
    forall i | 0 <= i < |ls| ensures '\n' !in Quote(ls)[i] {
      assert Quote(ls)[i] == "> " + ls[i];
    }
  }

  /** The quoted text of `text` is the join of its quoted lines: as `Join`, but read off the string. */
  lemma {:induction false} JoinThree(a: seq<string>, b: seq<string>, c: seq<string>, sep: char)
    requires |a| >= 1 && |b| >= 1 && |c| >= 1
    ensures Join(a + b + c, sep) == Join(a, sep) + [sep] + Join(b, sep) + [sep] + Join(c, sep)
  {
    JoinAppend(a, b, sep);
    JoinAppend(a + b, c, sep);
  }

  /** The callout is its lines joined with '\n'. */
  lemma {:induction false} InteractiveJoined(question: string, answer: string, candidate: string, difficulty: string)
    ensures InteractiveQuestion(question, answer, candidate, difficulty) == Join(CalloutLines(question, answer, candidate, difficulty), '\n')
  {
    var h := CalloutHeader(DifficultyMarker(difficulty), question);
    var qa := Quote(Split(answer, '\n'));
    JoinCons(h, qa, '\n');
    if Trim(candidate) != [] {
      assert candidate != [];
      JoinedWithCandidate(h, qa, candidate);
    } else {
      assert CalloutLines(question, answer, candidate, difficulty) == [h] + qa;
    }
  }

  lemma {:induction false} JoinedWithCandidate(h: string, qa: seq<string>, candidate: string)
    requires |qa| >= 1 && Trim(candidate) != []
    ensures Join([h] + qa + ([">", "> @candidate"] + Quote(Split(candidate, '\n'))), '\n')
      == Join([h] + qa, '\n') + "\n" + ">" + "\n" + "> @candidate" + "\n" + QuotedText(candidate)
  {
    var qc := Quote(Split(candidate, '\n'));
    CandidateJoined(h, qa, ">", "> @candidate", qc, '\n');
    assert [h] + qa + ([">", "> @candidate"] + qc) == [h] + qa + [">", "> @candidate"] + qc;
  }

  /** Two lines between a head and a tail, joined. */
  lemma {:induction false} CandidateJoined(h: string, qa: seq<string>, x: string, y: string, qc: seq<string>, sep: char)
    requires |qa| >= 1 && |qc| >= 1
    ensures Join([h] + qa + [x, y] + qc, sep) == Join([h] + qa, sep) + [sep] + x + [sep] + y + [sep] + Join(qc, sep)
  {
    JoinThree([h] + qa, [x, y], qc, sep);
    JoinCons(x, [y], sep);
  }

  /** No line of the callout holds a line break when the question does not. */
  lemma {:induction false} CalloutLinesOneLine(question: string, answer: string, candidate: string, difficulty: string)
    requires '\n' !in question
    ensures var ls := CalloutLines(question, answer, candidate, difficulty);
      forall i | 0 <= i < |ls| :: '\n' !in ls[i]
  {
    var h := CalloutHeader(DifficultyMarker(difficulty), question);
    QuoteKeepsLines(answer);
    QuoteKeepsLines(candidate);
    assert '\n' !in h by {
      assert h == "> [!question]- " + [DifficultyMarker(difficulty)] + " " + question;
    }
  }

  /**
   * Splitting the written callout on '\n' gives its header line, one `> `
   * line per answer line and, for a candidate answer that is not blank,
   * `>`, `> @candidate` and one `> ` line per candidate line: so
   * 1 + |answer lines| lines, plus 2 + |candidate lines|.
   */
  lemma {:induction false} InteractiveLines(question: string, answer: string, candidate: string, difficulty: string)
    requires '\n' !in question
    ensures Split(InteractiveQuestion(question, answer, candidate, difficulty), '\n')
      == CalloutLines(question, answer, candidate, difficulty)
    ensures |Split(InteractiveQuestion(question, answer, candidate, difficulty), '\n')|
      == 1 + |Split(answer, '\n')| + (if Trim(candidate) != [] then 2 + |Split(candidate, '\n')| else 0)
  {
    InteractiveJoined(question, answer, candidate, difficulty);
    CalloutLinesOneLine(question, answer, candidate, difficulty);
    SplitJoin(CalloutLines(question, answer, candidate, difficulty), '\n');
  }

  /** The header line of the callout reads back the question's text through the callout pattern. */
  lemma {:induction false} InteractiveHeader(question: string, answer: string, candidate: string, difficulty: string)
    requires GoodText(question)
    ensures CalloutMatch(Split(InteractiveQuestion(question, answer, candidate, difficulty), '\n')[0]) == Some(question)
  {
    var l := Split(InteractiveQuestion(question, answer, candidate, difficulty), '\n')[0];
    FirstCalloutLine(question, answer, candidate, difficulty);
    CalloutRoundTrip(DifficultyMarker(difficulty), question);
  }

  lemma {:induction false} FirstCalloutLine(question: string, answer: string, candidate: string, difficulty: string)
    requires '\n' !in question
    ensures Split(InteractiveQuestion(question, answer, candidate, difficulty), '\n')[0] == CalloutHeader(DifficultyMarker(difficulty), question)
  {
    InteractiveLines(question, answer, candidate, difficulty);
  }

  // ---------------------------------------------------------------------
  // The scan over the note.

  /** The loop's variables between two lines. */
  datatype Gather = Gather(
    inFrontmatter: bool,
    question: string,
    difficulty: Difficulty,
    answer: string,
    candidate: string,
    isAnswer: bool,
    inCandidate: bool,
    collected: seq<Question>)

  /** Before the first line; the difficulty is not read until a header sets it. */
  const Begin := Gather(false, [], Easy, [], [], false, false, [])

  /** The record pushed for the open question: nothing when its text is empty. */
  function Kept(g: Gather): seq<Question> {
    if g.question != [] then [Question(g.question, Trim(g.answer), Trim(g.candidate), g.difficulty)] else []
  }

  /** The questions pushed so far and the open one. */
  function Final(g: Gather): seq<Question> {
    g.collected + Kept(g)
  }

  /** A heading question opens: the open question is pushed, and what it gathered is cleared only when it was pushed. */
  function Open(g: Gather, h: Header): Gather {
    var pushed := g.question != [];
    g.(collected := g.collected + Kept(g),
       question := h.text, difficulty := h.difficulty,
       answer := if pushed then [] else g.answer,
       candidate := if pushed then [] else g.candidate,
       isAnswer := false, inCandidate := false)
  }

  /** One iteration of the loop, its cases in the order main.ts tests them. */
  function Step(g: Gather, line: string): Gather {
    var t := Trim(line);
    if t == "---" then g.(inFrontmatter := !g.inFrontmatter)
    else if g.inFrontmatter then g
    else match HeaderMatch(line)
      case Some(h) => Open(g, h)
      case None =>
        if IsAnswerMarker(line) then g.(isAnswer := true)
        else if IsCandidateStart(line, false) then g.(inCandidate := true)
        else if g.inCandidate then
          match QuoteContent(line)
          case Some(c) => g.(candidate := g.candidate + c + "\n")
          case None => if t == [] then g.(inCandidate := false) else g
        else if g.isAnswer then
          // The answer branch tests the header and candidate-start patterns
          // once more; both already failed on this line.
          if HeaderMatch(line).Some? || IsCandidateStart(line, false) then assert false; g
          else g.(answer := g.answer + line + "\n")
        else g
  }

  function Run(g: Gather, lines: seq<string>): Gather
    decreases |lines|
  {
    if |lines| == 0 then g else Run(Step(g, lines[0]), lines[1..])
  }

  /** The questions of a note in the order they were met, with the last one pushed after the loop. */
  function Gathered(lines: seq<string>): seq<Question> {
    Final(Run(Begin, lines))
  }

  /** The gathered questions sorted stably by difficulty, easy first. */
  function Extracted(lines: seq<string>): (r: seq<Question>)
    ensures Sorted(r)
    ensures multiset(r) == multiset(Gathered(lines))
    ensures forall d :: Only(r, d) == Only(Gathered(lines), d)
  {
    SortByDifficulty(Gathered(lines))
  }

  /** One callout per question, each followed by a blank line, as the loop appends them. */
  function Blocks(qs: seq<Question>): string
    decreases |qs|
  {
    if |qs| == 0 then []
    else Blocks(qs[..|qs| - 1]) + Block(qs[|qs| - 1]) + "\n\n"
  }

  function Block(q: Question): string {
    InteractiveQuestion(q.text, q.answer, q.candidate, Word(q.difficulty))
  }

  /** What the reader returns for a note's text. */
  function ExtractQuestions(content: string): string {
    Trim(Blocks(Extracted(Split(content, '\n'))))
  }

  // ---------------------------------------------------------------------
  // Which heading questions become questions.

  /** Whether the fence is open after `line`. */
  function Fence(fenced: bool, line: string): bool {
    if Trim(line) == "---" then !fenced else fenced
  }

  /** The heading question `line` contributes: one outside a fence whose text is not empty. */
  function Counted(line: string, fenced: bool): seq<Header> {
    if Trim(line) == "---" || fenced then []
    else match HeaderMatch(line)
      case Some(h) => if h.text != [] then [h] else []
      case None => []
  }

  /** The heading questions of `lines` that the reader turns into questions, in order. */
  function Headers(lines: seq<string>, fenced: bool): seq<Header>
    decreases |lines|
  {
    if |lines| == 0 then []
    else Counted(lines[0], fenced) + Headers(lines[1..], Fence(fenced, lines[0]))
  }

  /** The text and difficulty of each question. */
  function Heads(qs: seq<Question>): (r: seq<Header>)
    ensures |r| == |qs|
    ensures forall i | 0 <= i < |qs| :: r[i] == Header(qs[i].text, qs[i].difficulty)
    decreases |qs|
  {
    if |qs| == 0 then [] else [Header(qs[0].text, qs[0].difficulty)] + Heads(qs[1..])
  }

  lemma {:induction false} HeadsAppend(a: seq<Question>, b: seq<Question>)
    ensures Heads(a + b) == Heads(a) + Heads(b)
  {
    assert forall i | 0 <= i < |a + b| :: (a + b)[i] == if i < |a| then a[i] else b[i - |a|];
  }

  /** A line that is not a counted heading question leaves the question, difficulty and pushed questions alone. */
  lemma {:induction false} StepKeepsQuestion(g: Gather, line: string)
    requires Trim(line) == "---" || g.inFrontmatter || HeaderMatch(line).None?
    ensures var g1 := Step(g, line);
      g1.question == g.question && g1.difficulty == g.difficulty && g1.collected == g.collected
  {
  }

  /** A heading question outside a fence opens a question. */
  lemma {:induction false} StepOpens(g: Gather, line: string)
    requires Trim(line) != "---" && !g.inFrontmatter && HeaderMatch(line).Some?
    ensures Step(g, line) == Open(g, HeaderMatch(line).value)
  {
  }

  /** A step adds to the questions' texts and difficulties exactly what the line contributes. */
  lemma {:induction false} StepHeads(g: Gather, line: string)
    ensures Step(g, line).inFrontmatter == Fence(g.inFrontmatter, line)
    ensures Heads(Final(Step(g, line))) == Heads(Final(g)) + Counted(line, g.inFrontmatter)
  {
    if Trim(line) != "---" && !g.inFrontmatter && HeaderMatch(line).Some? {
      StepHeadsOpen(g, line);
    } else {
      StepHeadsKeep(g, line);
    }
  }

  lemma {:induction false} StepHeadsOpen(g: Gather, line: string)
    requires Trim(line) != "---" && !g.inFrontmatter && HeaderMatch(line).Some?
    ensures Heads(Final(Step(g, line))) == Heads(Final(g)) + Counted(line, g.inFrontmatter)
  {
    var h := HeaderMatch(line).value;
    StepOpens(g, line);
    var g1 := Open(g, h);
    assert Final(g1) == Final(g) + Kept(g1);
    HeadsAppend(Final(g), Kept(g1));
    HeadsKept(g1);
  }

  lemma {:induction false} StepHeadsKeep(g: Gather, line: string)
    requires Trim(line) == "---" || g.inFrontmatter || HeaderMatch(line).None?
    ensures Heads(Final(Step(g, line))) == Heads(Final(g)) + Counted(line, g.inFrontmatter)
  {
    var g1 := Step(g, line);
    StepKeepsQuestion(g, line);
    HeadsAppend(g.collected, Kept(g));
    HeadsAppend(g1.collected, Kept(g1));
    HeadsKept(g);
    HeadsKept(g1);
  }

  /** The open question contributes its text and difficulty once it has a text. */
  lemma {:induction false} HeadsKept(g: Gather)
    ensures Heads(Kept(g)) == if g.question != [] then [Header(g.question, g.difficulty)] else []
  {
  }

  lemma {:induction false} RunHeads(g: Gather, lines: seq<string>)
    ensures Heads(Final(Run(g, lines))) == Heads(Final(g)) + Headers(lines, g.inFrontmatter)
    decreases |lines|
  {
    if |lines| > 0 {
      StepHeads(g, lines[0]);
      RunHeads(Step(g, lines[0]), lines[1..]);
    }
  }

  /**
   * Every heading question outside the `---` fences whose trimmed text is not
   * empty yields exactly one question, with that text and difficulty, in the
   * order of the note, whether or not a `?` answer follows it; nothing inside
   * a fence yields one.
   */
  lemma {:induction false} GatheredHeaders(lines: seq<string>)
    ensures Heads(Gathered(lines)) == Headers(lines, false)
    ensures |Gathered(lines)| == |Headers(lines, false)|
  {
    RunHeads(Begin, lines);
  }

  /** Inside a fence that is not closed again, lines change nothing. */
  lemma {:induction false} FencedLinesIgnored(g: Gather, lines: seq<string>)
    requires g.inFrontmatter
    requires forall i | 0 <= i < |lines| :: Trim(lines[i]) != "---"
    ensures Run(g, lines) == g
    decreases |lines|
  {
    if |lines| > 0 {
      assert Step(g, lines[0]) == g;
      FencedLinesIgnored(g, lines[1..]);
    }
  }

  /** Every header the reader counts has a good text. */
  lemma {:induction false} HeadersGood(lines: seq<string>, fenced: bool)
    ensures forall i | 0 <= i < |Headers(lines, fenced)| :: GoodText(Headers(lines, fenced)[i].text)
    decreases |lines|
  {
    if |lines| > 0 {
      HeadersGood(lines[1..], Fence(fenced, lines[0]));
      HeaderMatchShape(lines[0]);
      var c := Counted(lines[0], fenced);
      assert forall i | 0 <= i < |c| :: GoodText(c[i].text);
    }
  }

  /** Every extracted question has a non-empty, trimmed, one-line text. */
  lemma {:induction false} ExtractedGood(lines: seq<string>)
    ensures forall q | q in Extracted(lines) :: GoodText(q.text)
  {
    var g := Gathered(lines);
    GatheredHeaders(lines);
    HeadersGood(lines, false);
    forall q | q in Extracted(lines) ensures GoodText(q.text) {
      assert q in multiset(g);
      var i :| 0 <= i < |g| && g[i] == q;
      assert Heads(g)[i] == Header(q.text, q.difficulty);
    }
  }

  // ---------------------------------------------------------------------
  // The text returned.

  lemma {:induction false} BlockStartsWithAngle(q: Question)
    ensures |Block(q)| > 0 && Block(q)[0] == '>'
  {
  }

  lemma {:induction false} BlocksStartWithAngle(qs: seq<Question>)
    requires |qs| > 0
    ensures |Blocks(qs)| > 0 && Blocks(qs)[0] == '>'
    decreases |qs|
  {
    var n := |qs|;
    BlockStartsWithAngle(qs[n - 1]);
    if n > 1 {
      BlocksStartWithAngle(qs[..n - 1]);
    }
  }

  /** The final trim removes only the closing blank line and the trailing white space of the last callout. */
  lemma {:induction false} TrimBlocks(qs: seq<Question>)
    requires qs != []
    ensures Trim(Blocks(qs)) == Blocks(qs[..|qs| - 1]) + TrimEnd(Block(qs[|qs| - 1]))
  {
    var n := |qs|;
    var x := Blocks(qs);
    var p := Blocks(qs[..n - 1]);
    var b := Block(qs[n - 1]);
    assert x == p + b + "\n\n";
    BlocksStartWithAngle(qs);
    TrimStartOfUnspaced(x);
    TrimEndSkipsSpace(p + b, "\n\n");
    BlockStartsWithAngle(qs[n - 1]);
    assert !AllSpace(b) by { assert !IsSpace(b[0]); }
    TrimEndKeepsHead(p, b);
  }

  /**
   * The returned text is empty when no question was found; otherwise it is
   * every callout but the last, each followed by a blank line, then the last
   * callout without its trailing white space.
   */
  lemma {:induction false} ExtractedText(content: string)
    ensures var qs := Extracted(Split(content, '\n'));
      && (qs == [] ==> ExtractQuestions(content) == [])
      && (qs != [] ==> ExtractQuestions(content) == Blocks(qs[..|qs| - 1]) + TrimEnd(Block(qs[|qs| - 1])))
  {
    TextOfBlocks(Extracted(Split(content, '\n')));
  }

  lemma {:induction false} TextOfBlocks(qs: seq<Question>)
    ensures qs == [] ==> Trim(Blocks(qs)) == []
    ensures qs != [] ==> Trim(Blocks(qs)) == Blocks(qs[..|qs| - 1]) + TrimEnd(Block(qs[|qs| - 1]))
  {
    if qs == [] {
      TrimOfSpace([]);
    } else {
      TrimBlocks(qs);
    }
  }

  /** Each written callout's header line reads back the question through the callout pattern. */
  lemma {:induction false} ExtractedHeaders(lines: seq<string>)
    ensures forall q | q in Extracted(lines) ::
      CalloutMatch(Split(Block(q), '\n')[0]) == Some(q.text)
  {
    ExtractedGood(lines);
    forall q | q in Extracted(lines) ensures CalloutMatch(Split(Block(q), '\n')[0]) == Some(q.text) {
      InteractiveHeader(q.text, q.answer, q.candidate, Word(q.difficulty));
    }
  }
}

=== FILE: heading_patch.dfy ===
/**
 * The candidate-answer button of the heading dialect: find the heading
 * question whose text is the displayed one, detect an existing answer after
 * its `?` line, and splice a candidate block into the note.
 *
 * The search runs on the note as read when the button is clicked; the edit
 * is applied to the note as read again when the dialog closes. The two reads
 * are separate parameters here; the lemmas take them equal.
 *
 * The click logic is stated once over a record of line tests (`Tests`), and
 * its properties are proved there; `Locate` and `Apply` instantiate it with
 * the heading dialect's recognisers.
 */
module HeadingPatch {
  import opened Wrappers
  import opened Text
  import opened Syntax

  /** The header's index, where the existing answer starts (if one was detected), and its text. */
  datatype Found = Found(question: nat, answerStart: Option<nat>, existing: string)

  /**
   * The line tests the click applies: is this the heading being looked for,
   * is it the `?` line, does it end the answer region, does it count as
   * answer text.
   */
  datatype Tests = Tests(
    isTarget: string -> bool,
    isAnswerMarker: string -> bool,
    endsRegion: string -> bool,
    notBlank: string -> bool)

  /** The text a heading must carry: the displayed heading, trimmed, without a leading marker. */
  function Target(displayed: string): string {
    StripMarker(Trim(displayed))
  }

  /** `h1Match && h1Match[1].trim() === target` */
  predicate Matches(line: string, target: string) {
    HeaderMatch(line).Some? && HeaderMatch(line).value.text == target
  }

  function MatchesTarget(target: string): string -> bool {
    line => Matches(line, target)
  }

  /** A line that ends an answer region: another heading question, or a `## ` line. */
  predicate EndsRegion(line: string) {
    HeaderMatch(line).Some? || IsSectionBreak(line)
  }

  /** `line.trim() !== ''` */
  predicate NotBlank(line: string) {
    Trim(line) != []
  }

  /** The heading dialect's tests for one displayed heading. */
  function HeadingTests(displayed: string): Tests {
    Tests(MatchesTarget(Target(displayed)), IsAnswerMarker, EndsRegion, NotBlank)
  }

  /** The first line at or after `from` that ends the region, or the end of the note. */
  function RegionEnd(lines: seq<string>, from: nat): nat {
    First(lines, EndsRegion, from)
  }

  function NonBlank(ls: seq<string>): seq<string> {
    Filter(ls, NotBlank)
  }

  /**
   * Where the click lands, for any tests: the first target line, and the
   * answer after its `?` line when the region up to the first line that
   * ends it holds a line that counts.
   */
  function LocateWith(lines: seq<string>, t: Tests): Option<Found> {
    var q := First(lines, t.isTarget, 0);
    if q >= |lines| then None
    else if q + 1 < |lines| && t.isAnswerMarker(lines[q + 1]) then
      var found := Filter(lines[q + 2..First(lines, t.endsRegion, q + 2)], t.notBlank);
      if found != [] then Some(Found(q, Some(q + 2), Join(found, '\n')))
      else Some(Found(q, None, []))
    else Some(Found(q, None, []))
  }

  /** The click handler's search on the note as first read. */
  function Locate(lines: seq<string>, displayed: string): Option<Found> {
    LocateWith(lines, HeadingTests(displayed))
  }

  /**
   * Where the block lands: over the detected answer up to the first line
   * that ends its region, or right after the `?` line.
   */
  function Place<T>(current: seq<T>, f: Found, block: seq<T>, ends: T -> bool): seq<T> {
    match f.answerStart
    case Some(a) => Splice(current, a, First(current, ends, a) - a, block)
    case None => Splice(current, f.question + 2, 0, block)
  }

  /** The dialog's callback: nothing for an empty answer, otherwise replace the detected answer or insert after `?`. */
  function Apply(current: seq<string>, found: Option<Found>, result: string, ends: string -> bool): (r: Outcome)
    ensures result == [] <==> r == NoWrite
    ensures r == NotFound <==> result != [] && found.None?
  {
    if result == [] then NoWrite
    else match found
      case None => NotFound
      case Some(f) => Written(Place(current, f, CandidateBlock(result), ends))
  }

  /** One click, for any tests: locate on the note as first read, edit the note as read again. */
  function PatchWith(lines: seq<string>, current: seq<string>, t: Tests, result: string): Outcome {
    Apply(current, LocateWith(lines, t), result, t.endsRegion)
  }

  /** One click of the heading dialect's button. */
  function Patch(lines: seq<string>, current: seq<string>, displayed: string, result: string): Outcome {
    PatchWith(lines, current, HeadingTests(displayed), result)
  }

  // ---------------------------------------------------------------------
  // The search, for any tests.

  lemma {:induction false} LocateWithFinds(lines: seq<string>, t: Tests)
    ensures LocateWith(lines, t).None? <==> forall j | 0 <= j < |lines| :: !t.isTarget(lines[j])
    ensures LocateWith(lines, t).Some? ==>
      var q := LocateWith(lines, t).value.question;
      && q < |lines| && t.isTarget(lines[q])
      && forall j | 0 <= j < q :: !t.isTarget(lines[j])
  {
  }

  lemma {:induction false} LocateWithAnswer(lines: seq<string>, t: Tests)
    requires LocateWith(lines, t).Some?
    ensures var f := LocateWith(lines, t).value;
      var q := f.question;
      var e := First(lines, t.endsRegion, q + 2);
      && (f.answerStart.Some? <==>
            q + 1 < |lines| && t.isAnswerMarker(lines[q + 1]) && exists j | q + 2 <= j < e :: t.notBlank(lines[j]))
      && (f.answerStart.Some? ==>
            f.answerStart.value == q + 2 && f.existing == Join(Filter(lines[q + 2..e], t.notBlank), '\n'))
      && (f.answerStart.None? ==> f.existing == [])
  {
    LocateWithDetects(lines, t);
    LocateWithReads(lines, t);
  }

  /** An answer is detected exactly when the `?` line is there and a line of its region counts. */
  lemma {:induction false} LocateWithDetects(lines: seq<string>, t: Tests)
    requires LocateWith(lines, t).Some?
    ensures var f := LocateWith(lines, t).value;
      var q := f.question;
      var e := First(lines, t.endsRegion, q + 2);
      f.answerStart.Some? <==>
        q + 1 < |lines| && t.isAnswerMarker(lines[q + 1]) && exists j | q + 2 <= j < e :: t.notBlank(lines[j])
  {
    var q := First(lines, t.isTarget, 0);
    if q + 1 < |lines| && t.isAnswerMarker(lines[q + 1]) {
      FilterSliceEmpty(lines, q + 2, First(lines, t.endsRegion, q + 2), t.notBlank);
    }
  }

  /** A detected answer starts two lines below the heading and reads as the region's counted lines. */
  lemma {:induction false} LocateWithReads(lines: seq<string>, t: Tests)
    requires LocateWith(lines, t).Some?
    ensures var f := LocateWith(lines, t).value;
      var q := f.question;
      var e := First(lines, t.endsRegion, q + 2);
      && (f.answerStart.Some? ==>
            f.answerStart.value == q + 2 && f.existing == Join(Filter(lines[q + 2..e], t.notBlank), '\n'))
      && (f.answerStart.None? ==> f.existing == [])
  {
  }

  /** A detected answer starts two lines below a heading that has its `?` line. */
  predicate Consistent<T>(lines: seq<T>, f: Found) {
    f.answerStart.Some? ==> f.answerStart.value == f.question + 2 && f.question + 2 <= |lines|
  }

  lemma {:induction false} LocateWithConsistent(lines: seq<string>, t: Tests)
    requires LocateWith(lines, t).Some?
    ensures Consistent(lines, LocateWith(lines, t).value)
  {
  }

  /** When no answer is detected after a `?` line, the region holds no line that counts. */
  lemma {:induction false} LocateWithUndetected(lines: seq<string>, t: Tests)
    requires LocateWith(lines, t).Some? && LocateWith(lines, t).value.answerStart.None?
    ensures var q := LocateWith(lines, t).value.question;
      q + 1 < |lines| && t.isAnswerMarker(lines[q + 1]) ==>
        Filter(lines[q + 2..First(lines, t.endsRegion, q + 2)], t.notBlank) == []
  {
  }

  // ---------------------------------------------------------------------
  // The splice, for any element type.

  /** Where the block goes and what it replaces. */
  function SpliceStart<T>(lines: seq<T>, f: Found): nat {
    if f.question + 2 <= |lines| then f.question + 2 else |lines|
  }

  function SpliceEnd<T>(lines: seq<T>, f: Found, ends: T -> bool): nat {
    if f.answerStart.Some? then First(lines, ends, f.question + 2) else SpliceStart(lines, f)
  }

  lemma {:induction false} PlaceFrame<T>(lines: seq<T>, f: Found, b: seq<T>, ends: T -> bool)
    requires Consistent(lines, f)
    ensures SpliceStart(lines, f) <= SpliceEnd(lines, f, ends) <= |lines|
    ensures Place(lines, f, b, ends) == lines[..SpliceStart(lines, f)] + b + lines[SpliceEnd(lines, f, ends)..]
  {
    var s := SpliceStart(lines, f);
    var e := SpliceEnd(lines, f, ends);
    if f.answerStart.Some? {
      SpliceInside(lines, s, e - s, b);
    } else if f.question + 2 <= |lines| {
      SpliceInside(lines, s, 0, b);
    } else {
      SplicePastEnd(lines, f.question + 2, 0, b);
      assert lines[..s] == lines && lines[e..] == [];
    }
  }

  /** After the replaced run, the region holds nothing more that counts. */
  lemma {:induction false} RestUncounted<T>(lines: seq<T>, f: Found, ends: T -> bool, keep: T -> bool)
    requires f.question + 2 <= |lines|
    requires f.answerStart.Some? ==> f.answerStart.value == f.question + 2
    requires f.answerStart.None? ==> Filter(lines[f.question + 2..First(lines, ends, f.question + 2)], keep) == []
    ensures var e := SpliceEnd(lines, f, ends);
      e <= |lines| && Filter(lines[e..][..First(lines[e..], ends, 0)], keep) == []
  {
    var s := f.question + 2;
    if f.answerStart.Some? {
      RestAtStop(lines, First(lines, ends, s), ends, keep);
    } else {
      RestOfRegion(lines, s, ends);
    }
  }

  lemma {:induction false} RestAtStop<T>(lines: seq<T>, e: nat, ends: T -> bool, keep: T -> bool)
    requires e <= |lines| && (e < |lines| ==> ends(lines[e]))
    ensures Filter(lines[e..][..First(lines[e..], ends, 0)], keep) == []
  {
    FirstAtStop(lines, ends, e);
    assert lines[e..][..0] == [];
  }

  lemma {:induction false} RestOfRegion<T>(lines: seq<T>, s: nat, ends: T -> bool)
    requires s <= |lines|
    ensures lines[s..][..First(lines[s..], ends, 0)] == lines[s..First(lines, ends, s)]
  {
    FirstShift(lines[..s], lines[s..], ends, 0);
    assert lines[..s] + lines[s..] == lines;
  }

  // ---------------------------------------------------------------------
  // Writing a block and clicking again, for any tests.

  /** What a block must look like to the tests: nothing in it ends the region, and its counted lines are `text`. */
  predicate Fits(t: Tests, b: seq<string>, text: seq<string>) {
    && (forall j | 0 <= j < |b| :: !t.endsRegion(b[j]))
    && Filter(b, t.notBlank) == text && text != []
  }

  /** The note after the block is placed keeps the lines up to `?`, and its region counts exactly the block's text. */
  lemma {:induction false} PlacedRegion(lines: seq<string>, t: Tests, f: Found, b: seq<string>, text: seq<string>)
    requires f.question + 2 <= |lines| && Fits(t, b, text)
    requires f.answerStart.Some? ==> f.answerStart.value == f.question + 2
    requires f.answerStart.None? ==>
      Filter(lines[f.question + 2..First(lines, t.endsRegion, f.question + 2)], t.notBlank) == []
    ensures var s := f.question + 2;
      var l2 := Place(lines, f, b, t.endsRegion);
      && s <= |l2| && l2[..s] == lines[..s]
      && Filter(l2[s..First(l2, t.endsRegion, s)], t.notBlank) == text
  {
    var s := f.question + 2;
    var e := SpliceEnd(lines, f, t.endsRegion);
    PlaceFrame(lines, f, b, t.endsRegion);
    var l2 := lines[..s] + b + lines[e..];
    assert l2[..s] == lines[..s];
    RestUncounted(lines, f, t.endsRegion, t.notBlank);
    FilterAfterSplice(lines, s, e, b, t.endsRegion, t.notBlank);
  }

  /** A note that keeps the lines up to a located `?` line, with counted text after it, is located with that text as its answer. */
  lemma {:induction false} LocatedAgain(lines: seq<string>, l2: seq<string>, t: Tests, text: seq<string>)
    requires LocateWith(lines, t).Some?
    requires var q := LocateWith(lines, t).value.question; q + 1 < |lines| && t.isAnswerMarker(lines[q + 1])
    requires var q := LocateWith(lines, t).value.question;
      && q + 2 <= |l2| && l2[..q + 2] == lines[..q + 2]
      && Filter(l2[q + 2..First(l2, t.endsRegion, q + 2)], t.notBlank) == text && text != []
    ensures var q := LocateWith(lines, t).value.question;
      LocateWith(l2, t) == Some(Found(q, Some(q + 2), Join(text, '\n')))
  {
    var q := LocateWith(lines, t).value.question;
    assert l2[..q + 1] == lines[..q + 2][..q + 1] == lines[..q + 1];
    FirstOfPrefix(lines, l2, t.isTarget, q);
    assert l2[q + 1] == lines[..q + 2][q + 1];
  }

  /**
   * Read-back, for any tests: once a block that fits is placed under a
   * target line that has its `?` line, the target is located again with
   * the block's text as its answer.
   */
  lemma {:induction false} ReadBackWith(lines: seq<string>, t: Tests, b: seq<string>, text: seq<string>)
    requires LocateWith(lines, t).Some? && Fits(t, b, text)
    requires var q := LocateWith(lines, t).value.question; q + 1 < |lines| && t.isAnswerMarker(lines[q + 1])
    ensures var f := LocateWith(lines, t).value;
      LocateWith(Place(lines, f, b, t.endsRegion), t) == Some(Found(f.question, Some(f.question + 2), Join(text, '\n')))
  {
    var f := LocateWith(lines, t).value;
    LocateWithConsistent(lines, t);
    if f.answerStart.None? {
      LocateWithUndetected(lines, t);
    }
    PlacedRegion(lines, t, f, b, text);
    LocatedAgain(lines, Place(lines, f, b, t.endsRegion), t, text);
  }

  /** A second block placed over a first one lands exactly where the first one did. */
  lemma {:induction false} PlaceOverPlaced<T>(lines: seq<T>, f: Found, f1: Found, b1: seq<T>, b2: seq<T>, ends: T -> bool)
    requires f.answerStart.Some? && Consistent(lines, f)
    requires forall j | 0 <= j < |b1| :: !ends(b1[j])
    requires f1.question == f.question && f1.answerStart == f.answerStart
    ensures Place(Place(lines, f, b1, ends), f1, b2, ends) == Place(lines, f, b2, ends)
  {
    var s := f.question + 2;
    var e := SpliceEnd(lines, f, ends);
    PlaceFrame(lines, f, b1, ends);
    PlaceFrame(lines, f, b2, ends);
    var l1 := lines[..s] + b1 + lines[e..];
    FirstAfterSplice(lines, s, e, b1, ends);
    FirstAtStop(lines, ends, e);
    assert First(l1, ends, s) == s + |b1|;
    PlaceFrame(l1, f1, b2, ends);
    assert l1[..s] == lines[..s];
    assert l1[s + |b1|..] == lines[e..];
  }

  /**
   * The latest answer wins, for any tests: once an answer is detected,
   * placing one block and then, after clicking again, another leaves the
   * note as placing only the second.
   */
  lemma {:induction false} PlaceTwiceWith(lines: seq<string>, t: Tests, b1: seq<string>, text: seq<string>, b2: seq<string>)
    requires LocateWith(lines, t).Some? && LocateWith(lines, t).value.answerStart.Some?
    requires Fits(t, b1, text)
    ensures var f := LocateWith(lines, t).value;
      var l1 := Place(lines, f, b1, t.endsRegion);
      && LocateWith(l1, t).Some?
      && Place(l1, LocateWith(l1, t).value, b2, t.endsRegion) == Place(lines, f, b2, t.endsRegion)
  {
    var f := LocateWith(lines, t).value;
    LocateWithAnswer(lines, t);
    ReadBackWith(lines, t, b1, text);
    var l1 := Place(lines, f, b1, t.endsRegion);
    PlaceOverPlaced(lines, f, LocateWith(l1, t).value, b1, b2, t.endsRegion);
  }

  // ---------------------------------------------------------------------
  // The candidate block under the heading dialect's tests.

  /** The lines of a candidate block before its closing empty line, as the answer scan collects them. */
  function BlockText(result: string): seq<string> {
    Quote(["@candidate"] + Split(result, '\n'))
  }

  lemma {:induction false} BlockLine(l: string)
    ensures NotBlank("> " + l) && !EndsRegion("> " + l)
  {
    QuoteLineShape(l);
    assert ("> " + l)[0] == '>';
    TrimKeepsFirst("> " + l);
  }

  lemma {:induction false} EmptyLineShape()
    ensures !NotBlank([]) && !EndsRegion([])
  {
    TrimOfSpace([]);
  }

  lemma {:induction false} BlockIsText(result: string)
    ensures CandidateBlock(result) == BlockText(result) + [[]]
  {
    assert "> @candidate" == "> " + "@candidate";
    assert BlockText(result)[0] == "> @candidate";
    assert BlockText(result)[1..] == Quote(Split(result, '\n'));
  }

  lemma {:induction false} BlockTextShape(result: string)
    ensures forall j {:trigger NotBlank(BlockText(result)[j])} | 0 <= j < |BlockText(result)| :: NotBlank(BlockText(result)[j])
    ensures forall j {:trigger EndsRegion(BlockText(result)[j])} | 0 <= j < |BlockText(result)| :: !EndsRegion(BlockText(result)[j])
  {
    var xs := ["@candidate"] + Split(result, '\n');
    forall j | 0 <= j < |BlockText(result)| ensures NotBlank(BlockText(result)[j]) && !EndsRegion(BlockText(result)[j]) {
      BlockLine(xs[j]);
    }
  }

  /** No line of a candidate block ends an answer region. */
  lemma {:induction false} BlockShape(result: string)
    ensures forall j {:trigger EndsRegion(CandidateBlock(result)[j])} | 0 <= j < |CandidateBlock(result)| ::
      !EndsRegion(CandidateBlock(result)[j])
  {
    BlockIsText(result);
    BlockTextShape(result);
    EmptyLineShape();
    var t := BlockText(result);
    var b := CandidateBlock(result);
    forall j | 0 <= j < |b| ensures !EndsRegion(b[j]) {
      if j < |t| {
        assert b[j] == t[j];
      } else {
        assert b[j] == [];
      }
    }
  }

  /** The answer scan reads a fresh block back as its text lines. */
  lemma {:induction false} BlockNonBlank(result: string)
    ensures NonBlank(CandidateBlock(result)) == BlockText(result)
  {
    BlockIsText(result);
    BlockTextShape(result);
    FilterAppend(BlockText(result), [[]], NotBlank);
    FilterAll(BlockText(result), NotBlank);
    EmptyLineShape();
  }

  /** A candidate block fits the heading dialect's tests, with its text lines as what they count. */
  lemma {:induction false} BlockFits(displayed: string, result: string)
    ensures Fits(HeadingTests(displayed), CandidateBlock(result), BlockText(result))
  {
    var t := HeadingTests(displayed);
    var b := CandidateBlock(result);
    BlockShape(result);
    forall j | 0 <= j < |b| ensures !t.endsRegion(b[j]) {
      assert !EndsRegion(b[j]);
    }
    BlockNonBlank(result);
    assert |BlockText(result)| > 0;
  }

  // ---------------------------------------------------------------------
  // The click as a whole, for any tests the candidate block fits.

  lemma {:induction false} PatchFrameWith(lines: seq<string>, t: Tests, result: string)
    ensures result == [] ==> PatchWith(lines, lines, t, result) == NoWrite
    ensures result != [] && LocateWith(lines, t).None? ==> PatchWith(lines, lines, t, result) == NotFound
    ensures result != [] && LocateWith(lines, t).Some? ==>
      var f := LocateWith(lines, t).value;
      && SpliceStart(lines, f) <= SpliceEnd(lines, f, t.endsRegion) <= |lines|
      && PatchWith(lines, lines, t, result)
         == Written(lines[..SpliceStart(lines, f)] + CandidateBlock(result) + lines[SpliceEnd(lines, f, t.endsRegion)..])
  {
    if result != [] && LocateWith(lines, t).Some? {
      LocateWithConsistent(lines, t);
      PlaceFrame(lines, LocateWith(lines, t).value, CandidateBlock(result), t.endsRegion);
    }
  }

  lemma {:induction false} PatchReadBackWith(lines: seq<string>, t: Tests, result: string)
    requires result != [] && LocateWith(lines, t).Some?
    requires var q := LocateWith(lines, t).value.question; q + 1 < |lines| && t.isAnswerMarker(lines[q + 1])
    requires Fits(t, CandidateBlock(result), BlockText(result))
    ensures PatchWith(lines, lines, t, result).Written?
    ensures var q := LocateWith(lines, t).value.question;
      LocateWith(PatchWith(lines, lines, t, result).lines, t) == Some(Found(q, Some(q + 2), Join(BlockText(result), '\n')))
  {
    ReadBackWith(lines, t, CandidateBlock(result), BlockText(result));
  }

  lemma {:induction false} PatchTwiceWith(lines: seq<string>, t: Tests, first: string, second: string)
    requires first != [] && second != []
    requires LocateWith(lines, t).Some? && LocateWith(lines, t).value.answerStart.Some?
    requires Fits(t, CandidateBlock(first), BlockText(first))
    ensures PatchWith(lines, lines, t, first).Written?
    ensures var l1 := PatchWith(lines, lines, t, first).lines;
      PatchWith(l1, l1, t, second) == PatchWith(lines, lines, t, second)
  {
    PlaceTwiceWith(lines, t, CandidateBlock(first), BlockText(first), CandidateBlock(second));
  }
}

=== FILE: heading_properties.dfy ===
/**
 * The properties the heading dialect's click promises, obtained from the
 * ones `HeadingPatch` proves for any line tests.
 */
module HeadingProperties {
  import opened Wrappers
  import opened Text
  import opened Syntax
  import opened HeadingPatch

  /**
   * The click finds the first heading question whose text is the displayed
   * one, and nothing when no heading question carries it.
   */
  lemma {:induction false} LocateFindsFirst(lines: seq<string>, displayed: string)
    ensures Locate(lines, displayed).None? <==>
      forall j | 0 <= j < |lines| :: !Matches(lines[j], Target(displayed))
    ensures Locate(lines, displayed).Some? ==>
      var q := Locate(lines, displayed).value.question;
      && q < |lines| && Matches(lines[q], Target(displayed))
      && forall j | 0 <= j < q :: !Matches(lines[j], Target(displayed))
  {
    var t := HeadingTests(displayed);
    LocateWithFinds(lines, t);
    assert forall j | 0 <= j < |lines| :: t.isTarget(lines[j]) == Matches(lines[j], Target(displayed));
  }

  lemma {:induction false} PatchReadBack(lines: seq<string>, displayed: string, result: string)
    requires result != [] && Locate(lines, displayed).Some?
    requires var q := Locate(lines, displayed).value.question; q + 1 < |lines| && IsAnswerMarker(lines[q + 1])
    ensures Patch(lines, lines, displayed, result).Written?
    ensures var q := Locate(lines, displayed).value.question;
      Locate(Patch(lines, lines, displayed, result).lines, displayed)
        == Some(Found(q, Some(q + 2), Join(BlockText(result), '\n')))
  {
    var t := HeadingTests(displayed);
    var q := Locate(lines, displayed).value.question;
    LocateIsWith(lines, displayed);
    MarkerIsTest(lines[q + 1], displayed);
    BlockFits(displayed, result);
    PatchReadBackWith(lines, t, result);
    var p := Patch(lines, lines, displayed, result);
    PatchIsWith(lines, displayed, result);
    LocateIsWith(p.lines, displayed);
  }

  lemma {:induction false} LocateIsWith(lines: seq<string>, displayed: string)
    ensures Locate(lines, displayed) == LocateWith(lines, HeadingTests(displayed))
  {
  }

  lemma {:induction false} PatchIsWith(lines: seq<string>, displayed: string, result: string)
    ensures Patch(lines, lines, displayed, result) == PatchWith(lines, lines, HeadingTests(displayed), result)
  {
  }

  lemma {:induction false} MarkerIsTest(line: string, displayed: string)
    requires IsAnswerMarker(line)
    ensures HeadingTests(displayed).isAnswerMarker(line)
  {
  }

  lemma {:induction false} PatchTwice(lines: seq<string>, displayed: string, first: string, second: string)
    requires first != [] && second != []
    requires Locate(lines, displayed).Some? && Locate(lines, displayed).value.answerStart.Some?
    ensures Patch(lines, lines, displayed, first).Written?
    ensures var l1 := Patch(lines, lines, displayed, first).lines;
      Patch(l1, l1, displayed, second) == Patch(lines, lines, displayed, second)
  {
    BlockFits(displayed, first);
    PatchTwiceWith(lines, HeadingTests(displayed), first, second);
  }
}

=== FILE: questions.dfy ===
/**
 * The question record the plugin collects while scanning a note, and the
 * difficulty order it sorts by: `{ easy: 1, medium: 2, hard: 3 }` fed to a
 * stable `Array.prototype.sort` (section 23.1.3.30 of ECMA-262).
 */
module Questions {
  import opened Wrappers
  import opened Text

  datatype Difficulty = Easy | Medium | Hard

  /** The tag word after `#` in a heading question, as written back (lower case). */
  function Word(d: Difficulty): string {
    match d
    case Easy => "easy"
    case Medium => "medium"
    case Hard => "hard"
  }

  /** Reads a tag word written in any ASCII letter case. */
  function ParseWord(w: string): (r: Option<Difficulty>)
    ensures r.Some? ==> Word(r.value) == Lower(w)
    ensures forall d :: Lower(w) == Word(d) ==> r == Some(d)
  {
    var l := Lower(w);
    if l == "easy" then Some(Easy)
    else if l == "medium" then Some(Medium)
    else if l == "hard" then Some(Hard)
    else None
  }

  /** The comparator's key. */
  function Rank(d: Difficulty): nat {
    match d
    case Easy => 1
    case Medium => 2
    case Hard => 3
  }

  /** A collected question: its text, its trimmed answer and candidate answer, its difficulty. */
  datatype Question = Question(text: string, answer: string, candidate: string, difficulty: Difficulty)

  predicate Sorted(qs: seq<Question>) {
    forall i, j | 0 <= i < j < |qs| :: Rank(qs[i].difficulty) <= Rank(qs[j].difficulty)
  }

  /** The questions of one difficulty, in their original order. */
  function Only(qs: seq<Question>, d: Difficulty): (r: seq<Question>)
    ensures |r| <= |qs|
  {
    if |qs| == 0 then []
    else (if qs[0].difficulty == d then [qs[0]] else []) + Only(qs[1..], d)
  }

  lemma {:induction false} OnlyCons(x: Question, s: seq<Question>, d: Difficulty)
    ensures Only([x] + s, d) == (if x.difficulty == d then [x] else []) + Only(s, d)
  {
    assert ([x] + s)[1..] == s;
  }

  lemma {:induction false} OnlyConsAll(x: Question, s: seq<Question>)
    ensures forall d :: Only([x] + s, d) == (if x.difficulty == d then [x] else []) + Only(s, d)
  {
    forall d ensures Only([x] + s, d) == (if x.difficulty == d then [x] else []) + Only(s, d) {
      OnlyCons(x, s, d);
    }
  }

  /** Prepending an element that ranks no higher than any other keeps a sequence sorted. */
  lemma {:induction false} SortedCons(h: Question, rest: seq<Question>)
    requires Sorted(rest)
    requires forall i | 0 <= i < |rest| :: Rank(h.difficulty) <= Rank(rest[i].difficulty)
    ensures Sorted([h] + rest)
  {
    forall i, j | 0 <= i < j < |[h] + rest|
      ensures Rank(([h] + rest)[i].difficulty) <= Rank(([h] + rest)[j].difficulty)
    {
      if i > 0 {
        assert ([h] + rest)[i] == rest[i - 1];
      }
      assert ([h] + rest)[j] == rest[j - 1];
    }
  }

  lemma {:induction false} HeadRanksLowest(q: Question, h: Question, t: seq<Question>, rest: seq<Question>)
    requires Sorted([h] + t)
    requires Rank(h.difficulty) < Rank(q.difficulty)
    requires multiset(rest) == multiset(t) + multiset{q}
    ensures forall i | 0 <= i < |rest| :: Rank(h.difficulty) <= Rank(rest[i].difficulty)
  {
    forall i | 0 <= i < |rest| ensures Rank(h.difficulty) <= Rank(rest[i].difficulty) {
      assert rest[i] in multiset(rest);
      if rest[i] != q {
        assert rest[i] in multiset(t);
        assert rest[i] in t;
        var k :| 0 <= k < |t| && t[k] == rest[i];
        assert ([h] + t)[k + 1] == t[k];
        assert ([h] + t)[0] == h;
      }
    }
  }

  lemma {:induction false} OnlyBehind(q: Question, h: Question, t: seq<Question>, rest: seq<Question>)
    requires h.difficulty != q.difficulty
    requires forall d :: Only(rest, d) == (if q.difficulty == d then [q] else []) + Only(t, d)
    ensures forall d :: Only([h] + rest, d) == (if q.difficulty == d then [q] else []) + Only([h] + t, d)
  {
    forall d ensures Only([h] + rest, d) == (if q.difficulty == d then [q] else []) + Only([h] + t, d) {
      OnlyCons(h, rest, d);
      OnlyCons(h, t, d);
    }
  }

  /** Places `q` before the first element that does not rank below it. */
  function Insert(q: Question, s: seq<Question>): (r: seq<Question>)
    requires Sorted(s)
    ensures Sorted(r)
    ensures multiset(r) == multiset(s) + multiset{q}
    ensures forall d :: Only(r, d) == (if q.difficulty == d then [q] else []) + Only(s, d)
  {
    if |s| == 0 || Rank(q.difficulty) <= Rank(s[0].difficulty) then
      OnlyConsAll(q, s);
      [q] + s
    else
      var rest := Insert(q, s[1..]);
      InsertBehind(q, s, rest);
      [s[0]] + rest
  }

  /** Inserting behind the head of `s`: the head stays first and the result keeps the three properties. */
  lemma {:induction false} InsertBehind(q: Question, s: seq<Question>, rest: seq<Question>)
    requires Sorted(s) && |s| > 0 && Rank(s[0].difficulty) < Rank(q.difficulty)
    requires Sorted(rest)
    requires multiset(rest) == multiset(s[1..]) + multiset{q}
    requires forall d :: Only(rest, d) == (if q.difficulty == d then [q] else []) + Only(s[1..], d)
    ensures Sorted([s[0]] + rest)
    ensures multiset([s[0]] + rest) == multiset(s) + multiset{q}
    ensures forall d :: Only([s[0]] + rest, d) == (if q.difficulty == d then [q] else []) + Only(s, d)
  {
    assert s == [s[0]] + s[1..];
    HeadRanksLowest(q, s[0], s[1..], rest);
    SortedCons(s[0], rest);
    OnlyBehind(q, s[0], s[1..], rest);
  }

  /**
   * The stable sort by difficulty: ordered by rank, and for each difficulty
   * the same questions in the same relative order as the input.
   */
  function SortByDifficulty(qs: seq<Question>): (r: seq<Question>)
    ensures Sorted(r)
    ensures multiset(r) == multiset(qs)
    ensures forall d :: Only(r, d) == Only(qs, d)
  {
    if |qs| == 0 then []
    else
      assert qs == [qs[0]] + qs[1..];
      Insert(qs[0], SortByDifficulty(qs[1..]))
  }

  /** A sorted sequence is its easy questions, then its medium ones, then its hard ones. */
  lemma {:induction false} SortedIsBands(s: seq<Question>)
    requires Sorted(s)
    ensures s == Only(s, Easy) + Only(s, Medium) + Only(s, Hard)
    decreases |s|
  {
    if |s| > 0 {
      var x, t := s[0], s[1..];
      assert s == [x] + t;
      SortedTail(s);
      SortedIsBands(t);
      OnlyCons(x, t, Easy);
      OnlyCons(x, t, Medium);
      OnlyCons(x, t, Hard);
      if x.difficulty != Easy {
        NoLowerBand(t, Easy, x.difficulty);
      }
      if x.difficulty == Hard {
        NoLowerBand(t, Medium, Hard);
      }
      BandsCons(x, Only(t, Easy), Only(t, Medium), Only(t, Hard));
    }
  }

  /** Prepending a question to banded questions that rank no lower than it keeps them banded. */
  lemma {:induction false} BandsCons(x: Question, e: seq<Question>, m: seq<Question>, h: seq<Question>)
    requires x.difficulty != Easy ==> e == []
    requires x.difficulty == Hard ==> m == []
    ensures [x] + (e + m + h)
      == ((if x.difficulty == Easy then [x] else []) + e)
       + ((if x.difficulty == Medium then [x] else []) + m)
       + ((if x.difficulty == Hard then [x] else []) + h)
  {
    match x.difficulty
    case Easy =>
    case Medium =>
      assert [] + e == [];
    case Hard =>
      assert [] + e == [] && [] + m == [];
  }

  /** The tail of a sorted sequence is sorted and ranks no lower than its head. */
  lemma {:induction false} SortedTail(s: seq<Question>)
    requires Sorted(s) && |s| > 0
    ensures Sorted(s[1..])
    ensures forall i | 0 <= i < |s[1..]| :: Rank(s[0].difficulty) <= Rank(s[1..][i].difficulty)
  {
    forall i | 0 <= i < |s[1..]| ensures Rank(s[0].difficulty) <= Rank(s[1..][i].difficulty) {
      assert s[1..][i] == s[i + 1];
    }
  }

  lemma {:induction false} NoLowerBand(t: seq<Question>, low: Difficulty, floor: Difficulty)
    requires Rank(low) < Rank(floor)
    requires forall i | 0 <= i < |t| :: Rank(floor) <= Rank(t[i].difficulty)
    ensures Only(t, low) == []
    decreases |t|
  {
    if |t| > 0 {
      NoLowerBand(t[1..], low, floor);
    }
  }

  /**
   * A stable sort is unique: any sorted sequence that keeps each difficulty's
   * questions in input order is the result of `SortByDifficulty`. So the
   * model agrees with every conforming engine's `Array.prototype.sort`.
   */
  lemma {:induction false} StableSortUnique(qs: seq<Question>, r: seq<Question>)
    requires Sorted(r)
    requires forall d :: Only(r, d) == Only(qs, d)
    ensures r == SortByDifficulty(qs)
  {
    var s := SortByDifficulty(qs);
    SortedIsBands(r);
    SortedIsBands(s);
  }
}

=== FILE: reorganise.dfy ===
/**
 * The section button of the heading dialect: the loop of main.ts that walks
 * the whole note, gathers the answered questions of the section headed
 * `## <title>`, and appends them sorted by difficulty after the last line.
 *
 * The result is the array the plugin joins with '\n' and writes back. An
 * element may itself contain '\n' (a multi-line answer is pushed as one
 * element), so the written note can have more lines than the array.
 */
module Reorganiser {
  import opened Wrappers
  import opened Text
  import opened Questions
  import opened Syntax

  /** The loop's variables between two lines. */
  datatype Scan = Scan(
    inSection: bool,
    out: seq<string>,
    question: string,
    difficulty: Difficulty,
    answer: string,
    candidate: string,
    hasAnswer: bool,
    inQuestion: bool,
    inCandidate: bool,
    collected: seq<Question>)

  /** The variables before the first line; the difficulty is not read until a header sets it. */
  const Start := Scan(false, [], [], Easy, [], [], false, false, false, [])

  /** `currentQuestion && hasAnswer`: the open question would be kept. */
  predicate Answered(st: Scan) {
    st.question != [] && st.hasAnswer
  }

  /** The record pushed for the open question. */
  function Pending(st: Scan): Question {
    Question(st.question, Trim(st.answer), Trim(st.candidate), st.difficulty)
  }

  function Kept(st: Scan): seq<Question> {
    if Answered(st) then [Pending(st)] else []
  }

  /** The section title: the heading's text without its button glyph, trimmed. */
  function SectionTitle(headingText: string): string {
    Trim(ReplaceFirst(headingText, "\U{2713}", ""))
  }

  /** The line is copied to the output whatever the state: it is outside a section body or is a `## ` line. */
  predicate Copied(title: string, inSection: bool, line: string) {
    var t := Trim(line);
    t == "## " + title || StartsWith(t, "## ") || !inSection
  }

  /** Whether the loop is inside the section after a copied line. */
  predicate EntersSection(title: string, line: string) {
    Trim(line) == "## " + title
  }

  /** One iteration of the loop over the note's lines. */
  function Step(title: string, st: Scan, line: string): Scan
  {
    var t := Trim(line);
    if t == "## " + title then
      st.(inSection := true, out := st.out + [line])
    else if st.inSection && StartsWith(t, "## ") then
      st.(inSection := false, out := st.out + (if Answered(st) then [st.question] else []) + [line])
    else if !st.inSection then
      st.(out := st.out + [line])
    else
      SectionLine(st, line, t)
  }

  /** The text the heading pattern captures on the trimmed line, or "" when it does not match. */
  function HeaderText(line: string): string {
    match HeaderMatch(Trim(line))
    case Some(h) => h.text
    case None => []
  }

  /** What one line of the section body does, in the order main.ts tests the cases. */
  datatype Event =
    | OpenQuestion(h: Header)
    | AnswerMarker
    | CandidateStart
    | CandidateLine(content: string)
    | CandidateEnd
    | FirstAnswerLine
    | MoreAnswer
    | CloseQuestion
    | CopyLine
    | Ignore

  /** Classifies the trimmed line `t` of the section body in state `st`. */
  function Classify(st: Scan, t: string): Event {
    match HeaderMatch(t)
    case Some(h) => OpenQuestion(h)
    case None =>
      if IsAnswerMarker(t) then AnswerMarker
      else if IsCandidateStart(t, false) then CandidateStart
      else if st.inCandidate && QuoteContent(t).Some? then CandidateLine(QuoteContent(t).value)
      else if st.inCandidate && t == [] then CandidateEnd
      else if st.inQuestion && !st.hasAnswer && t != [] && !st.inCandidate then FirstAnswerLine
      else if st.inQuestion && st.hasAnswer && t != [] && !st.inCandidate then MoreAnswer
      else if st.inQuestion && st.hasAnswer && t == [] && !st.inCandidate then CloseQuestion
      else if !st.inQuestion && !st.inCandidate then CopyLine
      else Ignore
  }

  /** The variables after the body line `line` has had its effect `e`. */
  function Perform(st: Scan, line: string, e: Event): Scan {
    match e
    case OpenQuestion(h) =>
      st.(collected := st.collected + Kept(st),
          question := h.text, difficulty := h.difficulty,
          inQuestion := true, hasAnswer := false,
          answer := [], candidate := [], inCandidate := false)
    case AnswerMarker => st.(inQuestion := true, hasAnswer := false)
    case CandidateStart => st.(inCandidate := true)
    case CandidateLine(c) => st.(candidate := st.candidate + c + "\n")
    case CandidateEnd => st.(inCandidate := false)
    case FirstAnswerLine => st.(hasAnswer := true, answer := line)
    case MoreAnswer => st.(answer := st.answer + "\n" + line)
    case CloseQuestion =>
      st.(collected := st.collected + Kept(st),
          question := [], hasAnswer := false, answer := [], candidate := [],
          inQuestion := false, inCandidate := false)
    case CopyLine => st.(out := st.out + [line])
    case Ignore => st
  }

  /** One line inside the section; `t` is the trimmed line. */
  function SectionLine(st: Scan, line: string, t: string): Scan {
    Perform(st, line, Classify(st, t))
  }

  /** No effect leaves the section or writes anything but the line itself. */
  lemma {:induction false} PerformOut(st: Scan, line: string, e: Event)
    ensures var r := Perform(st, line, e);
      r.inSection == st.inSection && (r.out == st.out || r.out == st.out + [line])
  {
  }

  /** Only a heading question sets the question text to something new; only closing one collects. */
  lemma {:induction false} PerformFields(st: Scan, line: string, e: Event)
    ensures var r := Perform(st, line, e);
      && (r.question == st.question || r.question == [] || (e.OpenQuestion? && r.question == e.h.text))
      && (r.collected == st.collected || r.collected == st.collected + Kept(st))
  {
  }

  /** A heading question's text is what `HeaderText` reads from the line. */
  lemma {:induction false} ClassifyHeader(st: Scan, line: string)
    ensures Classify(st, Trim(line)).OpenQuestion? ==> Classify(st, Trim(line)).h.text == HeaderText(line)
  {
  }

  /** The captured heading text is trimmed and on one line. */
  lemma {:induction false} HeaderTextGood(line: string)
    ensures Trim(HeaderText(line)) == HeaderText(line) && NoLineTerminator(HeaderText(line))
  {
    HeaderMatchShape(Trim(line));
    if HeaderMatch(Trim(line)).None? {
      TrimOfSpace([]);
    }
  }

  /** A line inside the section body keeps the section open and writes at most itself. */
  lemma {:induction false} SectionLineOut(st: Scan, line: string)
    ensures var r := SectionLine(st, line, Trim(line));
      r.inSection == st.inSection && (r.out == st.out || r.out == st.out + [line])
  {
    PerformOut(st, line, Classify(st, Trim(line)));
  }

  /** A line inside the section body opens a question, closes one, or leaves both alone. */
  lemma {:induction false} SectionLineFields(st: Scan, line: string)
    ensures var r := SectionLine(st, line, Trim(line));
      && (r.question == st.question || r.question == [] || r.question == HeaderText(line))
      && (r.collected == st.collected || r.collected == st.collected + Kept(st))
  {
    PerformFields(st, line, Classify(st, Trim(line)));
    ClassifyHeader(st, line);
  }

  /**
   * One iteration's effect on the output: it only appends; a copied line is
   * appended last, and decides whether the loop is in the section; a line of
   * the section body is appended at most once and keeps the loop in it.
   */
  lemma {:induction false} StepOut(title: string, st: Scan, line: string)
    ensures var r := Step(title, st, line);
      && |st.out| <= |r.out| && r.out[..|st.out|] == st.out
      && (Copied(title, st.inSection, line) ==>
            |r.out| > |st.out| && r.out[|r.out| - 1] == line && r.inSection == EntersSection(title, line))
      && (!Copied(title, st.inSection, line) ==>
            (r.out == st.out || r.out == st.out + [line]) && r.inSection)
      && (!st.inSection && !EntersSection(title, line) ==> r == st.(out := st.out + [line]))
  {
    if Copied(title, st.inSection, line) {
      StepCopied(title, st, line);
    } else {
      StepInBody(title, st, line);
    }
  }

  lemma {:induction false} StepCopied(title: string, st: Scan, line: string)
    requires Copied(title, st.inSection, line)
    ensures var r := Step(title, st, line);
      && (exists extra :: r.out == st.out + extra + [line])
      && r.inSection == EntersSection(title, line)
      && (!st.inSection && !EntersSection(title, line) ==> r == st.(out := st.out + [line]))
  {
    var r := Step(title, st, line);
    if Trim(line) == "## " + title {
      assert r.out == st.out + [] + [line];
    } else if st.inSection {
      assert r.out == st.out + (if Answered(st) then [st.question] else []) + [line];
    } else {
      assert r.out == st.out + [] + [line];
    }
  }

  lemma {:induction false} StepInBody(title: string, st: Scan, line: string)
    requires !Copied(title, st.inSection, line)
    ensures var r := Step(title, st, line);
      (r.out == st.out || r.out == st.out + [line]) && r.inSection
  {
    SectionLineOut(st, line);
  }

  /** One iteration's effect on the question being read and on the questions collected. */
  lemma {:induction false} StepFields(title: string, st: Scan, line: string)
    ensures var r := Step(title, st, line);
      && (r.question == st.question || r.question == [] || r.question == HeaderText(line))
      && (r.collected == st.collected || r.collected == st.collected + Kept(st))
  {
    if !Copied(title, st.inSection, line) {
      SectionLineFields(st, line);
    }
  }

  function Run(title: string, st: Scan, lines: seq<string>): Scan
    decreases |lines|
  {
    if |lines| == 0 then st else Run(title, Step(title, st, lines[0]), lines[1..])
  }

  /** The questions after the loop, the open one included when answered. */
  function Collected(st: Scan): seq<Question> {
    st.collected + Kept(st)
  }

  /** The lines written for one question: `# q #d`, `?`, the answer, and the candidate block when there is one. */
  function Render(q: Question): seq<string> {
    ["# " + q.text + " #" + Word(q.difficulty), "?", q.answer]
    + (if Trim(q.candidate) != [] then [[], "> @candidate", "> " + q.candidate] else [])
  }

  function RenderAll(qs: seq<Question>): seq<string> {
    if |qs| == 0 then [] else Render(qs[0]) + RenderAll(qs[1..])
  }

  /** The new content of the note for a click on the section button whose heading text is `headingText`. */
  function Reorganise(lines: seq<string>, headingText: string): seq<string> {
    var title := SectionTitle(headingText);
    if title == [] then lines
    else
      var st := Run(title, Start, lines);
      st.out + RenderAll(SortByDifficulty(Collected(st)))
  }

  /**
   * The lines the loop copies whatever they hold: every line that is not in
   * the body of a section headed `## <title>`, the section headings and the
   * `## ` lines that end a section included.
   */
  function Outside(title: string, lines: seq<string>, inSection: bool): seq<string>
    decreases |lines|
  {
    if |lines| == 0 then []
    else
      if Copied(title, inSection, lines[0]) then
        [lines[0]] + Outside(title, lines[1..], EntersSection(title, lines[0]))
      else Outside(title, lines[1..], true)
  }

  lemma {:induction false} StepKeepsOutside(title: string, st: Scan, l: string, a: seq<string>)
    requires IsSubsequence(a, st.out)
    ensures Copied(title, st.inSection, l) ==> IsSubsequence(a + [l], Step(title, st, l).out)
    ensures !Copied(title, st.inSection, l) ==> IsSubsequence(a, Step(title, st, l).out)
  {
    var st' := Step(title, st, l);
    StepOut(title, st, l);
    if Copied(title, st.inSection, l) {
      var extra := st'.out[|st.out|..|st'.out| - 1];
      assert st'.out == st.out + extra + [l];
      SubsequenceSnoc(a, st.out, extra, l);
    } else if st'.out != st.out {
      SubsequenceExtend(a, st.out, [l]);
    }
  }

  lemma {:induction false} RunKeepsOutside(title: string, st: Scan, lines: seq<string>, a: seq<string>)
    requires IsSubsequence(a, st.out)
    ensures IsSubsequence(a + Outside(title, lines, st.inSection), Run(title, st, lines).out)
    decreases |lines|, 1
  {
    if |lines| == 0 {
      assert a + [] == a;
    } else if Copied(title, st.inSection, lines[0]) {
      CopiedLineKept(title, st, lines, a);
    } else {
      SectionLineSkipped(title, st, lines, a);
    }
  }

  lemma {:induction false} CopiedLineKept(title: string, st: Scan, lines: seq<string>, a: seq<string>)
    requires |lines| > 0 && Copied(title, st.inSection, lines[0])
    requires IsSubsequence(a, st.out)
    ensures IsSubsequence(a + Outside(title, lines, st.inSection), Run(title, st, lines).out)
    decreases |lines|, 0
  {
    var l := lines[0];
    var st' := Step(title, st, l);
    StepOut(title, st, l);
    StepKeepsOutside(title, st, l, a);
    RunKeepsOutside(title, st', lines[1..], a + [l]);
    var rest := Outside(title, lines[1..], st'.inSection);
    AppendAssoc(a, [l], rest);
  }

  lemma {:induction false} SectionLineSkipped(title: string, st: Scan, lines: seq<string>, a: seq<string>)
    requires |lines| > 0 && !Copied(title, st.inSection, lines[0])
    requires IsSubsequence(a, st.out)
    ensures IsSubsequence(a + Outside(title, lines, st.inSection), Run(title, st, lines).out)
    decreases |lines|, 0
  {
    var l := lines[0];
    StepOut(title, st, l);
    StepKeepsOutside(title, st, l, a);
    RunKeepsOutside(title, Step(title, st, l), lines[1..], a);
  }

  /**
   * Frame: every line outside the body of the `## <title>` section appears in
   * the new content unchanged and in its original order.
   */
  lemma {:induction false} ReorganiseKeepsOutside(lines: seq<string>, headingText: string)
    requires SectionTitle(headingText) != []
    ensures IsSubsequence(Outside(SectionTitle(headingText), lines, false), Reorganise(lines, headingText))
  {
    var title := SectionTitle(headingText);
    var st := Run(title, Start, lines);
    RunKeepsOutside(title, Start, lines, []);
    assert [] + Outside(title, lines, false) == Outside(title, lines, false);
    SubsequenceExtend(Outside(title, lines, false), st.out, RenderAll(SortByDifficulty(Collected(st))));
  }

  lemma {:induction false} RunWithoutSection(title: string, st: Scan, lines: seq<string>)
    requires !st.inSection
    requires forall i | 0 <= i < |lines| :: !EntersSection(title, lines[i])
    ensures Run(title, st, lines) == st.(out := st.out + lines)
    decreases |lines|
  {
    if |lines| == 0 {
      assert st.out + lines == st.out;
    } else {
      var st' := st.(out := st.out + [lines[0]]);
      StepOut(title, st, lines[0]);
      RunWithoutSection(title, st', lines[1..]);
      AppendHead(st.out, lines);
    }
  }

  /** Without a line reading `## <title>`, the note is written back unchanged. */
  lemma {:induction false} ReorganiseWithoutSection(lines: seq<string>, headingText: string)
    requires forall i | 0 <= i < |lines| :: !EntersSection(SectionTitle(headingText), lines[i])
    ensures Reorganise(lines, headingText) == lines
  {
    var title := SectionTitle(headingText);
    if title != [] {
      RunWithoutSection(title, Start, lines);
      assert Start.out + lines == lines;
    }
  }

  predicate WellFormed(st: Scan) {
    && Trim(st.question) == st.question && NoLineTerminator(st.question)
    && GoodCollected(st.collected)
  }

  /** Every collected question's text is one the heading pattern can have captured. */
  predicate GoodCollected(qs: seq<Question>) {
    forall i | 0 <= i < |qs| :: GoodText(qs[i].text)
  }

  /** Collecting the open question of a well-formed state keeps the collected texts good. */
  lemma {:induction false} CollectKeepsGood(st: Scan)
    requires WellFormed(st)
    ensures GoodCollected(st.collected + Kept(st))
  {
    var c := st.collected + Kept(st);
    forall i | 0 <= i < |c| ensures GoodText(c[i].text) {
      if i >= |st.collected| {
        assert c[i] == Pending(st);
      }
    }
  }

  /** Well-formedness survives any change of the question to "" or a trimmed one-line text, and any collecting of the open question. */
  lemma {:induction false} ChangeWellFormed(st: Scan, r: Scan, text: string)
    requires WellFormed(st)
    requires Trim(text) == text && NoLineTerminator(text)
    requires r.question == st.question || r.question == [] || r.question == text
    requires r.collected == st.collected || r.collected == st.collected + Kept(st)
    ensures WellFormed(r)
  {
    EmptyTrimmed();
    CollectKeepsGood(st);
    assert GoodCollected(r.collected);
  }

  lemma {:induction false} StepWellFormed(title: string, st: Scan, line: string)
    requires WellFormed(st)
    ensures WellFormed(Step(title, st, line))
  {
    StepFields(title, st, line);
    HeaderTextGood(line);
    ChangeWellFormed(st, Step(title, st, line), HeaderText(line));
  }

  lemma {:induction false} RunWellFormed(title: string, st: Scan, lines: seq<string>)
    requires WellFormed(st)
    ensures WellFormed(Run(title, st, lines))
    decreases |lines|
  {
    if |lines| > 0 {
      StepWellFormed(title, st, lines[0]);
      RunWellFormed(title, Step(title, st, lines[0]), lines[1..]);
    }
  }

  lemma {:induction false} CollectedOfWellFormed(st: Scan)
    requires WellFormed(st)
    ensures forall q | q in Collected(st) :: GoodText(q.text)
  {
    forall q | q in Collected(st) ensures GoodText(q.text) {
      if q !in st.collected {
        assert q in Kept(st);
      }
    }
  }

  lemma {:induction false} EmptyTrimmed()
    ensures Trim([]) == [] && NoLineTerminator([])
  {
    TrimOfSpace([]);
  }

  lemma {:induction false} StartWellFormed()
    ensures WellFormed(Start)
  {
    EmptyTrimmed();
    assert Start.question == [] && Start.collected == [];
  }

  lemma {:induction false} CollectedGood(title: string, lines: seq<string>)
    ensures forall q | q in Collected(Run(title, Start, lines)) :: GoodText(q.text)
  {
    StartWellFormed();
    RunWellFormed(title, Start, lines);
    CollectedOfWellFormed(Run(title, Start, lines));
  }

  lemma {:induction false} SortedGood(c: seq<Question>)
    requires forall q | q in c :: GoodText(q.text)
    ensures forall q | q in SortByDifficulty(c) :: GoodText(q.text)
  {
    var qs := SortByDifficulty(c);
    forall q | q in qs ensures GoodText(q.text) {
      assert q in multiset(qs);
    }
  }

  lemma {:induction false} RenderedHeaderReparses(q: Question)
    requires GoodText(q.text)
    ensures HeaderMatch(Trim(Render(q)[0])) == Some(Header(q.text, q.difficulty))
  {
    assert Render(q)[0] == "# " + q.text + " #" + Word(q.difficulty);
    HeaderRoundTrip(q.text, q.difficulty);
  }

  /**
   * Print/parse: every question block the reorganiser appends starts with a
   * header line that the heading pattern reads back, after trimming, as the
   * same text and difficulty.
   */
  lemma {:induction false} AppendedHeadersReparse(lines: seq<string>, headingText: string)
    requires SectionTitle(headingText) != []
    ensures var qs := SortByDifficulty(Collected(Run(SectionTitle(headingText), Start, lines)));
      forall i | 0 <= i < |qs| ::
        HeaderMatch(Trim(Render(qs[i])[0])) == Some(Header(qs[i].text, qs[i].difficulty))
  {
    var c := Collected(Run(SectionTitle(headingText), Start, lines));
    CollectedGood(SectionTitle(headingText), lines);
    SortedGood(c);
    var qs := SortByDifficulty(c);
    forall i | 0 <= i < |qs|
      ensures HeaderMatch(Trim(Render(qs[i])[0])) == Some(Header(qs[i].text, qs[i].difficulty))
    {
      assert qs[i] in qs;
      RenderedHeaderReparses(qs[i]);
    }
  }

  /**
   * The appended questions are the collected ones stably sorted by
   * difficulty: the new content is the copied lines followed by the blocks
   * of a sorted permutation that keeps each difficulty's questions in
   * encounter order.
   */
  lemma {:induction false} ReorganiseAppendsSorted(lines: seq<string>, headingText: string)
    requires SectionTitle(headingText) != []
    ensures var st := Run(SectionTitle(headingText), Start, lines);
      exists qs ::
        && Reorganise(lines, headingText) == st.out + RenderAll(qs)
        && Sorted(qs)
        && multiset(qs) == multiset(Collected(st))
        && forall d :: Only(qs, d) == Only(Collected(st), d)
  {
    var st := Run(SectionTitle(headingText), Start, lines);
    ReorganiseWithSection(lines, headingText);
    SortedWitness(st.out, Collected(st));
  }

  lemma {:induction false} ReorganiseWithSection(lines: seq<string>, headingText: string)
    requires SectionTitle(headingText) != []
    ensures var st := Run(SectionTitle(headingText), Start, lines);
      Reorganise(lines, headingText) == st.out + RenderAll(SortByDifficulty(Collected(st)))
  {
  }

  lemma {:induction false} SortedWitness(out: seq<string>, c: seq<Question>)
    ensures exists qs ::
      && out + RenderAll(SortByDifficulty(c)) == out + RenderAll(qs)
      && Sorted(qs)
      && multiset(qs) == multiset(c)
      && forall d :: Only(qs, d) == Only(c, d)
  {
    var qs := SortByDifficulty(c);
    assert out + RenderAll(SortByDifficulty(c)) == out + RenderAll(qs);
  }
}

=== FILE: slug.dfy ===
/**
 * `slugify`: lower case, every run of characters other than `a`-`z` and
 * `0`-`9` turned into one `-`, and the `-` at either end dropped. The
 * result is the note's words of letters and digits joined with `-`.
 */
module Slug {
  import opened Text

  predicate IsSlugChar(c: char) {
    'a' <= c <= 'z' || '0' <= c <= '9'
  }

  predicate AllSlug(w: string) {
    forall i | 0 <= i < |w| :: IsSlugChar(w[i])
  }

  predicate NoSlug(w: string) {
    forall i | 0 <= i < |w| :: !IsSlugChar(w[i])
  }

  /** The length of the run of other characters `s` starts with. */
  function OtherRun(s: string): (n: nat)
    ensures n <= |s|
    ensures n == |s| || IsSlugChar(s[n])
    ensures s != [] && !IsSlugChar(s[0]) ==> n >= 1
    decreases |s|
  {
    if s != [] && !IsSlugChar(s[0]) then 1 + OtherRun(s[1..]) else 0
  }

  lemma {:induction false} OtherRunShape(s: string)
    ensures NoSlug(s[..OtherRun(s)])
    decreases |s|
  {
    var n := OtherRun(s);
    if n > 0 {
      OtherRunShape(s[1..]);
      assert forall i | 1 <= i < n :: s[..n][i] == s[1..][..n - 1][i - 1];
    }
  }

  /** The length of the run of letters and digits `s` starts with. */
  function SlugRun(s: string): (n: nat)
    ensures n <= |s|
    ensures n == |s| || !IsSlugChar(s[n])
    ensures s != [] && IsSlugChar(s[0]) ==> n >= 1
    decreases |s|
  {
    if s != [] && IsSlugChar(s[0]) then 1 + SlugRun(s[1..]) else 0
  }

  lemma {:induction false} SlugRunShape(s: string)
    ensures AllSlug(s[..SlugRun(s)])
    decreases |s|
  {
    var n := SlugRun(s);
    if n > 0 {
      SlugRunShape(s[1..]);
      assert forall i | 1 <= i < n :: s[..n][i] == s[1..][..n - 1][i - 1];
    }
  }

  /** `.replace(/[^a-z0-9]+/g, '-')`: each maximal run of other characters becomes one `-`. */
  function Collapse(s: string): string
    decreases |s|
  {
    if s == [] then []
    else if IsSlugChar(s[0]) then [s[0]] + Collapse(s[1..])
    else "-" + Collapse(s[OtherRun(s)..])
  }

  /** `^-+`: the leading `-` run removed. */
  function DropLeading(s: string): string
    decreases |s|
  {
    if s != [] && s[0] == '-' then DropLeading(s[1..]) else s
  }

  /** `-+$`: the trailing `-` run removed. */
  function DropTrailing(s: string): string
    decreases |s|
  {
    if s != [] && s[|s| - 1] == '-' then DropTrailing(s[..|s| - 1]) else s
  }

  /** What `^-+` removes is a run of `-`, and what it leaves does not start with one. */
  lemma {:induction false} DropLeadingShape(s: string)
    ensures var r := DropLeading(s);
      && |r| <= |s| && r == s[|s| - |r|..]
      && (r == [] || r[0] != '-')
      && forall i | 0 <= i < |s| - |r| :: s[i] == '-'
    decreases |s|
  {
    if s != [] && s[0] == '-' {
      DropLeadingShape(s[1..]);
    }
  }

  /** What `-+$` removes is a run of `-`, and what it leaves does not end with one. */
  lemma {:induction false} DropTrailingShape(s: string)
    ensures var r := DropTrailing(s);
      && |r| <= |s| && r == s[..|r|]
      && (r == [] || r[|r| - 1] != '-')
      && forall i | |r| <= i < |s| :: s[i] == '-'
    decreases |s|
  {
    if s != [] && s[|s| - 1] == '-' {
      DropTrailingShape(s[..|s| - 1]);
    }
  }

  /** `slugify` */
  function Slugify(text: string): string {
    DropTrailing(DropLeading(Collapse(Lower(text))))
  }

  // ---------------------------------------------------------------------
  // The reference: the words of letters and digits.

  /** The maximal runs of letters and digits of `s`, in order. */
  function Words(s: string): seq<string>
    decreases |s|
  {
    var a := s[OtherRun(s)..];
    if a == [] then []
    else
      var n := SlugRun(a);
      [a[..n]] + Words(a[n..])
  }

  /** Every word is a non-empty run of letters and digits. */
  lemma {:induction false} WordsGood(s: string)
    ensures forall i | 0 <= i < |Words(s)| :: Words(s)[i] != [] && AllSlug(Words(s)[i])
    decreases |s|
  {
    var a := s[OtherRun(s)..];
    if a != [] {
      var n := SlugRun(a);
      SlugRunShape(a);
      WordsGood(a[n..]);
    }
  }

  /** What a slug looks like: letters, digits and single `-`, with no `-` at either end. */
  predicate IsSlug(s: string) {
    && (forall i | 0 <= i < |s| :: s[i] == '-' || IsSlugChar(s[i]))
    && (forall i | 0 <= i < |s| - 1 :: s[i] == '-' ==> s[i + 1] != '-')
    && (s == [] || (s[0] != '-' && s[|s| - 1] != '-'))
  }

  // ---------------------------------------------------------------------
  // Runs.

  lemma {:induction false} OtherRunOf(o: string, t: string)
    requires NoSlug(o) && (t == [] || IsSlugChar(t[0]))
    ensures OtherRun(o + t) == |o|
    decreases |o|
  {
    if o != [] {
      assert (o + t)[1..] == o[1..] + t;
      OtherRunOf(o[1..], t);
    } else {
      assert o + t == t;
    }
  }

  lemma {:induction false} SlugRunOf(w: string, t: string)
    requires AllSlug(w) && (t == [] || !IsSlugChar(t[0]))
    ensures SlugRun(w + t) == |w|
    decreases |w|
  {
    if w != [] {
      assert (w + t)[1..] == w[1..] + t;
      SlugRunOf(w[1..], t);
    } else {
      assert w + t == t;
    }
  }

  /** A run of letters and digits is copied by the collapse. */
  lemma {:induction false} CollapseSlugPrefix(w: string, t: string)
    requires AllSlug(w)
    ensures Collapse(w + t) == w + Collapse(t)
    decreases |w|
  {
    if w != [] {
      assert (w + t)[1..] == w[1..] + t;
      CollapseSlugPrefix(w[1..], t);
      assert w == [w[0]] + w[1..];
    } else {
      assert w + t == t;
    }
  }

  /** Skipping the leading run of other characters does not change the words. */
  lemma {:induction false} WordsSkip(s: string)
    ensures Words(s[OtherRun(s)..]) == Words(s)
  {
    var a := s[OtherRun(s)..];
    assert a == [] || IsSlugChar(a[0]);
    assert OtherRun(a) == 0;
    assert a[0..] == a;
  }

  /** A text without letters or digits has no words. */
  lemma {:induction false} WordsNone(s: string)
    requires s != [] && Words(s) == []
    ensures !IsSlugChar(s[|s| - 1])
  {
    var k := OtherRun(s);
    OtherRunShape(s);
    assert s[k..] == [];
    assert s[..k] == s;
  }

  // ---------------------------------------------------------------------
  // The collapse in terms of words.

  /** The `-` the collapse writes for a run of other characters at the start. */
  function Lead(s: string): string {
    if s != [] && !IsSlugChar(s[0]) then "-" else []
  }

  /** The `-` the collapse writes for a run of other characters at the end, after some word. */
  function Trail(s: string): string {
    if Words(s) != [] && !IsSlugChar(s[|s| - 1]) then "-" else []
  }

  /** The collapse is the words joined with `-`, with a `-` for a run of other characters at either end. */
  lemma {:induction false} CollapseIsWords(s: string)
    ensures Collapse(s) == Lead(s) + Join(Words(s), '-') + Trail(s)
    decreases |s|
  {
    if s == [] {
    } else if !IsSlugChar(s[0]) {
      CollapseAfterOther(s);
    } else {
      CollapseAfterWord(s);
    }
  }

  lemma {:induction false} CollapseAfterOther(s: string)
    requires s != [] && !IsSlugChar(s[0])
    ensures Collapse(s) == Lead(s) + Join(Words(s), '-') + Trail(s)
    decreases |s|, 0
  {
    var rest := s[OtherRun(s)..];
    CollapseIsWords(rest);
    OtherStep(s);
    WordsSkip(s);
    TrailSkip(s, rest);
    PrependDash(Collapse(s), Collapse(rest), Join(Words(s), '-'), Trail(s));
  }

  /** The facts about the run of other characters that `s` starts with. */
  lemma {:induction false} OtherStep(s: string)
    requires s != [] && !IsSlugChar(s[0])
    ensures Collapse(s) == "-" + Collapse(s[OtherRun(s)..])
    ensures Lead(s) == "-" && Lead(s[OtherRun(s)..]) == []
  {
  }

  lemma {:induction false} TrailSkip(s: string, rest: string)
    requires |rest| <= |s| && rest == s[|s| - |rest|..] && Words(rest) == Words(s)
    ensures Trail(rest) == Trail(s)
  {
    if rest != [] {
      assert rest[|rest| - 1] == s[|s| - 1];
    }
  }

  lemma {:induction false} PrependDash(c: string, cr: string, j: string, t: string)
    requires c == "-" + cr && cr == [] + j + t
    ensures c == "-" + j + t
  {
  }

  lemma {:induction false} CollapseAfterWord(s: string)
    requires s != [] && IsSlugChar(s[0])
    ensures Collapse(s) == Lead(s) + Join(Words(s), '-') + Trail(s)
    decreases |s|, 0
  {
    var n := SlugRun(s);
    var w := s[..n];
    var rest := s[n..];
    CollapseIsWords(rest);
    WordStep(s);
    if rest == [] {
      assert Collapse(s) == w;
    } else if Words(rest) == [] {
      WordThenOther(Collapse(s), w, Collapse(rest), Trail(s));
    } else {
      WordThenWords(Collapse(s), w, Collapse(rest), Words(rest), Trail(s));
    }
  }

  /** The facts about the word that `s` starts with. */
  lemma {:induction false} WordStep(s: string)
    requires s != [] && IsSlugChar(s[0])
    ensures var n := SlugRun(s);
      && Collapse(s) == s[..n] + Collapse(s[n..])
      && Lead(s) == []
      && Words(s) == [s[..n]] + Words(s[n..])
      && (s[n..] == [] ==> Trail(s) == [] && Collapse(s[n..]) == [])
      && (s[n..] != [] ==> Lead(s[n..]) == "-")
      && (s[n..] != [] && Words(s[n..]) == [] ==> Trail(s) == "-" && Trail(s[n..]) == [])
      && (s[n..] != [] && Words(s[n..]) != [] ==> Trail(s) == Trail(s[n..]))
  {
    var n := SlugRun(s);
    SlugRunShape(s);
    assert s == s[..n] + s[n..];
    CollapseSlugPrefix(s[..n], s[n..]);
    WordsOfWord(s);
    WordTrail(s, s[..n], s[n..]);
  }

  lemma {:induction false} WordTrail(s: string, w: string, rest: string)
    requires s == w + rest && w != [] && AllSlug(w)
    requires Words(s) == [w] + Words(rest)
    requires rest == [] || !IsSlugChar(rest[0])
    ensures rest == [] ==> Trail(s) == []
    ensures rest != [] ==> Lead(rest) == "-"
    ensures rest != [] && Words(rest) == [] ==> Trail(s) == "-" && Trail(rest) == []
    ensures rest != [] && Words(rest) != [] ==> Trail(s) == Trail(rest)
  {
    if rest == [] {
      LastOf(s, w, rest);
    } else if Words(rest) == [] {
      WordsNone(rest);
      LastOf(s, w, rest);
    } else {
      LastOf(s, w, rest);
    }
  }

  lemma {:induction false} LastOf(s: string, w: string, rest: string)
    requires s == w + rest && w != []
    ensures s[|s| - 1] == if rest == [] then w[|w| - 1] else rest[|rest| - 1]
  {
  }

  lemma {:induction false} WordThenOther(c: string, w: string, cr: string, t: string)
    requires c == w + cr && cr == "-" + Join([], '-') + [] && t == "-"
    ensures c == [] + Join([w], '-') + t
  {
  }

  lemma {:induction false} WordThenWords(c: string, w: string, cr: string, ws: seq<string>, t: string)
    requires c == w + cr && cr == "-" + Join(ws, '-') + t && ws != []
    ensures c == [] + Join([w] + ws, '-') + t
  {
    JoinCons(w, ws, '-');
  }

  /** A text that starts with a letter or digit starts with its first word. */
  lemma {:induction false} WordsOfWord(s: string)
    requires s != [] && IsSlugChar(s[0])
    ensures Words(s) == [s[..SlugRun(s)]] + Words(s[SlugRun(s)..])
  {
    assert OtherRun(s) == 0;
    assert s[0..] == s;
  }

  // ---------------------------------------------------------------------
  // Joined words.

  /** Words of letters and digits joined with `-` form a slug. */
  lemma {:induction false} JoinedIsSlug(ws: seq<string>)
    requires forall i | 0 <= i < |ws| :: ws[i] != [] && AllSlug(ws[i])
    ensures IsSlug(Join(ws, '-'))
    ensures ws != [] ==> IsSlugChar(Join(ws, '-')[0])
    decreases |ws|
  {
    if |ws| > 1 {
      var w := ws[0];
      var j := Join(ws[1..], '-');
      JoinedIsSlug(ws[1..]);
      JoinCons(w, ws[1..], '-');
      assert ws == [w] + ws[1..];
      var s := w + "-" + j;
      forall i | 0 <= i < |s| - 1 ensures s[i] == '-' ==> s[i + 1] != '-' {
        if i < |w| {
          assert s[i] == w[i];
        } else if i == |w| {
          assert s[i + 1] == j[0];
        } else {
          assert s[i] == j[i - |w| - 1] && s[i + 1] == j[i - |w|];
        }
      }
      forall i | 0 <= i < |s| ensures s[i] == '-' || IsSlugChar(s[i]) {
        if i < |w| {
          assert s[i] == w[i];
        } else if i > |w| {
          assert s[i] == j[i - |w| - 1];
        }
      }
      assert s[0] == w[0];
      assert s[|s| - 1] == j[|j| - 1];
    }
  }

  /** The words of joined words are the words: `Words` undoes the join. */
  lemma {:induction false} WordsOfJoined(ws: seq<string>)
    requires forall i | 0 <= i < |ws| :: ws[i] != [] && AllSlug(ws[i])
    ensures Words(Join(ws, '-')) == ws
    decreases |ws|
  {
    if |ws| == 1 {
      WordsOfOne(ws[0]);
    } else if |ws| > 1 {
      var w := ws[0];
      var j := Join(ws[1..], '-');
      JoinedIsSlug(ws[1..]);
      WordsOfJoined(ws[1..]);
      JoinCons(w, ws[1..], '-');
      WordsOfDashed(w, j);
      assert ws == [w] + ws[1..];
    }
  }

  lemma {:induction false} WordsOfOne(w: string)
    requires w != [] && AllSlug(w)
    ensures Words(w) == [w]
  {
    OtherRunOf([], w);
    assert [] + w == w;
    SlugRunOf(w, []);
    assert w + [] == w;
    assert w[|w|..] == [];
  }

  /** A word, a `-` and a text that starts with a letter or digit. */
  lemma {:induction false} WordsOfDashed(w: string, j: string)
    requires w != [] && AllSlug(w) && j != [] && IsSlugChar(j[0])
    ensures Words(w + [Dash] + j) == [w] + Words(j)
  {
    var s := w + [Dash] + j;
    OtherRunOf([], s);
    assert [] + s == s;
    SlugRunOf(w, [Dash] + j);
    assert s == w + ([Dash] + j);
    assert s[..|w|] == w;
    assert s[|w|..] == [Dash] + j;
    OtherRunOf([Dash], j);
    assert ([Dash] + j)[1..] == j;
  }

  const Dash: char := '-'

  /** Stripping the `-` written for the ends leaves the joined words. */
  lemma {:induction false} StripEnds(s: string)
    ensures DropTrailing(DropLeading(Lead(s) + Join(Words(s), '-') + Trail(s))) == Join(Words(s), '-')
  {
    if Words(s) == [] {
      DropLeadingAll(Lead(s) + Join(Words(s), '-') + Trail(s));
    } else {
      WordsGood(s);
      JoinedIsSlug(Words(s));
      StripSome(Lead(s), Join(Words(s), '-'), Trail(s));
    }
  }

  lemma {:induction false} StripSome(l: string, j: string, t: string)
    requires l == [] || l == "-"
    requires t == [] || t == "-"
    requires j != [] && j[0] != '-' && j[|j| - 1] != '-'
    ensures DropTrailing(DropLeading(l + j + t)) == j
  {
    var jt := j + t;
    assert jt[0] == j[0];
    DropLeadingOf(l, jt);
    assert l + j + t == l + jt;
    DropTrailingOf(j, t);
  }

  lemma {:induction false} DropLeadingAll(x: string)
    requires forall i | 0 <= i < |x| :: x[i] == '-'
    ensures DropLeading(x) == []
    decreases |x|
  {
    if x != [] {
      assert forall i | 0 <= i < |x| - 1 :: x[1..][i] == x[i + 1];
      DropLeadingAll(x[1..]);
    }
  }

  lemma {:induction false} DropLeadingOf(h: string, t: string)
    requires forall i | 0 <= i < |h| :: h[i] == '-'
    requires t != [] && t[0] != '-'
    ensures DropLeading(h + t) == t
    decreases |h|
  {
    if h != [] {
      assert (h + t)[1..] == h[1..] + t;
      DropLeadingOf(h[1..], t);
    } else {
      assert h + t == t;
    }
  }

  lemma {:induction false} DropTrailingOf(h: string, t: string)
    requires forall i | 0 <= i < |t| :: t[i] == '-'
    requires h != [] && h[|h| - 1] != '-'
    ensures DropTrailing(h + t) == h
    decreases |t|
  {
    if t != [] {
      assert (h + t)[..|h + t| - 1] == h + t[..|t| - 1];
      DropTrailingOf(h, t[..|t| - 1]);
    } else {
      assert h + t == h;
    }
  }

  // ---------------------------------------------------------------------
  // What `slugify` promises.

  /** The slug of a text is its lower-cased words of letters and digits joined with `-`. */
  lemma {:induction false} SlugifyIsWords(text: string)
    ensures Slugify(text) == Join(Words(Lower(text)), '-')
  {
    CollapseIsWords(Lower(text));
    StripEnds(Lower(text));
  }

  /** A slug uses only `a`-`z`, `0`-`9` and `-`, never two `-` in a row nor one at either end. */
  lemma {:induction false} SlugifyIsSlug(text: string)
    ensures IsSlug(Slugify(text))
  {
    SlugifyIsWords(text);
    WordsGood(Lower(text));
    JoinedIsSlug(Words(Lower(text)));
  }

  /** A slug is its own lower case. */
  lemma {:induction false} SlugIsLower(s: string)
    requires IsSlug(s)
    ensures Lower(s) == s
  {
    LowerOfLower(s);
  }

  /** Slugifying a slug changes nothing. */
  lemma {:induction false} SlugifyIdempotent(text: string)
    ensures Slugify(Slugify(text)) == Slugify(text)
  {
    var ws := Words(Lower(text));
    var s := Slugify(text);
    SlugifyIsWords(text);
    SlugifyIsSlug(text);
    SlugIsLower(s);
    SlugifyIsWords(s);
    WordsGood(Lower(text));
    WordsOfJoined(ws);
  }
}

=== FILE: syntax.dfy ===
/**
 * The line recognisers of the plugin, written out as the deterministic
 * matchers the regular expressions amount to once backtracking is worked
 * out, and the line shapes the plugin writes back.
 *
 *   heading question   ^#\s+(.+?)\s+#(easy|medium|hard)\s*$      (flag i)
 *   answer marker      ^\?\s*$
 *   candidate start    ^>\s*@candidate\s*$                       (flag i in the callout patcher)
 *   quoted content     ^>\s*(.+)$
 *   callout line       ^>\s*(.*)$
 *   callout question   ^>\s*\[!question\]-?\s*[marker]\s*(.+)$   (flag i)
 *   not a quote line   ^[^>]
 */
module Syntax {
  import opened Wrappers
  import opened Text
  import opened Questions

  /** The four difficulty markers of the callout dialect, as abstract symbols. */
  const GreenMarker: char := '\U{1F7E2}'
  const YellowMarker: char := '\U{1F7E1}'
  const RedMarker: char := '\U{1F534}'
  const UnknownMarker: char := '\U{2753}'

  predicate IsMarker(c: char) {
    c == GreenMarker || c == YellowMarker || c == RedMarker || c == UnknownMarker
  }

  /** A recognised heading question: the trimmed first capture and the lower-cased tag. */
  datatype Header = Header(text: string, difficulty: Difficulty)

  /** A question text the heading pattern can have captured: non-empty, trimmed, on one line. */
  predicate GoodText(s: string) {
    s != [] && Trim(s) == s && NoLineTerminator(s)
  }

  predicate EndsWith(s: string, suffix: string) {
    |suffix| <= |s| && s[|s| - |suffix|..] == suffix
  }

  /** `body` ends with `#` and then `word` in any ASCII letter case. */
  predicate HasTag(body: string, word: string) {
    |body| > |word| && body[|body| - |word| - 1] == '#' && Lower(body[|body| - |word|..]) == word
  }

  /** The difficulty whose tag ends `body`; the three words end in different letters, so at most one does. */
  function TagAt(body: string): Option<Difficulty> {
    if HasTag(body, "easy") then Some(Easy)
    else if HasTag(body, "medium") then Some(Medium)
    else if HasTag(body, "hard") then Some(Hard)
    else None
  }

  /**
   * Can the text between the leading `#` and the tag's `#` be split as
   * `\s+`, then `.+?`, then `\s+`? When it is all white space, `.+?` takes a
   * single inner character that `.` accepts; otherwise `.+?` must cover the
   * trimmed text, which may then hold no line terminator.
   */
  predicate GapFits(core: string) {
    && |core| >= 3 && IsSpace(core[0]) && IsSpace(core[|core| - 1])
    && (if AllSpace(core) then exists i | 1 <= i < |core| - 1 :: !IsLineTerminator(core[i])
        else NoLineTerminator(Trim(core)))
  }

  lemma {:induction false} TrimKeepsNoTerminator(s: string)
    ensures NoLineTerminator(s) ==> NoLineTerminator(Trim(s))
  {
    var a := TrimStart(s);
    TrimStartShape(s);
    TrimEndShape(a);
    assert a == s[|s| - |a|..];
  }

  lemma {:induction false} TrimTwice(s: string)
    ensures Trim(Trim(s)) == Trim(s)
  {
    TrimShape(s);
    TrimOfTrimmed(Trim(s));
  }

  /**
   * The heading-question pattern. Every caller trims the first capture, and
   * the trimmed capture is the trimmed text between the leading `#` and the
   * `#` of the tag.
   */
  function HeaderMatch(line: string): Option<Header> {
    var body := TrimEnd(line);
    match TagAt(body)
    case None => None
    case Some(d) => HeaderBefore(line, |body| - |Word(d)| - 1, d)
  }

  /** The heading pattern once its tag `d` is found with its `#` at `h`: the leading `#` and the gap between. */
  function HeaderBefore(line: string, h: int, d: Difficulty): Option<Header>
    requires h < |line|
  {
    if |line| >= 1 && line[0] == '#' && 1 <= h && GapFits(line[1..h]) then
      Some(Header(Trim(line[1..h]), d))
    else None
  }

  /** What a recognised heading question guarantees: the line's shape, and a trimmed, single-line text. */
  lemma {:induction false} HeaderMatchShape(line: string)
    ensures var r := HeaderMatch(line);
      r.Some? ==>
        && |line| >= 5 && line[0] == '#' && IsSpace(line[1])
        && Trim(r.value.text) == r.value.text
        && NoLineTerminator(r.value.text)
  {
    if HeaderMatch(line).Some? {
      var body := TrimEnd(line);
      var d := TagAt(body).value;
      var h := |body| - |Word(d)| - 1;
      var core := line[1..h];
      HeaderMatchCore(line, body, d, h);
      assert core[0] == line[1];
      TrimTwice(core);
      TrimKeepsNoTerminator(core);
    }
  }

  /** A recognised heading's text is the trim of a gap of at least three characters right after the `#`. */
  lemma {:induction false} HeaderMatchCore(line: string, body: string, d: Difficulty, h: int)
    requires HeaderMatch(line).Some?
    requires body == TrimEnd(line) && TagAt(body) == Some(d) && h == |body| - |Word(d)| - 1
    ensures 4 <= h <= |line| && line[0] == '#' && GapFits(line[1..h])
    ensures HeaderMatch(line).value.text == Trim(line[1..h])
  {
    HeaderMatchIsBefore(line, body, d, h);
    HeaderBeforeFacts(line, h, d);
  }

  lemma {:induction false} HeaderMatchIsBefore(line: string, body: string, d: Difficulty, h: int)
    requires body == TrimEnd(line) && TagAt(body) == Some(d) && h == |body| - |Word(d)| - 1
    ensures h < |line| && HeaderMatch(line) == HeaderBefore(line, h, d)
  {
  }

  lemma {:induction false} HeaderBeforeFacts(line: string, h: int, d: Difficulty)
    requires h < |line| && HeaderBefore(line, h, d).Some?
    ensures 4 <= h && line[0] == '#' && GapFits(line[1..h])
    ensures HeaderBefore(line, h, d).value.text == Trim(line[1..h])
  {
  }

  lemma {:induction false} LowerLetterNotSpace(c: char, l: char)
    requires 'a' <= l <= 'z' && LowerChar(c) == l
    ensures !IsSpace(c)
  {
  }

  lemma {:induction false} HasTagLastLetter(body: string, word: string)
    requires |word| >= 1 && HasTag(body, word)
    ensures LowerChar(body[|body| - 1]) == word[|word| - 1]
  {
    var k := |body| - |word|;
    LowerAt(body[k..]);
  }

  lemma {:induction false} TagOfWord(pre: string, w: string, d: Difficulty)
    requires Lower(w) == Word(d)
    ensures TagAt(pre + "#" + w) == Some(d)
  {
    var body := pre + "#" + w;
    TagWordFacts(pre, w, d);
    if d != Easy {
      NotOtherTag(body, "easy", d);
    }
    if d == Hard {
      NotOtherTag(body, "medium", d);
    }
    TagAtOf(body, d);
  }

  /** A body built as `pre#w` carries the tag `Lower(w)` and ends in a letter that lower-cases to the tag's last. */
  lemma {:induction false} TagWordFacts(pre: string, w: string, d: Difficulty)
    requires Lower(w) == Word(d)
    ensures var body := pre + "#" + w;
      && HasTag(body, Word(d))
      && |body| >= 1 && LowerChar(body[|body| - 1]) == Word(d)[|Word(d)| - 1]
  {
    var body := pre + "#" + w;
    assert |w| == |Word(d)|;
    assert body[|body| - |w|..] == w;
    assert body[|body| - |w| - 1] == '#';
    LowerAt(w);
    assert body[|body| - 1] == w[|w| - 1];
  }

  /** A body whose last letter lower-cases to something else than `word`'s last does not carry `word`. */
  lemma {:induction false} NotOtherTag(body: string, word: string, d: Difficulty)
    requires |word| >= 1 && |body| >= 1
    requires LowerChar(body[|body| - 1]) == Word(d)[|Word(d)| - 1] != word[|word| - 1]
    ensures !HasTag(body, word)
  {
    if HasTag(body, word) {
      HasTagLastLetter(body, word);
    }
  }

  /** `TagAt` tries the words in order: the first one the body carries wins. */
  lemma {:induction false} TagAtOf(body: string, d: Difficulty)
    requires HasTag(body, Word(d))
    requires d != Easy ==> !HasTag(body, "easy")
    requires d == Hard ==> !HasTag(body, "medium")
    ensures TagAt(body) == Some(d)
  {
  }

  lemma {:induction false} Regroup3<T>(p: seq<T>, a: seq<T>, b: seq<T>, c: seq<T>)
    ensures p + a + b + c == p + (a + b + c)
  {
  }

  lemma {:induction false} SliceOfMiddle<T>(a: seq<T>, b: seq<T>, c: seq<T>)
    ensures (a + b + c)[|a|..|a| + |b|] == b
  {
  }

  lemma {:induction false} LastOfConcat<T>(a: seq<T>, b: seq<T>)
    requires |b| >= 1
    ensures (a + b)[|a + b| - 1] == b[|b| - 1]
  {
  }

  /** The tag-and-gap half of `HeaderParses`, on a gap that is already assembled. */
  lemma {:induction false} HeaderParsesGap(core: string, w: string, ws3: string, d: Difficulty)
    requires GapFits(core)
    requires Lower(w) == Word(d)
    requires AllSpace(ws3)
    ensures HeaderMatch("#" + core + "#" + w + ws3) == Some(Header(Trim(core), d))
  {
    var body := "#" + core + "#" + w;
    var line := body + ws3;
    assert |w| == |Word(d)|;
    assert TrimEnd(line) == body by {
      LowerAt(w);
      LowerLetterNotSpace(w[|w| - 1], Lower(w)[|w| - 1]);
      LastOfConcat("#" + core + "#", w);
      TrimEndOfSpaced(body, ws3);
    }
    assert TagAt(body) == Some(d) by {
      TagOfWord("#" + core, w, d);
    }
    assert line[0] == '#' && line[1..1 + |core|] == core by {
      Regroup3("#" + core, "#", w, ws3);
      SliceOfMiddle("#", core, "#" + w + ws3);
    }
    HeaderMatchOf(line, d, core);
  }

  /** The heading pattern's verdict from its parts: the tag after trailing space, and the gap before it. */
  lemma {:induction false} HeaderMatchOf(line: string, d: Difficulty, core: string)
    requires |line| >= 1 && line[0] == '#'
    requires TagAt(TrimEnd(line)) == Some(d)
    requires |TrimEnd(line)| == |core| + |Word(d)| + 2
    requires line[1..1 + |core|] == core && GapFits(core)
    ensures HeaderMatch(line) == Some(Header(Trim(core), d))
  {
    var h := |TrimEnd(line)| - |Word(d)| - 1;
    assert h == 1 + |core|;
    HeaderBeforeOf(line, h, d, core);
  }

  lemma {:induction false} HeaderBeforeOf(line: string, h: int, d: Difficulty, core: string)
    requires |line| >= 1 && line[0] == '#'
    requires h == 1 + |core| < |line|
    requires line[1..1 + |core|] == core && GapFits(core)
    ensures HeaderBefore(line, h, d) == Some(Header(Trim(core), d))
  {
  }

  /**
   * Completeness of the heading pattern: a line built as `#`, white space,
   * text free of line terminators, white space, `#`, a tag word in any case
   * and trailing white space is recognised, with the trimmed text and the
   * tag's difficulty.
   */
  lemma {:induction false} HeaderParses(ws1: string, t: string, ws2: string, w: string, ws3: string, d: Difficulty)
    requires |ws1| >= 1 && AllSpace(ws1)
    requires |t| >= 1 && NoLineTerminator(t)
    requires |ws2| >= 1 && AllSpace(ws2)
    requires Lower(w) == Word(d)
    requires AllSpace(ws3)
    ensures HeaderMatch("#" + ws1 + t + ws2 + "#" + w + ws3) == Some(Header(Trim(t), d))
  {
    var core := ws1 + t + ws2;
    assert core[0] == ws1[0];
    LastOfConcat(ws1 + t, ws2);
    TrimOfPadded(ws1, t, ws2);
    if AllSpace(core) {
      assert core[|ws1|] == t[0];
    } else {
      assert !AllSpace(t) by {
        if AllSpace(t) {
          AllSpaceConcat(ws1, t);
          AllSpaceConcat(ws1 + t, ws2);
        }
      }
      TrimKeepsNoTerminator(t);
    }
    assert GapFits(core);
    HeaderParsesGap(core, w, ws3, d);
    Regroup3("#", ws1, t, ws2);
  }

  /** The heading line the reorganiser writes, `# t #d`, reads back as `t` and `d`, also after trimming. */
  lemma {:induction false} OneSpace()
    ensures |" "| == 1 && AllSpace(" ") && AllSpace("")
  {
  }

  lemma {:induction false} LowerOfWord(d: Difficulty)
    ensures Lower(Word(d)) == Word(d)
  {
    var w := Word(d);
    assert forall i | 0 <= i < |w| :: 'a' <= w[i] <= 'z';
    LowerOfLower(w);
  }

  lemma {:induction false} HeaderRoundTrip(t: string, d: Difficulty)
    requires t != [] && Trim(t) == t && NoLineTerminator(t)
    ensures HeaderMatch("# " + t + " #" + Word(d)) == Some(Header(t, d))
    ensures Trim("# " + t + " #" + Word(d)) == "# " + t + " #" + Word(d)
  {
    var w := Word(d);
    var line := "# " + t + " #" + w;
    assert line == "#" + " " + t + " " + "#" + w + "";
    assert line[0] == '#';
    LastOfConcat("# " + t + " #", w);
    TrimOfTrimmed(line);
    LowerOfWord(d);
    OneSpace();
    HeaderParses(" ", t, " ", w, "", d);
  }

  /** `^\?\s*$` */
  predicate IsAnswerMarker(s: string) {
    |s| >= 1 && s[0] == '?' && AllSpace(s[1..])
  }

  /** `^>\s*@candidate\s*$`, with the `i` flag when `ignoreCase` holds. */
  predicate IsCandidateStart(s: string, ignoreCase: bool) {
    && |s| >= 1 && s[0] == '>'
    && var a := TrimStart(s[1..]);
       && |a| >= 10
       && (if ignoreCase then Lower(a[..10]) else a[..10]) == "@candidate"
       && AllSpace(a[10..])
  }

  /**
   * `\s*(.+)$` applied to `rest`: the greedy `\s*` gives back its last
   * character when nothing else is left for `.+`.
   */
  function CaptureRest(rest: string): Option<string> {
    var k := TrimStart(rest);
    if |k| > 0 then
      (if NoLineTerminator(k) then Some(k) else None)
    else if |rest| > 0 && !IsLineTerminator(rest[|rest| - 1]) then
      Some(rest[|rest| - 1..])
    else None
  }

  /**
   * The capture is a non-empty one-line tail of `rest` after white space
   * only; it starts with the first other character when there is one, and
   * there is a capture whenever `rest` is on one line and not blank.
   */
  lemma {:induction false} CaptureRestShape(rest: string)
    ensures var r := CaptureRest(rest);
      && (r.Some? ==> |r.value| >= 1 && NoLineTerminator(r.value) && EndsWith(rest, r.value))
      && (r.Some? ==> AllSpace(rest[..|rest| - |r.value|]))
      && (r.Some? && !AllSpace(rest) ==> !IsSpace(r.value[0]))
      && (!AllSpace(rest) && NoLineTerminator(rest) ==> r.Some?)
  {
    var k := TrimStart(rest);
    TrimStartShape(rest);
    if |k| == 0 && |rest| > 0 {
      assert rest[..|rest| - 1] == rest[..|rest| - |k|][..|rest| - 1];
    }
    if NoLineTerminator(rest) {
      NoTerminatorTail(rest, k);
    }
  }

  lemma {:induction false} NoTerminatorTail(s: string, k: string)
    requires |k| <= |s| && k == s[|s| - |k|..] && NoLineTerminator(s)
    ensures NoLineTerminator(k)
  {
    assert forall i | 0 <= i < |k| :: k[i] == s[|s| - |k| + i];
  }

  /** `^>\s*(.+)$`, the candidate-content pattern: its capture. */
  function QuoteContent(s: string): Option<string> {
    if |s| >= 1 && s[0] == '>' then CaptureRest(s[1..]) else None
  }

  /** `^>\s*(.*)$`, the callout-line pattern: its capture. */
  function CalloutLine(s: string): Option<string> {
    if |s| >= 1 && s[0] == '>' then
      var k := TrimStart(s[1..]);
      if NoLineTerminator(k) then Some(k) else None
    else None
  }

  /** The callout-line capture is the one-line tail of the line after `>` and white space. */
  lemma {:induction false} CalloutLineShape(s: string)
    ensures var r := CalloutLine(s);
      && (r.Some? ==> |s| >= 1 && s[0] == '>' && |r.value| < |s|)
      && (r.Some? ==> NoLineTerminator(r.value) && r.value == s[|s| - |r.value|..])
      && (r.Some? ==> AllSpace(s[1..|s| - |r.value|]) && (r.value == [] || !IsSpace(r.value[0])))
  {
    if |s| >= 1 && s[0] == '>' {
      var rest := s[1..];
      var k := TrimStart(rest);
      TrimStartShape(rest);
      var pre := rest[..|rest| - |k|];
      assert pre == s[1..|s| - |k|];
      assert rest[|rest| - |k|..] == s[|s| - |k|..];
    }
  }

  /**
   * `^>\s*\[!question\]-?\s*[marker]\s*(.+)$` with the `i` flag: the trimmed
   * capture, which is what the callout patcher compares.
   */
  function CalloutMatch(s: string): Option<string> {
    if |s| >= 1 && s[0] == '>' then CalloutAfterAngle(TrimStart(s[1..])) else None
  }

  /** The callout pattern after `>\s*`: the case-insensitive `[!question]`. */
  function CalloutAfterAngle(a: string): Option<string> {
    if |a| >= 11 && Lower(a[..11]) == "[!question]" then CalloutAfterTag(a[11..]) else None
  }

  /** The callout pattern after `[!question]`: `-?\s*[marker]\s*(.+)$`, trimmed capture. */
  function CalloutAfterTag(b: string): Option<string> {
    var c := if |b| >= 1 && b[0] == '-' then b[1..] else b;
    var e := TrimStart(c);
    if |e| >= 1 && IsMarker(e[0]) then
      match CaptureRest(e[1..])
      case Some(x) => Some(Trim(x))
      case None => None
    else None
  }

  /** The callout pattern's capture comes back trimmed, from a line that starts with `>`. */
  lemma {:induction false} CalloutMatchTrimmed(s: string)
    ensures CalloutMatch(s).Some? ==> |s| >= 1 && s[0] == '>' && Trim(CalloutMatch(s).value) == CalloutMatch(s).value
  {
    if CalloutMatch(s).Some? {
      var a := TrimStart(s[1..]);
      var b := a[11..];
      var c := if |b| >= 1 && b[0] == '-' then b[1..] else b;
      var e := TrimStart(c);
      TrimTwice(CaptureRest(e[1..]).value);
    }
  }

  predicate IsCallout(s: string) {
    CalloutMatch(s).Some?
  }

  /** `^[^>]`: an empty line is not matched. */
  predicate NotCallout(s: string) {
    |s| >= 1 && s[0] != '>'
  }

  /** `line.trim().startsWith('## ')` */
  predicate IsSectionBreak(s: string) {
    StartsWith(Trim(s), "## ")
  }

  /** Each line with `> ` in front, as `lines.map(l => `> ${l}`)`. */
  function Quote(lines: seq<string>): (r: seq<string>)
    ensures |r| == |lines|
    ensures forall i | 0 <= i < |lines| :: r[i] == "> " + lines[i]
    decreases |lines|
  {
    if |lines| == 0 then [] else ["> " + lines[0]] + Quote(lines[1..])
  }

  /** The candidate block both patchers splice in: the start line, the quoted answer lines, a closing empty line. */
  function CandidateBlock(answer: string): seq<string> {
    ["> @candidate"] + Quote(Split(answer, '\n')) + [[]]
  }

  /** `> [!question]- E q`, the header line of the callout dialect. */
  function CalloutHeader(marker: char, text: string): string {
    "> [!question]- " + [marker] + " " + text
  }

  lemma {:induction false} LowerOfQuestionTag()
    ensures Lower("[!question]") == "[!question]"
  {
    var w := "[!question]";
    assert forall i | 0 <= i < |w| :: w[i] in "[!question]";
    LowerOfLower(w);
  }

  lemma {:induction false} CalloutRoundTripTag(marker: char, t: string)
    ensures var a := TrimStart(CalloutHeader(marker, t)[1..]);
      a == "[!question]- " + [marker] + " " + t
  {
    var s := CalloutHeader(marker, t);
    var rest := "[!question]- " + [marker] + " " + t;
    assert s[1..] == " " + rest;
    TrimStartOfSpaced(" ", rest);
  }

  lemma {:induction false} CalloutRoundTripAngle(b: string)
    ensures CalloutAfterAngle("[!question]" + b) == CalloutAfterTag(b)
  {
    var a := "[!question]" + b;
    assert a[..11] == "[!question]";
    assert a[11..] == b;
    LowerOfQuestionTag();
  }

  lemma {:induction false} CalloutRoundTripMarker(marker: char, t: string)
    requires IsMarker(marker)
    requires t != [] && Trim(t) == t && NoLineTerminator(t)
    ensures CalloutAfterTag("- " + [marker] + " " + t) == Some(t)
  {
    MarkerAfterDash(marker, t);
    CaptureAfterMarker(marker, t);
  }

  lemma {:induction false} MarkerAfterDash(marker: char, t: string)
    requires IsMarker(marker)
    ensures TrimStart(("- " + [marker] + " " + t)[1..]) == [marker] + " " + t
  {
    var e := [marker] + " " + t;
    assert ("- " + [marker] + " " + t)[1..] == " " + e;
    TrimStartOfSpaced(" ", e);
  }

  lemma {:induction false} CaptureAfterMarker(marker: char, t: string)
    requires t != [] && Trim(t) == t && NoLineTerminator(t)
    ensures CaptureRest(([marker] + " " + t)[1..]) == Some(t)
  {
    assert ([marker] + " " + t)[1..] == " " + t;
    TrimShape(t);
    CaptureOfSpaced(t);
  }

  /** One space and then text that starts with something else: `\s*(.+)$` captures the text. */
  lemma {:induction false} CaptureOfSpaced(t: string)
    requires t != [] && !IsSpace(t[0]) && NoLineTerminator(t)
    ensures CaptureRest(" " + t) == Some(t)
  {
    TrimStartOfSpaced(" ", t);
  }

  /** A callout header line reads back its question text. */
  lemma {:induction false} CalloutRoundTrip(marker: char, t: string)
    requires IsMarker(marker)
    requires t != [] && Trim(t) == t && NoLineTerminator(t)
    ensures CalloutMatch(CalloutHeader(marker, t)) == Some(t)
  {
    var s := CalloutHeader(marker, t);
    var b := "- " + [marker] + " " + t;
    CalloutRoundTripTag(marker, t);
    QuestionTagSplit(marker, t);
    CalloutMatchOf(s, "[!question]" + b);
    CalloutRoundTripAngle(b);
    CalloutRoundTripMarker(marker, t);
  }

  lemma {:induction false} QuestionTagSplit(marker: char, t: string)
    ensures "[!question]- " + [marker] + " " + t == "[!question]" + ("- " + [marker] + " " + t)
  {
  }

  /** The callout pattern reads `>`, skips white space, and goes on with what follows. */
  lemma {:induction false} CalloutMatchOf(s: string, a: string)
    requires |s| >= 1 && s[0] == '>' && TrimStart(s[1..]) == a
    ensures CalloutMatch(s) == CalloutAfterAngle(a)
  {
  }

  /** A quoted answer line `> l` gives back `l` through the callout-line pattern. */
  lemma {:induction false} CalloutLineOfQuote(l: string)
    requires l == [] || !IsSpace(l[0])
    requires NoLineTerminator(l)
    ensures CalloutLine("> " + l) == Some(l)
  {
    var s := "> " + l;
    assert s[1..] == " " + l;
    TrimStartOfSpaced(" ", l);
  }

  /** A quoted line is neither a section break nor a non-quote line. */
  lemma {:induction false} QuoteLineShape(l: string)
    ensures !NotCallout("> " + l)
    ensures !IsSectionBreak("> " + l)
  {
    var s := "> " + l;
    assert s[0] == '>';
    TrimKeepsFirst(s);
  }

  // The leading-marker strip `^[marker]\s*` replaced by nothing: one marker and the whitespace after it.
  function StripMarker(s: string): string {
    if |s| >= 1 && IsMarker(s[0]) then TrimStart(s[1..]) else s
  }

  /** What a click on a patch button does to the note. */
  datatype Outcome =
    | Written(lines: seq<string>)   // the note is rewritten with these lines
    | NotFound                      // "Could not find the question to update"
    | NoWrite                       // the dialog gave nothing to write

  /** A line the plugin writes into a candidate block is not blank. */
  lemma {:induction false} QuotedNotBlank(l: string)
    ensures !IsBlank("> " + l)
  {
    assert ("> " + l)[0] == '>';
  }
}

=== FILE: text.dfy ===
/** Option, the only wrapper the model needs. */
module Wrappers {
  datatype Option<+T> = None | Some(value: T)
}

/**
 * String and line-buffer primitives with the semantics of the JavaScript
 * built-ins the plugin relies on: `trim`, `split('\n')`, `join('\n')`,
 * `startsWith`, ASCII `toLowerCase`, `indexOf`, `replace` with a string
 * pattern, and `Array.prototype.splice`.
 */
module Text {
  import opened Wrappers

  /** ECMAScript WhiteSpace and LineTerminator code points: what `\s` matches and `trim` removes. */
  predicate IsSpace(c: char) {
    || c == ' ' || c == '\t' || c == '\n' || c == '\r' || c == '\U{0B}' || c == '\U{0C}'
    || c == '\U{A0}' || c == '\U{1680}' || ('\U{2000}' <= c <= '\U{200A}')
    || c == '\U{2028}' || c == '\U{2029}' || c == '\U{202F}' || c == '\U{205F}'
    || c == '\U{3000}' || c == '\U{FEFF}'
  }

  /** The characters a regular-expression `.` does not match. */
  predicate IsLineTerminator(c: char) {
    c == '\n' || c == '\r' || c == '\U{2028}' || c == '\U{2029}'
  }

  predicate AllSpace(s: string) {
    forall i | 0 <= i < |s| :: IsSpace(s[i])
  }

  predicate NoLineTerminator(s: string) {
    forall i | 0 <= i < |s| :: !IsLineTerminator(s[i])
  }

  /** `x.trim() === ''` */
  predicate IsBlank(s: string) {
    AllSpace(s)
  }

  /** The first index at or after `i` that does not hold white space, or `|s|`. */
  function SkipSpace(s: string, i: nat): (k: nat)
    requires i <= |s|
    ensures i <= k <= |s|
    decreases |s| - i
  {
    if i < |s| && IsSpace(s[i]) then SkipSpace(s, i + 1) else i
  }

  /** The last index at or before `j` whose preceding character is not white space, or 0. */
  function SkipSpaceBack(s: string, j: nat): (k: nat)
    requires j <= |s|
    ensures k <= j
  {
    if j > 0 && IsSpace(s[j - 1]) then SkipSpaceBack(s, j - 1) else j
  }

  /** The forward scan passes over white space only and stops at the first other character. */
  lemma {:induction false} SkipSpaceSpan(s: string, i: nat)
    requires i <= |s|
    ensures var k := SkipSpace(s, i);
      && (forall j | i <= j < k :: IsSpace(s[j]))
      && (k == |s| || !IsSpace(s[k]))
    decreases |s| - i
  {
    if i < |s| && IsSpace(s[i]) {
      SkipSpaceSpan(s, i + 1);
    }
  }

  /** The backward scan passes over white space only and stops after the last other character. */
  lemma {:induction false} SkipSpaceBackSpan(s: string, j: nat)
    requires j <= |s|
    ensures var k := SkipSpaceBack(s, j);
      && (forall i | k <= i < j :: IsSpace(s[i]))
      && (k == 0 || !IsSpace(s[k - 1]))
  {
    if j > 0 && IsSpace(s[j - 1]) {
      SkipSpaceBackSpan(s, j - 1);
    }
  }

  /** The scan forward stops at the first character that is not white space. */
  lemma {:induction false} SkipSpaceIs(s: string, i: nat, k: nat)
    requires i <= k <= |s|
    requires forall j | i <= j < k :: IsSpace(s[j])
    requires k == |s| || !IsSpace(s[k])
    ensures SkipSpace(s, i) == k
    decreases k - i
  {
    if i < k {
      SkipSpaceIs(s, i + 1, k);
    }
  }

  /** The scan backward stops after the last character that is not white space. */
  lemma {:induction false} SkipSpaceBackIs(s: string, j: nat, k: nat)
    requires k <= j <= |s|
    requires forall i | k <= i < j :: IsSpace(s[i])
    requires k == 0 || !IsSpace(s[k - 1])
    ensures SkipSpaceBack(s, j) == k
    decreases j - k
  {
    if k < j {
      SkipSpaceBackIs(s, j - 1, k);
    }
  }

  /** Leading white space removed. */
  function TrimStart(s: string): (r: string)
    ensures |r| <= |s|
  {
    s[SkipSpace(s, 0)..]
  }

  /** Trailing white space removed. */
  function TrimEnd(s: string): (r: string)
    ensures |r| <= |s|
  {
    s[..SkipSpaceBack(s, |s|)]
  }

  /** `String.prototype.trim`. */
  function Trim(s: string): (r: string)
    ensures |r| <= |s|
  {
    TrimEnd(TrimStart(s))
  }

  /** `TrimStart` drops a prefix of white space and keeps the rest from its first other character. */
  lemma {:induction false} TrimStartShape(s: string)
    ensures var r := TrimStart(s);
      && r == s[|s| - |r|..]
      && AllSpace(s[..|s| - |r|])
      && (r == [] || !IsSpace(r[0]))
  {
    SkipSpaceSpan(s, 0);
    var k := SkipSpace(s, 0);
    assert forall j | 0 <= j < k :: s[..k][j] == s[j];
  }

  /** `TrimEnd` drops a suffix of white space and keeps the rest up to its last other character. */
  lemma {:induction false} TrimEndShape(s: string)
    ensures var r := TrimEnd(s);
      && r == s[..|r|]
      && AllSpace(s[|r|..])
      && (r == [] || !IsSpace(r[|r| - 1]))
  {
    SkipSpaceBackSpan(s, |s|);
    var k := SkipSpaceBack(s, |s|);
    assert forall j | 0 <= j < |s| - k :: s[k..][j] == s[k + j];
  }

  /** A trimmed string neither starts nor ends with white space, and is empty exactly for blank input. */
  lemma {:induction false} TrimShape(s: string)
    ensures var r := Trim(s);
      && (r == [] || (!IsSpace(r[0]) && !IsSpace(r[|r| - 1])))
      && (r == [] <==> AllSpace(s))
  {
    var a := TrimStart(s);
    TrimStartShape(s);
    TrimEndShape(a);
    var r := TrimEnd(a);
    assert s == s[..|s| - |a|] + a;
    if r != [] {
      assert r[0] == a[0];
    }
    if r == [] {
      AllSpaceConcat(s[..|s| - |a|], a);
    } else {
      NotAllSpace(s, a);
    }
  }

  /** A string whose tail starts with a character other than white space is not blank. */
  lemma {:induction false} NotAllSpace(s: string, a: string)
    requires |a| <= |s| && a == s[|s| - |a|..] && a != [] && !IsSpace(a[0])
    ensures !AllSpace(s)
  {
    assert a[0] == s[|s| - |a|];
  }

  /** A string that is not blank keeps something after its trailing white space is removed. */
  lemma {:induction false} TrimEndNonBlank(s: string)
    requires !AllSpace(s)
    ensures TrimEnd(s) != [] && TrimEnd(s) == s[..|TrimEnd(s)|]
  {
    TrimEndShape(s);
    assert s[0..] == s;
  }

  lemma {:induction false} TrimStartOfSpaced(w: string, b: string)
    requires AllSpace(w)
    requires b == [] || !IsSpace(b[0])
    ensures TrimStart(w + b) == b
  {
    var s := w + b;
    SkipSpaceIs(s, 0, |w|);
    assert s[|w|..] == b;
  }

  lemma {:induction false} TrimEndOfSpaced(b: string, w: string)
    requires AllSpace(w)
    requires b == [] || !IsSpace(b[|b| - 1])
    ensures TrimEnd(b + w) == b
  {
    var s := b + w;
    SkipSpaceBackIs(s, |s|, |b|);
    assert s[..|b|] == b;
  }

  /** A string that does not start with white space is its own `TrimStart`. */
  lemma {:induction false} TrimStartOfUnspaced(s: string)
    requires s == [] || !IsSpace(s[0])
    ensures TrimStart(s) == s
  {
    SkipSpaceIs(s, 0, 0);
  }

  /** A string that starts with a character other than white space keeps it first after trimming. */
  lemma {:induction false} TrimKeepsFirst(s: string)
    requires |s| > 0 && !IsSpace(s[0])
    ensures Trim(s) != [] && Trim(s)[0] == s[0]
  {
    TrimStartOfUnspaced(s);
    TrimEndNonBlank(s);
  }

  /** A string with no white space at either end is its own trim. */
  lemma {:induction false} TrimOfTrimmed(b: string)
    requires b == [] || (!IsSpace(b[0]) && !IsSpace(b[|b| - 1]))
    ensures Trim(b) == b
  {
    TrimStartOfSpaced([], b);
    assert [] + b == b;
    TrimEndOfSpaced(b, []);
    assert b + [] == b;
  }

  lemma {:induction false} AllSpaceConcat(a: string, b: string)
    requires AllSpace(a) && AllSpace(b)
    ensures AllSpace(a + b)
  {
    assert forall i | 0 <= i < |a + b| :: (a + b)[i] == if i < |a| then a[i] else b[i - |a|];
  }

  /** White-space padding on either side does not change the trim. */
  lemma {:induction false} TrimOfPadded(w1: string, b: string, w2: string)
    requires AllSpace(w1) && AllSpace(w2)
    ensures Trim(w1 + b + w2) == Trim(b)
  {
    if AllSpace(b) {
      AllSpaceConcat(w1, b);
      AllSpaceConcat(w1 + b, w2);
      TrimOfSpace(w1 + b + w2);
      TrimOfSpace(b);
    } else {
      TrimOfPaddedCore(w1, b, w2);
    }
  }

  lemma {:induction false} TrimStartSkipsSpace(w: string, c: string)
    requires AllSpace(w)
    ensures TrimStart(w + c) == TrimStart(c)
  {
    var s := w + c;
    var k := SkipSpace(c, 0);
    SkipSpaceSpan(c, 0);
    SkipSpaceIs(s, 0, |w| + k);
    assert s[|w| + k..] == c[k..];
  }

  lemma {:induction false} TrimEndSkipsSpace(c: string, w: string)
    requires AllSpace(w)
    ensures TrimEnd(c + w) == TrimEnd(c)
  {
    var s := c + w;
    var k := SkipSpaceBack(c, |c|);
    SkipSpaceBackSpan(c, |c|);
    SkipSpaceBackIs(s, |s|, k);
    assert s[..k] == c[..k];
  }

  lemma {:induction false} TrimStartKeepsTail(b: string, w: string)
    requires !AllSpace(b)
    ensures TrimStart(b + w) == TrimStart(b) + w
  {
    var s := b + w;
    var k := SkipSpace(b, 0);
    SkipSpaceSpan(b, 0);
    SkipSpaceIs(s, 0, k);
    assert s[k..] == b[k..] + w;
  }

  lemma {:induction false} TrimEndKeepsHead(a: string, b: string)
    requires !AllSpace(b)
    ensures TrimEnd(a + b) == a + TrimEnd(b)
  {
    var s := a + b;
    var k := SkipSpaceBack(b, |b|);
    SkipSpaceBackSpan(b, |b|);
    var i :| 0 <= i < |b| && !IsSpace(b[i]);
    assert s[|a| + k - 1] == b[k - 1];
    assert forall j | |a| + k <= j < |s| :: s[j] == b[j - |a|];
    SkipSpaceBackIs(s, |s|, |a| + k);
    assert s[..|a| + k] == a + b[..k];
  }

  lemma {:induction false} TrimOfPaddedCore(w1: string, b: string, w2: string)
    requires AllSpace(w1) && AllSpace(w2) && !AllSpace(b)
    ensures Trim(w1 + b + w2) == Trim(b)
  {
    assert w1 + b + w2 == w1 + (b + w2);
    TrimStartSkipsSpace(w1, b + w2);
    TrimStartKeepsTail(b, w2);
    TrimEndSkipsSpace(TrimStart(b), w2);
  }

  lemma {:induction false} TrimOfSpace(s: string)
    requires AllSpace(s)
    ensures Trim(s) == []
  {
    SkipSpaceIs(s, 0, |s|);
  }

  function LowerChar(c: char): char {
    if 'A' <= c <= 'Z' then (c as int + 32) as char else c
  }

  /** `toLowerCase`, restricted to the ASCII letters. */
  function Lower(s: string): (r: string)
    ensures |r| == |s|
  {
    if |s| == 0 then [] else [LowerChar(s[0])] + Lower(s[1..])
  }

  /** `Lower` works character by character. */
  lemma {:induction false} LowerAt(s: string)
    ensures forall i | 0 <= i < |s| :: Lower(s)[i] == LowerChar(s[i])
    decreases |s|
  {
    if |s| > 0 {
      LowerAt(s[1..]);
      assert forall i | 1 <= i < |s| :: Lower(s)[i] == Lower(s[1..])[i - 1];
    }
  }

  /** Text without upper-case ASCII letters is its own lower case. */
  lemma {:induction false} LowerOfLower(w: string)
    requires forall i | 0 <= i < |w| :: !('A' <= w[i] <= 'Z')
    ensures Lower(w) == w
  {
    LowerAt(w);
  }

  lemma {:induction false} LowerAppend(a: string, b: string)
    ensures Lower(a + b) == Lower(a) + Lower(b)
  {
    LowerAt(a + b);
    LowerAt(a);
    LowerAt(b);
  }

  predicate StartsWith(s: string, prefix: string) {
    |prefix| <= |s| && s[..|prefix|] == prefix
  }

  /** `s.split(sep)` for a one-character separator. */
  function Split(s: string, sep: char): (r: seq<string>)
    ensures |r| >= 1
    ensures forall i | 0 <= i < |r| :: sep !in r[i]
  {
    if |s| == 0 then [[]]
    else if s[0] == sep then [[]] + Split(s[1..], sep)
    else
      var rest := Split(s[1..], sep);
      [[s[0]] + rest[0]] + rest[1..]
  }

  /** `lines.join(sep)`. */
  function Join(lines: seq<string>, sep: char): string {
    if |lines| == 0 then []
    else if |lines| == 1 then lines[0]
    else lines[0] + [sep] + Join(lines[1..], sep)
  }

  /** Splitting a joined text recovers it: `s.split('\n').join('\n') == s`. */
  lemma {:induction false} JoinSplit(s: string, sep: char)
    ensures Join(Split(s, sep), sep) == s
    decreases |s|
  {
    if |s| > 0 {
      JoinSplit(s[1..], sep);
      if s[0] == sep {
        JoinSplitAtSeparator(s, sep);
      } else if |Split(s[1..], sep)| == 1 {
        JoinSplitLastLine(s, sep);
      } else {
        JoinSplitInLine(s, sep);
      }
    }
  }

  /** Joining a line in front of at least one more puts the separator between. */
  lemma {:induction false} JoinCons(x: string, rest: seq<string>, sep: char)
    requires |rest| >= 1
    ensures Join([x] + rest, sep) == x + [sep] + Join(rest, sep)
  {
    assert ([x] + rest)[1..] == rest;
  }

  lemma {:induction false} JoinSplitAtSeparator(s: string, sep: char)
    requires |s| > 0 && s[0] == sep && Join(Split(s[1..], sep), sep) == s[1..]
    ensures Join(Split(s, sep), sep) == s
  {
    JoinCons([], Split(s[1..], sep), sep);
    assert s == [] + [sep] + s[1..];
  }

  lemma {:induction false} JoinSplitLastLine(s: string, sep: char)
    requires |s| > 0 && s[0] != sep && Join(Split(s[1..], sep), sep) == s[1..]
    requires |Split(s[1..], sep)| == 1
    ensures Join(Split(s, sep), sep) == s
  {
    var rest := Split(s[1..], sep);
    assert Split(s, sep) == [[s[0]] + rest[0]];
    assert s == [s[0]] + s[1..];
  }

  lemma {:induction false} JoinSplitInLine(s: string, sep: char)
    requires |s| > 0 && s[0] != sep && Join(Split(s[1..], sep), sep) == s[1..]
    requires |Split(s[1..], sep)| > 1
    ensures Join(Split(s, sep), sep) == s
  {
    var rest := Split(s[1..], sep);
    var j := Join(rest[1..], sep);
    assert Split(s, sep) == [[s[0]] + rest[0]] + rest[1..];
    JoinCons([s[0]] + rest[0], rest[1..], sep);
    assert rest == [rest[0]] + rest[1..];
    JoinCons(rest[0], rest[1..], sep);
    assert s == [s[0]] + s[1..];
    assert ([s[0]] + rest[0]) + [sep] + j == [s[0]] + (rest[0] + [sep] + j);
  }

  lemma {:induction false} SplitPrefix(a: string, sep: char, b: string)
    requires sep !in a
    ensures Split(a + [sep] + b, sep) == [a] + Split(b, sep)
    decreases |a|
  {
    if |a| == 0 {
      assert a + [sep] + b == [sep] + b;
      assert ([sep] + b)[1..] == b;
    } else {
      SplitPrefix(a[1..], sep, b);
      assert (a + [sep] + b)[1..] == a[1..] + [sep] + b;
      assert a == [a[0]] + a[1..];
    }
  }

  lemma {:induction false} SplitNoSeparator(a: string, sep: char)
    requires sep !in a
    ensures Split(a, sep) == [a]
    decreases |a|
  {
    if |a| > 0 {
      SplitNoSeparator(a[1..], sep);
      assert a == [a[0]] + a[1..];
    }
  }

  /** Joining separator-free lines and splitting again recovers them. */
  lemma {:induction false} SplitJoin(lines: seq<string>, sep: char)
    requires |lines| >= 1
    requires forall i | 0 <= i < |lines| :: sep !in lines[i]
    ensures Split(Join(lines, sep), sep) == lines
    decreases |lines|
  {
    if |lines| == 1 {
      SplitNoSeparator(lines[0], sep);
    } else {
      SplitJoin(lines[1..], sep);
      SplitPrefix(lines[0], sep, Join(lines[1..], sep));
      assert lines == [lines[0]] + lines[1..];
    }
  }

  lemma {:induction false} JoinAppend(a: seq<string>, b: seq<string>, sep: char)
    requires |a| >= 1 && |b| >= 1
    ensures Join(a + b, sep) == Join(a, sep) + [sep] + Join(b, sep)
    decreases |a|
  {
    if |a| == 1 {
      assert (a + b)[1..] == b;
    } else {
      JoinAppend(a[1..], b, sep);
      assert (a + b)[1..] == a[1..] + b;
    }
  }

  /** `array.splice(start, deleteCount, ...items)` with its clamping of start and count; the new array. */
  function Splice<T>(a: seq<T>, start: nat, deleteCount: nat, items: seq<T>): seq<T> {
    var s := if start <= |a| then start else |a|;
    var d := if deleteCount <= |a| - s then deleteCount else |a| - s;
    a[..s] + items + a[s + d..]
  }

  /** Within bounds, a splice keeps the prefix, inserts the items and keeps the tail after the deleted run. */
  lemma {:induction false} SpliceInside<T>(a: seq<T>, start: nat, deleteCount: nat, items: seq<T>)
    requires start + deleteCount <= |a|
    ensures Splice(a, start, deleteCount, items) == a[..start] + items + a[start + deleteCount..]
  {
  }

  /** Deleting exactly the run between a prefix and a suffix leaves the two joined. */
  lemma {:induction false} SpliceRemoves<T>(a: seq<T>, b: seq<T>, c: seq<T>)
    ensures Splice(a + b + c, |a|, |b|, []) == a + c
  {
    var x := a + b + c;
    assert x[..|a|] == a;
    assert x[|a| + |b|..] == c;
  }

  /**
   * Within bounds, element by element: the lines before `start` stay where
   * they were, the items follow, and every line after the deleted run moves
   * by the difference in length.
   */
  lemma {:induction false} SpliceFrame<T>(a: seq<T>, start: nat, deleteCount: nat, items: seq<T>)
    requires start + deleteCount <= |a|
    ensures var r := Splice(a, start, deleteCount, items);
      && |r| == |a| - deleteCount + |items|
      && (forall k | 0 <= k < start :: r[k] == a[k])
      && (forall k | 0 <= k < |items| :: r[start + k] == items[k])
      && (forall k | start + deleteCount <= k < |a| :: r[k - deleteCount + |items|] == a[k])
  {
    SpliceInside(a, start, deleteCount, items);
  }

  /** A count reaching past the end removes the whole tail from `start`. */
  lemma {:induction false} SpliceTail<T>(a: seq<T>, start: nat, deleteCount: nat, items: seq<T>)
    requires start <= |a| <= start + deleteCount
    ensures Splice(a, start, deleteCount, items) == a[..start] + items
  {
    assert a[|a|..] == [];
  }

  /** Past the end, a splice appends the items. */
  lemma {:induction false} SplicePastEnd<T>(a: seq<T>, start: nat, deleteCount: nat, items: seq<T>)
    requires |a| <= start
    ensures Splice(a, start, deleteCount, items) == a + items
  {
    assert a[..|a|] == a;
  }

  /** Does `pat` occur in `s` at position `i`? */
  predicate OccursAt(s: string, pat: string, i: nat) {
    i + |pat| <= |s| && s[i..i + |pat|] == pat
  }

  /** `s.indexOf(pat, from)`: the first occurrence at or after `from`. */
  function IndexOf(s: string, pat: string, from: nat): (r: Option<nat>)
    ensures r.Some? ==> from <= r.value && OccursAt(s, pat, r.value)
    ensures forall i | from <= i && (r.None? || i < r.value) :: !OccursAt(s, pat, i)
    decreases |s| - from
  {
    if from + |pat| > |s| then None
    else if s[from..from + |pat|] == pat then Some(from)
    else IndexOf(s, pat, from + 1)
  }

  /** `i` is the first position where `pat` occurs in `s`. */
  predicate FirstOccurrence(s: string, pat: string, i: nat) {
    OccursAt(s, pat, i) && forall j: nat | j < i :: !OccursAt(s, pat, j)
  }

  /**
   * `s.replace(pat, rep)` with the replacement taken literally. Stated against the
   * occurrences alone: only the first one is replaced, and nothing changes without one.
   */
  function ReplaceFirst(s: string, pat: string, rep: string): (r: string)
    ensures (forall i: nat :: !OccursAt(s, pat, i)) ==> r == s
    ensures forall i: nat | FirstOccurrence(s, pat, i) :: r == s[..i] + rep + s[i + |pat|..]
  {
    match IndexOf(s, pat, 0)
    case None => s
    case Some(i) => s[..i] + rep + s[i + |pat|..]
  }

  /** `a` is a (not necessarily contiguous) subsequence of `b`. */
  predicate IsSubsequence<T(==)>(a: seq<T>, b: seq<T>)
    decreases |b|
  {
    |a| == 0 || (|b| > 0 && ((a[0] == b[0] && IsSubsequence(a[1..], b[1..])) || IsSubsequence(a, b[1..])))
  }

  lemma {:induction false} SubsequenceExtend<T>(a: seq<T>, b: seq<T>, c: seq<T>)
    requires IsSubsequence(a, b)
    ensures IsSubsequence(a, b + c)
    decreases |b|
  {
    if |a| > 0 {
      assert (b + c)[1..] == b[1..] + c;
      if a[0] == b[0] && IsSubsequence(a[1..], b[1..]) {
        SubsequenceExtend(a[1..], b[1..], c);
      } else {
        SubsequenceExtend(a, b[1..], c);
      }
    }
  }

  lemma {:induction false} SubsequenceSnoc<T>(a: seq<T>, b: seq<T>, c: seq<T>, x: T)
    requires IsSubsequence(a, b)
    ensures IsSubsequence(a + [x], b + c + [x])
    decreases |b| + |c|
  {
    if |a| == 0 {
      if |b + c| == 0 {
        assert IsSubsequence<T>([], []);
      } else {
        SubsequenceSnoc([], (b + c)[1..], [], x);
        assert (b + c)[1..] + [] + [x] == (b + c + [x])[1..];
      }
    } else if a[0] == b[0] && IsSubsequence(a[1..], b[1..]) {
      SubsequenceSnoc(a[1..], b[1..], c, x);
      assert (a + [x])[1..] == a[1..] + [x];
      assert (b + c + [x])[1..] == b[1..] + c + [x];
    } else {
      SubsequenceSnoc(a, b[1..], c, x);
      assert (b + c + [x])[1..] == b[1..] + c + [x];
    }
  }

  lemma {:induction false} AppendNil<T>(a: seq<T>)
    ensures a + [] == a
  {
  }

  lemma {:induction false} AppendAssoc<T>(a: seq<T>, b: seq<T>, c: seq<T>)
    ensures a + b + c == a + (b + c)
  {
  }

  lemma {:induction false} AppendHead<T>(a: seq<T>, s: seq<T>)
    requires |s| > 0
    ensures a + [s[0]] + s[1..] == a + s
  {
    assert s == [s[0]] + s[1..];
  }

  lemma {:induction false} SubsequenceReflexive<T>(a: seq<T>)
    ensures IsSubsequence(a, a)
    decreases |a|
  {
    if |a| > 0 {
      SubsequenceReflexive(a[1..]);
    }
  }

  /**
   * The first index at or after `from` whose element satisfies `p`, or the
   * end of `xs` (or `from` itself, past the end): the scan loops of the
   * plugin that stop at the first line of some kind.
   */
  function First<T>(xs: seq<T>, p: T -> bool, from: nat): (r: nat)
    ensures from <= r
    ensures from <= |xs| ==> r <= |xs|
    ensures from > |xs| ==> r == from
    ensures forall j {:trigger p(xs[j])} | from <= j < r :: !p(xs[j])
    ensures r < |xs| ==> p(xs[r])
    decreases |xs| - from
  {
    if from >= |xs| then from else if p(xs[from]) then from else First(xs, p, from + 1)
  }

  /** `First` is the only index with its two properties. */
  lemma {:induction false} FirstIs<T>(xs: seq<T>, p: T -> bool, from: nat, i: nat)
    requires from <= i <= |xs|
    requires forall j | from <= j < i :: !p(xs[j])
    requires i < |xs| ==> p(xs[i])
    ensures First(xs, p, from) == i
  {
  }

  /** Scanning from the start of a tail of `a + b` is scanning `b`. */
  lemma {:induction false} FirstShift<T>(a: seq<T>, b: seq<T>, p: T -> bool, from: nat)
    requires from <= |b|
    ensures First(a + b, p, |a| + from) == |a| + First(b, p, from)
  {
    var x := a + b;
    var i := |a| + First(b, p, from);
    forall j | |a| + from <= j < i ensures !p(x[j]) {
      assert x[j] == b[j - |a|];
    }
    if i < |x| {
      assert x[i] == b[i - |a|];
    }
    FirstIs(x, p, |a| + from, i);
  }

  /** A scan passes over a run of elements none of which satisfies `p`. */
  lemma {:induction false} FirstSkip<T>(a: seq<T>, b: seq<T>, p: T -> bool)
    requires forall j | 0 <= j < |a| :: !p(a[j])
    ensures First(a + b, p, 0) == |a| + First(b, p, 0)
  {
    var x := a + b;
    var i := |a| + First(b, p, 0);
    forall j | 0 <= j < i ensures !p(x[j]) {
      if j < |a| {
        assert x[j] == a[j];
      } else {
        assert x[j] == b[j - |a|];
      }
    }
    if i < |x| {
      assert x[i] == b[i - |a|];
    }
    FirstIs(x, p, 0, i);
  }

  /** The elements satisfying `p`, in order. */
  function Filter<T>(xs: seq<T>, p: T -> bool): (r: seq<T>)
    ensures |r| <= |xs|
    ensures forall j {:trigger p(r[j])} | 0 <= j < |r| :: p(r[j])
    decreases |xs|
  {
    if |xs| == 0 then []
    else (if p(xs[0]) then [xs[0]] else []) + Filter(xs[1..], p)
  }

  lemma {:induction false} FilterAppend<T>(a: seq<T>, b: seq<T>, p: T -> bool)
    ensures Filter(a + b, p) == Filter(a, p) + Filter(b, p)
    decreases |a|
  {
    if |a| == 0 {
      assert a + b == b;
    } else {
      var h := if p(a[0]) then [a[0]] else [];
      assert (a + b)[1..] == a[1..] + b;
      assert Filter(a + b, p) == h + Filter(a[1..] + b, p);
      FilterAppend(a[1..], b, p);
      assert Filter(a, p) == h + Filter(a[1..], p);
    }
  }

  /** The filter is empty exactly when no element satisfies `p`. */
  lemma {:induction false} FilterEmpty<T>(xs: seq<T>, p: T -> bool)
    ensures Filter(xs, p) == [] <==> forall j | 0 <= j < |xs| :: !p(xs[j])
    decreases |xs|
  {
    if |xs| > 0 {
      FilterEmpty(xs[1..], p);
      if Filter(xs, p) == [] {
        forall j | 0 <= j < |xs| ensures !p(xs[j]) {
          if j > 0 {
            assert xs[j] == xs[1..][j - 1];
          }
        }
      }
    }
  }

  /** Every element satisfies `p`: the filter keeps them all. */
  lemma {:induction false} FilterAll<T>(xs: seq<T>, p: T -> bool)
    requires forall j | 0 <= j < |xs| :: p(xs[j])
    ensures Filter(xs, p) == xs
    decreases |xs|
  {
    if |xs| > 0 {
      FilterAll(xs[1..], p);
      assert xs == [xs[0]] + xs[1..];
    }
  }

  /**
   * Splicing `b` over `a[s..e]` and scanning from `s`: the scan passes over
   * `b` when no element of it satisfies `p`, and stops where the scan of
   * the kept tail `a[e..]` stops.
   */
  lemma {:induction false} FirstAfterSplice<T>(a: seq<T>, s: nat, e: nat, b: seq<T>, p: T -> bool)
    requires s <= e <= |a|
    requires forall j | 0 <= j < |b| :: !p(b[j])
    ensures var a2 := a[..s] + b + a[e..];
      var k := First(a[e..], p, 0);
      && First(a2, p, s) == s + |b| + k
      && a2[s..s + |b| + k] == b + a[e..][..k]
  {
    var tail := a[e..];
    var a2 := a[..s] + b + tail;
    FirstSkip(b, tail, p);
    assert a2 == a[..s] + (b + tail);
    FirstShift(a[..s], b + tail, p, 0);
    var k := First(tail, p, 0);
    assert a2[s..s + |b| + k] == b + tail[..k];
  }

  lemma {:induction false} FilterPadded<T>(x: seq<T>, lo: nat, hi: nat, b: seq<T>, rest: seq<T>, keep: T -> bool)
    requires lo <= hi <= |x| && x[lo..hi] == b + rest
    requires Filter(rest, keep) == []
    ensures Filter(x[lo..hi], keep) == Filter(b, keep)
  {
    FilterAppend(b, rest, keep);
    AppendNil(Filter(b, keep));
  }

  /**
   * What a scan from `s` collects after splicing `b` over `a[s..e]`: the
   * elements of `b` it keeps, when the kept tail contributes nothing before
   * the scan stops.
   */
  lemma {:induction false} FilterAfterSplice<T>(a: seq<T>, s: nat, e: nat, b: seq<T>, p: T -> bool, keep: T -> bool)
    requires s <= e <= |a|
    requires forall j | 0 <= j < |b| :: !p(b[j])
    requires Filter(a[e..][..First(a[e..], p, 0)], keep) == []
    ensures var a2 := a[..s] + b + a[e..];
      Filter(a2[s..First(a2, p, s)], keep) == Filter(b, keep)
  {
    var a2 := a[..s] + b + a[e..];
    var k := First(a[e..], p, 0);
    var rest := a[e..][..k];
    FirstAfterSplice(a, s, e, b, p);
    FilterPadded(a2, s, First(a2, p, s), b, rest, keep);
  }

  /** A filtered slice is empty exactly when no element of the slice passes. */
  lemma {:induction false} FilterSliceEmpty<T>(xs: seq<T>, a: nat, e: nat, p: T -> bool)
    requires a <= e <= |xs|
    ensures Filter(xs[a..e], p) == [] <==> forall j {:trigger p(xs[j])} | a <= j < e :: !p(xs[j])
  {
    var region := xs[a..e];
    FilterEmpty(region, p);
    if forall j {:trigger p(xs[j])} | a <= j < e :: !p(xs[j]) {
      forall i | 0 <= i < |region| ensures !p(region[i]) {
        assert region[i] == xs[a + i];
      }
    } else {
      var j :| a <= j < e && p(xs[j]);
      assert region[j - a] == xs[j];
    }
  }

  /** The first match is found at the same place in a sequence that agrees up to and including it. */
  lemma {:induction false} FirstOfPrefix<T>(xs: seq<T>, ys: seq<T>, p: T -> bool, q: nat)
    requires First(xs, p, 0) == q < |xs|
    requires q < |ys| && ys[..q + 1] == xs[..q + 1]
    ensures First(ys, p, 0) == q
  {
    forall j | 0 <= j <= q ensures ys[j] == xs[j] {
      assert ys[j] == ys[..q + 1][j];
    }
    FirstIs(ys, p, 0, q);
  }

  /** Scanning from a position where the scan stops, or from the end, goes nowhere. */
  lemma {:induction false} FirstAtStop<T>(xs: seq<T>, p: T -> bool, e: nat)
    requires e <= |xs| && (e < |xs| ==> p(xs[e]))
    ensures First(xs[e..], p, 0) == 0
  {
    if e < |xs| {
      assert xs[e..][0] == xs[e];
    }
  }
}
